=== FILE: README.md ===
# crusadeOS core in Dafny

crusadeOS is a browser desktop backed by a small Node server, plus a
separate bare-metal kernel that draws a boot screen in VGA text mode. This
project models the parts of it that decide what happens, and proves
properties of them.

- **Server** (`server/server.js`):
  - the VFS sandbox `getAbsolutePath`, which joins and normalises paths with Node's POSIX `path` module;
  - the in-memory session table with sign-up, login, logout and `authenticateToken`;
  - the virtual-file-system endpoints list, create, read, write and delete, over the whole disk, so an escape from the VFS root can be seen;
  - the app package manager: install from a `.pakapp` file, list installed apps, uninstall.
- **Client path code**:
  - the `CrusadeFileSystem` service: `validatePath`, the name sanitiser of `createItem`, `handleError` and the event-handler registry;
  - the browser `path` utility;
  - the terminal's `resolvePath`, its own `normalize`, and command dispatch;
  - the file explorer's navigation, listing order and create/delete requests.
- **Client state machines**:
  - the window list of `App.js`: launch, focus, close, minimise, maximise, open a file in the editor;
  - the taskbar's pin and unpin;
  - the notification queue;
  - the authentication context;
  - the text editor.
- **Kernel** (`kernel/gui/vga.c`, `kernel/gui/boot_screen.c`):
  - the 80x25 VGA text buffer, as 4000 bytes of character and attribute;
  - its drawing primitives;
  - the cursor that wraps and wipes the screen;
  - the boot screen's loading bar.

The model has one Dafny module per source component.

| module | models |
|---|---|
| `Common`, `Strings` | shared helpers: options, filtering, splitting and joining, trimming |
| `PosixPath` | Node's POSIX `path.normalize` and `path.join`, as a walk over segments |
| `Sandbox` | `getAbsolutePath` |
| `Sessions` | the auth endpoints and `authenticateToken` |
| `Vfs` | the disk and the VFS endpoints |
| `Packages` | the app endpoints |
| `ClientFs` | `CrusadeFileSystem` |
| `PathUtils` | `frontend/src/utils/path.js` |
| `Terminal` | `TerminalApp` |
| `Explorer` | `FileExplorer` |
| `Windows` | `App.js` |
| `Taskbar` | the taskbar |
| `Notifications` | the notification queue |
| `AuthClient` | `AuthContext` |
| `TextEditor` | the text editor |
| `Vga` | the VGA driver |
| `BootScreen` | the loading bar |

Some things the code depends on become parameters of the model:
- the file system's root directory (`__dirname` is not known);
- bcrypt, as a hash function and a verify function;
- uuid, as fresh-id parameters;
- `JSON.parse` of a package file, as a function to a `Parsed` value;
- every HTTP answer a client component waits for;
- the clock.

## Model

| member | source | states |
|---|---|---|
| PosixPath.Walk | server/server.js:63 | Resolving path segments keeps only plain names (and leading `..` when the path is relative). |
| PosixPath.WalkAppend | server/server.js:63 | Resolving a concatenation of segments is resolving the first part, then the second on top of it. |
| PosixPath.WalkPlain | server/server.js:63 | Plain names are appended unchanged by the resolution. |
| PosixPath.Normalize | server/server.js:63 | `path.normalize` never yields the empty string, and its result is absolute exactly when the input is. |
| PosixPath.JoinPaths | server/server.js:63 | `path.join` never yields the empty string, and it yields an absolute path when its first argument is absolute. |
| PosixPath.SplitShown | server/server.js:63 | A rendered absolute path splits at `/` into the empty head, its names, and an empty tail when it has a trailing slash. |
| PosixPath.KeyOfShown | server/server.js:63 | The names read back from a rendered absolute path are the names it was rendered from. |
| PosixPath.NormalizeAbsolute | server/server.js:63 | The normal form of an absolute path is its resolved names rendered, with the input's trailing slash kept. |
| PosixPath.JoinShownName | server/server.js:193 | Joining a plain name onto a normal absolute path names that path's child. |
| Sandbox.GetAbsolutePath | server/server.js:61-69 | A path is accepted exactly when the joined path starts with the root text, and then the joined path is returned. |
| Sandbox.AbsoluteRequestShown | server/server.js:61-69 | An absolute request is always accepted and names the root's segments followed by the request's resolved names. |
| Sandbox.AbsoluteRequestStaysInside | server/server.js:61-69 | Every absolute request path resolves inside the root, with `..` clamped at the virtual `/`. |
| Sandbox.JoinedShown | server/server.js:63 | Joining the root with a normal absolute path renders the root's names followed by the path's names. |
| Sandbox.ParentSibling | server/server.js:63-67 | `../x` is accepted exactly when `x` begins with the characters of the root's last segment, and then it names the root's sibling `x`. |
| Sandbox.SiblingEscapes | server/server.js:65 | The character-prefix test accepts a sibling such as `vfs_data2` that lies outside the root. |
| Sandbox.SlashIsRoot | server/server.js:61-69 | The request `/` lands on the root itself. |
| Sandbox.NameClimbsOut | server/server.js:193 | The name `../x` joined onto the root names the root's sibling `x`. |
| Sessions.BearerToken | server/server.js:76-77 | A token taken from the header is non-empty and space-free. |
| Sessions.BearerRoundTrip | server/server.js:77 | `scheme + " " + token` gives the token back. |
| Sessions.Authenticate | server/server.js:75-89 | The request passes exactly when the header's token is in the session table, and then carries that session's user id; otherwise the status is 401 for no token and 403 for an unknown one. |
| Sessions.Signup | server/server.js:93-115 | The status is 201 exactly when both fields are present and the name is unused, and then one user with the hashed password is appended; otherwise the list is unchanged: a missing field gets 400 "Username and password are required.", and a taken name gets 409 "Username already taken.". |
| Sessions.SignupKeepsUsernamesUnique | server/server.js:99-108 | Sign-up never creates a second account with the same name. |
| Sessions.FindUser | server/server.js:125 | A user is found exactly when some user has the name, and it is the first user with that name. |
| Sessions.Login | server/server.js:117-143 | The status is 200 exactly when the user exists and the password verifies, and then the fresh token maps to that user; otherwise no session changes: a missing field gets 400 "Username and password are required.", and any other failure gets 401 "Invalid username or password.". |
| Sessions.LoginFailuresIndistinguishable | server/server.js:127-134 | An unknown user and a wrong password get identical replies. |
| Sessions.LoginThenAuthenticate | server/server.js:136-138 | The token a login hands out authenticates its user on the next request. |
| Sessions.LoginKeepsOtherSessions | server/server.js:136-138 | A login with an unused token leaves every other session as it was. |
| Sessions.Logout | server/server.js:145-153 | Logout succeeds exactly for a token in the table and removes only that token; otherwise the status is 400 and nothing changes. |
| Sessions.LogoutThenRefused | server/server.js:79-89 | After a logout the same header is refused with 403, and a second logout fails. |
| Vfs.Lookup | server/server.js:164-173 | A lookup finds exactly the node stored at the key (never a file named with a trailing slash), and reports ENOENT exactly when the key is absent and no ancestor is a file. |
| Vfs.LookupWellFormed | server/server.js:164-173 | On a well-formed disk, a lookup finds exactly the nodes that are there. |
| Vfs.LocateAbsolute | server/server.js:163 | An absolute request path lands on the root's segments followed by its own resolved names. |
| Vfs.List | server/server.js:159-178 | The status is 200 exactly when the path resolves to a folder, and then the items are that folder's children. It is 404 "Path not found." exactly when nothing is stored there and no file is on the way; the path defaults to `/`. |
| Vfs.CreateAt | server/server.js:195-212 | 409 exactly when something exists at the target. 201 exactly when the target is free, below the root and inside a folder, and then exactly one node is added. |
| Vfs.Create | server/server.js:181-214 | 400 exactly when a field is missing or the type is neither `file` nor `folder`. A failure leaves the disk unchanged, and a well-formed disk stays well formed. |
| Vfs.CreateResolves | server/server.js:191-193 | Only the parent path is sandboxed; the name is joined on afterwards. |
| Vfs.ReadFile | server/server.js:217-241 | 400 exactly for a missing path or a folder, 404 exactly when nothing is there, 200 exactly for a file named without a trailing slash; content comes back exactly on 200 and is that file's content. |
| Vfs.WriteFile | server/server.js:244-267 | 400 exactly for a missing path or a folder, 404 exactly when nothing is there, 200 exactly for an existing file when content is given. No node is added or removed; a success replaces only that file's content, anything else leaves the disk unchanged. |
| Vfs.Delete | server/server.js:270-298 | 400 exactly for a missing path or a non-empty folder, 404 exactly when nothing is there, 200 exactly for a file or an empty folder other than the disk root, which no request reaches. A success removes that node only; anything else changes nothing; well-formedness is kept. |
| Vfs.WriteThenRead | server/server.js:258 | A successful write is what the next read of the same path returns. |
| Vfs.EmptyRootDeletable | server/server.js:278-290 | The sandbox root, requested as `/`, is deleted with 200 when it is an empty folder, as `fs.rmdir` on the empty root directory does. |
| Vfs.DeleteThenRead | server/server.js:286-293 | A deleted path reads as 404 afterwards. |
| Vfs.CreateTarget | server/server.js:191-193 | A plain name created under an absolute parent targets the parent's segments plus the name. |
| Vfs.CreateThenList | server/server.js:204-208 | A plain name created under an absolute folder appears in that folder's listing with its type. |
| Vfs.CreateSucceedsWhen | server/server.js:195-208 | On a well-formed disk, creating a plain name succeeds exactly when the parent is a folder and the name is free there. |
| Vfs.AbsoluteRequestsStayInRoot | server/server.js:244-298 | Writes and deletes of absolute paths never touch anything outside the root. |
| Vfs.PlainCreateStaysInRoot | server/server.js:181-214 | A create of a plain name under an absolute path never touches anything outside the root. |
| Vfs.CreateNameEscapes | server/server.js:193 | The name `../x` under a path naming `/` creates a folder next to the VFS root, outside it. |
| Vfs.Serve | server/server.js:75-89 | Without valid authentication no endpoint changes or reveals anything; the disk stays well formed. |
| Vfs.OneDiskForAllUsers | server/server.js:159-298 | The user id is never consulted, so any two valid tokens get the same answer. |
| Packages.FindPredefined | server/server.js:351-354 | A predefined app is found exactly when one matches both the id and the component name. |
| Packages.Match | server/server.js:351-352 | Strict equality: a match needs a string id and a string component name, and then it is the predefined lookup. |
| Packages.FetchPackage | server/server.js:324-334 | The file's content is read exactly when the path resolves to an existing file; otherwise the status is 404 or 500. |
| Packages.InstallParsed | server/server.js:336-379 | Malformed JSON and a missing appId, title or componentName give 400; an unrecognised app gives 400 with its message; an app already installed gives 409 with its id in the message. Success appends one new record for a predefined app not yet installed; every failure leaves the manifest unchanged. |
| Packages.Install | server/server.js:315-380 | A missing path is 400 and a missing file 404 with its message; a read file is handed to the parse step; every failure leaves the manifest unchanged. |
| Packages.InstallSucceedsIff | server/server.js:315-372 | An install succeeds exactly when the file exists and parses to an object with a truthy title of any type and string id and component matching an uninstalled predefined app. |
| Packages.InstallCopiesPredefined | server/server.js:363-369 | The stored record copies the predefined entry, not the file's own title or description. |
| Packages.AnyTruthyTitleInstalls | server/server.js:346-372 | A truthy title that is not a string passes validation, and the success message writes its text. |
| Packages.NonStringIdRefused | server/server.js:346-354 | A truthy id or component name that is not a string passes the presence check but is refused as unrecognised. |
| Packages.InstallKeepsInvariants | server/server.js:351-372 | Installing keeps app ids unique and admits only predefined apps. |
| Packages.ListInstalled | server/server.js:304-312 | The manifest is returned as stored. |
| Packages.Uninstall | server/server.js:383-405 | 400 for a missing id, 404 for an id that is not installed, 200 exactly when the id is installed, and then the manifest is the old one with exactly that id's records removed, the rest in order; otherwise nothing changes. |
| Packages.UninstallKeepsInvariants | server/server.js:391-393 | Uninstalling keeps app ids unique and only predefined apps. |
| Packages.UninstallLast | server/server.js:383-405 | Uninstalling an app that was just appended restores the manifest. |
| Packages.InstallThenUninstall | server/server.js:315-405 | Installing and then uninstalling the same app restores the manifest. |
| ClientFs.StripTrailingSlashes | frontend/src/services/CrusadeFileSystem.js:24 | The result is a prefix without a trailing slash, and only slashes are removed. |
| ClientFs.ValidatePath | frontend/src/services/CrusadeFileSystem.js:16-35 | Missing or empty input is refused. Input containing `..` anywhere is refused. Every other input is accepted. An accepted path is canonical, keeps every non-slash character, and has the same slash-separated names as the input with backslashes read as slashes. |
| ClientFs.CanonicalDotDot | frontend/src/services/CrusadeFileSystem.js:22-26 | The `..` test after normalising sees exactly the `..` pairs of the raw input. |
| ClientFs.CanonicalKeepsNames | frontend/src/services/CrusadeFileSystem.js:22-24 | Normalising moves, adds and removes only slashes. |
| Strings.CollapseKeepsSegments | frontend/src/services/CrusadeFileSystem.js:24 | Collapsing slash runs keeps the names of a path. |
| ClientFs.StripKeepsSegments | frontend/src/services/CrusadeFileSystem.js:24 | Dropping trailing slashes keeps the names of a path. |
| ClientFs.CanonicalKeepsSegments | frontend/src/services/CrusadeFileSystem.js:22-24 | Normalising keeps the names of the path, in order. |
| ClientFs.ValidateKeepsNamesApart | frontend/src/services/CrusadeFileSystem.js:16-35 | `a/b` validates to a path whose names are `a` and `b`. |
| ClientFs.CanonicalShape | frontend/src/services/CrusadeFileSystem.js:22-34 | A non-empty normalised path is rooted, backslash-free, single-slashed and has no trailing slash. |
| ClientFs.ValidateCanonical | frontend/src/services/CrusadeFileSystem.js:16-35 | A canonical path validates to itself. |
| ClientFs.ValidateIdempotent | frontend/src/services/CrusadeFileSystem.js:16-35 | Validating an accepted path again gives the same result. |
| ClientFs.SeparatorsAreRoot | frontend/src/services/CrusadeFileSystem.js:22-33 | Any non-empty run of slashes and backslashes validates to the root. |
| ClientFs.DotsInsideNameRefused | frontend/src/services/CrusadeFileSystem.js:26-28 | A `..` inside an ordinary name is refused too. |
| ClientFs.SanitizeName | frontend/src/services/CrusadeFileSystem.js:104 | The result is the trimmed name with exactly the nine forbidden characters removed, the others kept in order and number. |
| ClientFs.RemoveCharsFilters | frontend/src/services/CrusadeFileSystem.js:104 | Removing characters is filtering by the complement: order and repetitions are kept. |
| ClientFs.SanitizeLeavesInnerSpace | frontend/src/services/CrusadeFileSystem.js:104 | Trimming happens before removal, so removal can leave edge spaces behind. |
| ClientFs.CreateItem | frontend/src/services/CrusadeFileSystem.js:102-126 | A request is built exactly when the path validates, the cleaned name is non-empty and the type is `file` or `folder`, and it carries the validated path and the cleaned name. Otherwise the path's own message is thrown first, then the blank-name message, then the invalid-type message. |
| ClientFs.HandleError | frontend/src/services/CrusadeFileSystem.js:74-89 | The known code's message wins, then the error's own message, then the fixed fallback. |
| ClientFs.ErrnoMessagesDistinct | frontend/src/services/CrusadeFileSystem.js:75-82 | Different known codes show different messages. |
| ClientFs.AddListener | frontend/src/services/CrusadeFileSystem.js:249-254 | The handler is appended to its event's list, and no other event changes. |
| ClientFs.IndexOf | frontend/src/services/CrusadeFileSystem.js:259 | The first position of the handler, or none when absent. |
| ClientFs.RemoveListener | frontend/src/services/CrusadeFileSystem.js:256-263 | Removes only the first occurrence from the named event. An absent event or handler is a no-op. |
| ClientFs.Cleanup | frontend/src/services/CrusadeFileSystem.js:266-272 | After cleanup no event has handlers. |
| ClientFs.AddThenRemove | frontend/src/services/CrusadeFileSystem.js:249-263 | Adding a new handler and removing it restores every delivery list. |
| ClientFs.RemoveOnlyFirst | frontend/src/services/CrusadeFileSystem.js:259-261 | A handler registered twice still receives events after one removal. |
| PathUtils.Basename | frontend/src/utils/path.js:5-9 | The result is the separator-free suffix after the last separator, and empty after a trailing separator. |
| PathUtils.JoinParts | frontend/src/utils/path.js:11-14 | The result has no double slash, its names are the names of the parts in order, it is empty exactly when every part is, and it begins and ends with a slash exactly when the first and last non-empty parts do. |
| PathUtils.NamesOfJoin | frontend/src/utils/path.js:13 | The names of a `/`-join are the names of the parts, one after the other. |
| PathUtils.JoinDropsEmpty | frontend/src/utils/path.js:13 | Empty parts make no difference to a join. |
| PathUtils.JoinTwo | frontend/src/utils/path.js:11-14 | Two clean parts are joined with exactly one slash. |
| PathUtils.Dirname | frontend/src/utils/path.js:16-21 | The result is never empty and has no backslash; a path without a separator has directory `/`. |
| PathUtils.SplitReplaced | frontend/src/utils/path.js:18 | Splitting on both separators is splitting on `/` after backslashes became slashes. |
| PathUtils.DirnameBeforeLastSeparator | frontend/src/utils/path.js:16-21 | With a last separator at position k, the directory is the text before k with slashes for backslashes, or `/` when k is 0. |
| PathUtils.Normalize | frontend/src/utils/path.js:23-26 | The result has no backslash and no double slash, its names are the input's names between either separator, in order, it is empty exactly when the input is, and it begins and ends with a slash exactly when the input begins and ends with a separator. |
| PathUtils.NormalizeIdempotent | frontend/src/utils/path.js:23-26 | Normalising twice is normalising once. |
| PathUtils.DirnameBasenameJoin | frontend/src/utils/path.js:5-21 | A clean absolute path is rebuilt by joining its directory and its base name. |
| PathUtils.SplitLast | frontend/src/utils/path.js:7-8 | The last piece of a split is the suffix after the last separator. |
| Terminal.Segments | frontend/src/apps/TerminalApp.js:53-63 | The resolved names are plain. |
| Terminal.Normalize | frontend/src/apps/TerminalApp.js:51-65 | The result is absolute, and splits back into the resolved names. |
| Terminal.SegmentsOfAbsolute | frontend/src/apps/TerminalApp.js:51-65 | Rendering plain names and resolving them again gives the same names and the same path. |
| Terminal.NormalizeIdempotent | frontend/src/apps/TerminalApp.js:51-65 | The terminal's normaliser is idempotent. |
| Terminal.ParentAtTopDropped | frontend/src/apps/TerminalApp.js:56-59 | A `..` at the top is dropped, so the path never climbs above `/`. |
| Terminal.ResolvePathAsWritten | frontend/src/apps/TerminalApp.js:26-42 | The code as written: every branch yields an absolute path. |
| Terminal.RelativeTemplateIgnoresInput | frontend/src/apps/TerminalApp.js:38 | As written, any two relative names typed outside `/` resolve to the same path. |
| Terminal.TemplateMergesNames | frontend/src/apps/TerminalApp.js:38 | As written, `a` and `b` typed in `/docs` resolve alike. |
| Terminal.ResolvePath | frontend/src/apps/TerminalApp.js:26-42 | Corrected: absolute input is normalised; `.` gives the cwd; `..` gives the parent; a relative name is normalised under the cwd. |
| Terminal.ResolveChildName | frontend/src/apps/TerminalApp.js:36-41 | Corrected, a plain name typed in a normal directory names its child. |
| Terminal.CorrectedTemplateNamesChild | frontend/src/apps/TerminalApp.js:38 | Corrected, two different plain names typed in `/docs` resolve to `/docs/` followed by each name, and so to different paths. |
| Terminal.Tokens | frontend/src/apps/TerminalApp.js:71 | There is at least one token; no token holds white space; every argument token is non-empty; a non-blank line has a non-empty command. |
| Terminal.TokensOfSpacedWords | frontend/src/apps/TerminalApp.js:71 | Words separated by runs of any white space, with any white space before and after, tokenise back to the words. |
| Terminal.TokensOfWords | frontend/src/apps/TerminalApp.js:71 | Words joined by single spaces tokenise back to the words. |
| Terminal.Package | frontend/src/apps/TerminalApp.js:168-238 | `install` with a path asks to install the resolved path, without one prints its usage; `list-installed` lists; `uninstall` with an id asks to remove it, without one prints its usage; any other word is an unknown sub-command. |
| Terminal.Command | frontend/src/apps/TerminalApp.js:69-251 | `help` and `clear` do exactly that; `ls` lists the resolved argument or the cwd; `cd` with an argument changes to the resolved path; `mkdir` and `cf` create the argument in the cwd as a folder or a file; a bare `cd`, `mkdir` or `cf` prints exactly its usage line; `pkgm` prints its usage or runs the sub-command; any other word is unknown. |
| Terminal.Execute | frontend/src/apps/TerminalApp.js:69-251 | The same dispatch on the tokens of the line: first token as the command, the rest as its arguments. |
| Terminal.MkdirCommand | frontend/src/apps/TerminalApp.js:128-146 | `mkdir NAME` requests a folder NAME in the cwd. |
| Terminal.CfCommand | frontend/src/apps/TerminalApp.js:148-166 | `cf NAME` requests a file NAME in the cwd. |
| Terminal.Submit | frontend/src/apps/TerminalApp.js:253-258 | A blank line does nothing. Otherwise the command runs and the box is cleared. The cwd changes only on a successful `cd` with an argument, and then to the resolved argument; it stays normal. |
| Strings.Names | frontend/src/apps/FileExplorer.js:92 | The names are non-empty and slash-free. |
| Explorer.NamesOfAbsolute | frontend/src/apps/FileExplorer.js:92-96 | Rendering names and splitting again gives the names back. |
| Explorer.NavigateToFolder | frontend/src/apps/FileExplorer.js:81-86 | Entering a folder adds exactly its name to the path. |
| Explorer.NavigateUp | frontend/src/apps/FileExplorer.js:89-96 | Going up drops exactly the last name, and the root stays the root. |
| Explorer.UpUndoesEnter | frontend/src/apps/FileExplorer.js:81-96 | Entering a folder and going up returns to where the explorer was. |
| Explorer.DeleteRequest | frontend/src/apps/FileExplorer.js:99-109 | A request is sent exactly when the user confirms, for the child path of the item. |
| Explorer.NameLeqTotal | frontend/src/apps/FileExplorer.js:31 | The name order is total. |
| Explorer.NameLeqTransitive | frontend/src/apps/FileExplorer.js:31 | The name order is transitive. |
| Explorer.Insert | frontend/src/apps/FileExplorer.js:28-32 | Inserting into a sorted listing keeps it sorted and adds exactly one entry. |
| Explorer.SortEntries | frontend/src/apps/FileExplorer.js:28-32 | The sorted listing is a permutation of the input, ordered by the comparator. |
| Explorer.SortedFoldersFirst | frontend/src/apps/FileExplorer.js:29-30 | A sorted listing puts every folder before every file. |
| Explorer.SortKeepsEntries | frontend/src/apps/FileExplorer.js:28-33 | Sorting keeps the entries and puts folders first. |
| Explorer.CreateNewItem | frontend/src/apps/FileExplorer.js:48-63 | A blank name is refused locally. Otherwise the request carries the trimmed name, the current path and the type. |
| Windows.Focus | frontend/src/App.js:145-153 | An unknown id changes nothing. Otherwise the first window with the id moves to the end, focused and shown, the rest are unfocused in order, and the set of ids is kept. |
| Windows.FocusOneFocused | frontend/src/App.js:145-153 | Focusing keeps at most one window focused. |
| Windows.Close | frontend/src/App.js:129-131 | Exactly the windows with other ids remain, in their order, and the set of ids loses just the id. |
| Windows.CloseOneFocused | frontend/src/App.js:129-131 | Closing keeps at most one window focused. |
| Windows.Minimize | frontend/src/App.js:133-137 | Only the window with the id toggles minimised and loses focus. At most one stays focused, and the ids are kept. |
| Windows.Maximize | frontend/src/App.js:139-143 | Only the window with the id toggles maximised and fills the screen. The ids are kept. |
| Windows.ProfileOf | frontend/src/App.js:39-71 | Unknown apps get a 400x200 window titled `Error`. Known apps keep their title. Every window is between 400x200 and 900x600. The editor is 700x500. |
| Windows.Stagger | frontend/src/App.js:76 | The offset is a multiple of 20 below 200. |
| Windows.Existing | frontend/src/App.js:31 | A visible window of the app with no visible window of the app before it, or none when every such window is minimised. |
| Windows.Launch | frontend/src/App.js:30-95 | A visible window of the app is focused instead. Otherwise one focused window is appended at the staggered place, sized by its profile, holding the given file path when there is one, and the others are unfocused. |
| Windows.LaunchOneFocused | frontend/src/App.js:30-95 | Launching keeps at most one window focused. |
| Windows.LaunchUniqueIds | frontend/src/App.js:37 | A fresh id keeps window ids unique. |
| Windows.OpenFileInEditor | frontend/src/App.js:97-126 | An editor already showing the file is focused without a fetch. A failed fetch alerts "Could not open file: " followed by the error message and changes nothing. A loaded file launches the editor. |
| Windows.SecondFileFocusesFirstEditor | frontend/src/App.js:101-120 | With an editor already open, opening another file adds no window and shows the file nowhere. |
| Taskbar.Find | frontend/src/components/Taskbar.js:50 | The found app is the first installed app with the id, or no installed app has it. |
| Taskbar.Drop | frontend/src/components/Taskbar.js:40-60 | Empty id: nothing. Already pinned: info note. Not installed: error note. Otherwise the id is appended with a success note. |
| Taskbar.DropKeepsDistinct | frontend/src/components/Taskbar.js:45-56 | Pinning never duplicates an id. |
| Taskbar.Unpin | frontend/src/components/Taskbar.js:83-85 | The id is gone, every other pinned id stays in its order, and an unpinned id changes nothing. |
| Taskbar.UnpinNote | frontend/src/components/Taskbar.js:86-87 | The note names the app's title, or its id when it is not installed. |
| Taskbar.UnpinKeepsDistinct | frontend/src/components/Taskbar.js:84 | Unpinning keeps the pinned ids distinct. |
| Taskbar.UnpinUndoesDrop | frontend/src/components/Taskbar.js:40-85 | Unpinning after a drop gives what unpinning before it gives. For a new id, that is the original list. |
| Taskbar.Shown | frontend/src/components/Taskbar.js:123-125 | One button per pinned id that has an installed app, in pinned order, each showing that id's installed app. |
| Notifications.Add | frontend/src/components/NotificationSystem.js:10-20 | One notification with the next id and the defaulted kind is appended. A timer is requested exactly for a positive or default duration, with that duration or 3000 ms as its delay. The order is kept. |
| Notifications.Remove | frontend/src/components/NotificationSystem.js:22-24 | Exactly the notifications with other ids remain, in their order, and the counter is kept. |
| Notifications.FilterKeepsIncreasing | frontend/src/components/NotificationSystem.js:17 | Dropping notifications keeps the ids increasing. |
| Notifications.RemoveKeepsOrder | frontend/src/components/NotificationSystem.js:22-24 | Removal keeps the ids increasing and below the counter. |
| Notifications.RemoveUndoesAdd | frontend/src/components/NotificationSystem.js:10-24 | Removing the notification just added restores the list. |
| Notifications.AddAll | frontend/src/components/NotificationSystem.js:11-13 | Successive adds hand out consecutive ids in order. |
| AuthClient.FetchInstalled | frontend/src/context/AuthContext.js:13-30 | No token, a refusal or a failure gives the empty list; otherwise the server's list. |
| AuthClient.Initial | frontend/src/context/AuthContext.js:7-11 | Authenticated exactly when a non-empty token is stored; not ready. |
| AuthClient.Restore | frontend/src/context/AuthContext.js:32-42 | Ready afterwards. Re-authenticated from storage only when both keys are stored; otherwise unchanged. |
| AuthClient.Login | frontend/src/context/AuthContext.js:44-52 | Both keys are stored and the state is authenticated with them. |
| AuthClient.Logout | frontend/src/context/AuthContext.js:54-73 | Everything is cleared, storage included. |
| AuthClient.LogoutIgnoresServer | frontend/src/context/AuthContext.js:65-72 | The server's answer to the logout makes no difference. |
| AuthClient.TransitionsConsistent | frontend/src/context/AuthContext.js:7-73 | An authenticated state always holds the token it keeps in storage. |
| AuthClient.LoginSurvivesReload | frontend/src/context/AuthContext.js:32-52 | A login survives a page reload. |
| AuthClient.LogoutSurvivesReload | frontend/src/context/AuthContext.js:32-73 | After a logout, a reload stays logged out. |
| AuthClient.TokenWithoutUser | frontend/src/context/AuthContext.js:7-42 | A stored token without a user id counts as authenticated at mount and stays so. |
| TextEditor.Initial | frontend/src/apps/TextEditor.js:9-12 | The initial content, or empty; nothing edited. |
| TextEditor.Substring | frontend/src/apps/TextEditor.js:74-76 | Within bounds it is the slice, and it is never longer than the string. |
| TextEditor.TabSplice | frontend/src/apps/TextEditor.js:71-82 | Tab keeps the text before and after the selection, puts four spaces between them, and moves the cursor behind them. |
| TextEditor.TabInserts | frontend/src/apps/TextEditor.js:73-77 | With an empty selection, the indent is inserted at the cursor. |
| TextEditor.Change | frontend/src/apps/TextEditor.js:59-62 | Typing replaces the content and marks it edited. |
| TextEditor.Drop | frontend/src/apps/TextEditor.js:85-106 | No file, or a declined confirmation, changes nothing. A readable file replaces the content. An unreadable one gives an error note. |
| TextEditor.Save | frontend/src/apps/TextEditor.js:27-57 | Without a path there is no request. Otherwise the save ends and only an accepted save clears the edited flag, with a success note exactly then. Accepted and rejected saves show the server's message, or "File saved successfully!" and "Failed to save file." when it gives none. |
| TextEditor.EditThenSave | frontend/src/apps/TextEditor.js:45-62 | An edit enables Save, and an accepted save disables it and keeps the text. |
| TextEditor.FailedSaveKeepsEdits | frontend/src/apps/TextEditor.js:48-56 | A failed save keeps the changes, and Save stays enabled. |
| Vga.Color | kernel/gui/vga.c:34-36 | The low nibble is the foreground and the high nibble the background. |
| Vga.ColorInjective | kernel/gui/vga.c:34-36 | Different colour pairs give different attributes. |
| Vga.PutCharAt | kernel/gui/vga.c:49-55 | Paints exactly the one cell on screen, and nothing when it is off screen. |
| Vga.ClearScreen | kernel/gui/vga.c:39-46 | Every cell becomes a space in the colour, and the cursor goes home. |
| Vga.PutChar | kernel/gui/vga.c:58-76 | Newline moves to the next row. Other characters paint the cursor cell and advance, wrapping at the right edge. Running past the last row wipes the screen white-on-blue and sends the cursor home. |
| Vga.LastCellWipes | kernel/gui/vga.c:71-75 | Writing the last cell wipes the screen at once, so the written character does not stay. |
| Vga.NewlineOnLastRow | kernel/gui/vga.c:58-76 | A newline on the last row wipes the screen. |
| Vga.CString | kernel/gui/vga.c:79-84 | The text up to the first zero byte. |
| Vga.Print | kernel/gui/vga.c:79-84 | Prints the characters before the terminating zero, one by one. |
| Vga.PrintRow | kernel/gui/vga.c:79-84 | Text that fits on the row is written cell by cell from the cursor, which ends behind it. |
| Vga.DrawHLine | kernel/gui/vga.c:87-91 | Paints exactly the horizontal run of cells. |
| Vga.DrawVLine | kernel/gui/vga.c:94-98 | Paints exactly the vertical run of cells. |
| Vga.DrawRect | kernel/gui/vga.c:101-105 | Paints exactly the rectangle of cells. |
| Vga.SetCursor | kernel/gui/vga.c:108-111 | Moving the cursor leaves the buffer alone. |
| BootScreen.CDiv | kernel/gui/boot_screen.c:62 | C division truncates toward zero. |
| BootScreen.Filled | kernel/gui/boot_screen.c:62 | The filled length is within the bar, is the floor of progress times 40 over 100, and is full at 100. |
| BootScreen.FilledMonotone | kernel/gui/boot_screen.c:62 | More progress never fills less. |
| BootScreen.LabelAsWritten | kernel/gui/boot_screen.c:74-78 | The code as written: two digit bytes and `%`. |
| BootScreen.LabelAsWrittenBelowHundred | kernel/gui/boot_screen.c:74-78 | Below 100 the as-written label shows the value in two digits. |
| BootScreen.HundredMisrendered | kernel/gui/boot_screen.c:74-78 | As written, 100 renders as `:0%`. |
| BootScreen.Digits | kernel/gui/boot_screen.c:74-78 | The decimal digits of a number, with the number as their value. |
| BootScreen.Label | kernel/gui/boot_screen.c:74-78 | Corrected: digits whose value is the progress, then `%`, at most four bytes up to 100. |
| BootScreen.LabelAgreesBelowHundred | kernel/gui/boot_screen.c:74-78 | Below 100 the corrected label equals the as-written one. |
| BootScreen.LabelOfHundred | kernel/gui/boot_screen.c:74-78 | Corrected, 100 renders as `100%`. |
| BootScreen.Progress | kernel/gui/boot_screen.c:120 | Each step's progress lies in (0, 100]. |
| BootScreen.ProgressSequence | kernel/gui/boot_screen.c:109-124 | The seven steps show 14, 28, 42, 57, 71, 85 and 100, strictly increasing. |
| BootScreen.LastStepMisrendered | kernel/gui/boot_screen.c:116-124 | The last step reaches 100, which the as-written label misrenders. |
| BootScreen.DrawLoadingBar | kernel/gui/boot_screen.c:52-79 | As written, for progress in [0,100]: the screen is exactly the brackets, the filled bar and the two-digit label over the old picture, and the cursor ends three cells after the label start. |
| BootScreen.DrawLoadingBarCorrected | kernel/gui/boot_screen.c:52-79 | Corrected, for progress in [0,100]: the same picture with the decimal label, and the cursor ends behind it. |
| BootScreen.DrawBar | kernel/gui/boot_screen.c:52-79 | For any short label without NUL or newline, the brackets, the bar and the label are drawn and nothing else changes. |
| BootScreen.LabelsPlain | kernel/gui/boot_screen.c:74-79 | For progress in [0,100] both labels are short and hold no NUL and no newline. |
| BootScreen.ComposeBar | kernel/gui/boot_screen.c:52-79 | The brackets, the bar and a label, drawn one after another, make up the described picture. |

## Left out

- File-system I/O, bcrypt, uuid, `JSON.parse`, `fetch`, timers and `sessionStorage` are parameters or parts of the state. No I/O is modelled.
- `AbortController`, WebSocket connection and reconnection, and `apiCall`'s response handling are not modelled.
- The CrusadeFileSystem endpoints for metadata, move, copy, share, users, pending shares and upload are not modelled. Only their shared `validatePath` is.
- `ensureDataStructuresExist`, reading and writing `users.json` and `apps_manifest.json`, and the Express wiring are not modelled. The user list and the manifest are values.
- Timer scheduling: a notification's timer is returned as a request, not run.
- React rendering, styles, drag visuals, context menus and the other apps (calculator, settings, image viewer, about, hello world) are not modelled.
- Explorer.NameLeq: `localeCompare` is modelled as code-point order, because locale collation is outside Dafny.
- ClientFs.HandleError: keys inherited from `Object.prototype` (such as `constructor`) are not modelled.
- The terminal's output lines, the help text and the rendering of server replies are not modelled. Execute returns which request is issued.
- The boot logo, the loading messages, `boot_delay` and the `hlt` loops are not modelled.
- BootScreen.Filled: C `int` overflow of `progress * 40` is not modelled, because progress never exceeds 100 in the boot sequence.
- Vga.PutChar: C `int` overflow of the cursor is not modelled, because the cursor stays on screen.
- BootScreen.DrawLoadingBar: the drawn picture is stated only for progress between 0 and 100, the range the boot sequence uses.
- Terminal.Command: path arguments are resolved with the corrected ResolvePath. The relative template as written is Terminal.ResolvePathAsWritten, and the Findings table shows what it does.
- Terminal.Package: the `install` path is resolved with the corrected ResolvePath, as in Terminal.Command.
- Terminal.Execute: dispatch goes through Terminal.Command, so arguments are resolved with the corrected ResolvePath.
- Terminal.Submit: a `cd` moves to the path given by the corrected ResolvePath.
- TextEditor.Save: the editor posts to `/api/cvfs/file`, which `server.js` does not serve. The save request is modelled, and its answer is a parameter.
- `VGA_COLOR_YELLOW`, used for the label, is not defined in `vga.c` or `kernel.h`. The label colour is a parameter.
- Taskbar.Drop: `App.js` does not pass `pinnedApps` or `updatePinnedApps` to the taskbar. Pinning is modelled over explicit lists.
- Windows.Launch: the stagger offset is taken from the window list passed in. The source reads it inside the state update; in a pure model both are the same list.
- The text editor's key handler is not modelled as a whole. Its Tab branch is TextEditor.TabSplice and its Ctrl+S branch is TextEditor.Save.
- Characters: a Dafny `char` is a Unicode scalar value, while JavaScript strings, `length`, `substring` and `selectionStart` count UTF-16 code units. TextEditor.Substring and TextEditor.TabSplice index differently on text with characters outside the Basic Multilingual Plane.
- Concurrency: each server request is one atomic step. Signup, install and uninstall read, change and write their JSON file across `await`s (server/server.js:99-107, 357-370, 390-396), so two concurrent requests can lose an update; that interleaving is not modelled.
- TextEditor.Drop: the handler is modelled on every editor state. The component attaches it only to the empty prompt shown when there is no file path and no content.
- AuthClient.Restore: `isAuthReady` is set synchronously, before the installed-apps fetch returns. The model delivers the fetch result at once.

## Findings

| source | as written | input that shows it | evidently intended | confidence | as-written member | corrected member |
|---|---|---|---|---|---|---|
| frontend/src/apps/TerminalApp.js:38 | The relative branch's template holds HTML residue and escaped braces, so outside `/` it yields fixed text for every input. | `cd a` and `cd b` in `/docs` resolve to the same path. | `${cwd}/${inputPath}`: the child of the cwd. | high, not executed | Terminal.RelativeTemplateIgnoresInput | Terminal.ResolveChildName |
| kernel/gui/boot_screen.c:74-78 | The label is two digit bytes computed as `'0' + progress / 10` and `'0' + progress % 10`. | The last boot step, progress 100, renders `:0%`. | A three-digit label `100%`. | high, not executed | BootScreen.HundredMisrendered | BootScreen.LabelOfHundred |

=== FILE: auth_client.dfy ===
/**
 * The browser's authentication state: what is read from session storage at
 * start-up, the restore step that follows, login, logout and the fallback
 * behaviour of the installed-apps fetch. Session storage is part of the state;
 * each server answer is a parameter.
 */
module AuthClient {
  import opened Common

  /** One record of the installed-apps list, as the server sends it. */
  datatype InstalledApp = InstalledApp(appId: string, title: string, component: string)

  /** The two session-storage keys `authToken` and `userId`. */
  datatype Storage = Storage(token: Option<string>, userId: Option<string>)

  const Empty := Storage(None, None)

  datatype Auth = Auth(
    token: Option<string>, userId: Option<string>,
    authenticated: bool, ready: bool,
    installed: seq<InstalledApp>, storage: Storage)

  /** How the request for the installed apps ends. */
  datatype Answer = Listed(apps: seq<InstalledApp>) | Refused | Unreachable

  /** `fetchInstalledApps`: the list on success, otherwise the empty list. */
  function FetchInstalled(token: Option<string>, answer: Answer): (r: seq<InstalledApp>)
    ensures !Truthy(token) ==> r == []
    ensures answer.Refused? || answer.Unreachable? ==> r == []
    ensures Truthy(token) && answer.Listed? ==> r == answer.apps
  {
    if !Truthy(token) then []
    else match answer
      case Listed(apps) => apps
      case _ => []
  }

  /** The state right after mounting, read from storage: authenticated iff a non-empty token is stored. */
  function Initial(stored: Storage): (r: Auth)
    ensures r.authenticated <==> Truthy(stored.token)
    ensures !r.ready && r.installed == [] && r.storage == stored
    ensures r.token == stored.token && r.userId == stored.userId
  {
    Auth(stored.token, stored.userId, Truthy(stored.token), false, [], stored)
  }

  /** The restore effect: re-authenticate only when both keys are stored; readiness is set either way. */
  function Restore(s: Auth, answer: Answer): (r: Auth)
    ensures r.ready
    ensures r.storage == s.storage
    ensures Truthy(s.storage.token) && Truthy(s.storage.userId) ==>
      && r.authenticated && r.token == s.storage.token && r.userId == s.storage.userId
      && r.installed == FetchInstalled(s.storage.token, answer)
    ensures !(Truthy(s.storage.token) && Truthy(s.storage.userId)) ==> r == s.(ready := true)
  {
    var stored := s.storage;
    if Truthy(stored.token) && Truthy(stored.userId) then
      Auth(stored.token, stored.userId, true, true, FetchInstalled(stored.token, answer), stored)
    else
      s.(ready := true)
  }

  /** `login`: both keys are stored and the state is authenticated with them. */
  function Login(s: Auth, newToken: string, newUserId: string, answer: Answer): (r: Auth)
    ensures r.storage == Storage(Some(newToken), Some(newUserId))
    ensures r.token == Some(newToken) && r.userId == Some(newUserId) && r.authenticated
    ensures r.ready == s.ready
    ensures r.installed == FetchInstalled(Some(newToken), answer)
  {
    Auth(Some(newToken), Some(newUserId), true, s.ready, FetchInstalled(Some(newToken), answer), Storage(Some(newToken), Some(newUserId)))
  }

  /** `logout`: whatever the server answers, everything is cleared. */
  function Logout(s: Auth, serverAccepted: bool): (r: Auth)
    ensures r.token.None? && r.userId.None? && !r.authenticated
    ensures r.installed == [] && r.storage == Empty
    ensures r.ready == s.ready
  {
    Auth(None, None, false, s.ready, [], Empty)
  }

  /** The server's answer to the logout request makes no difference. */
  lemma LogoutIgnoresServer(s: Auth)
    ensures Logout(s, true) == Logout(s, false)
  {
  }

  /** An authenticated state holds the token it keeps in storage. */
  predicate Consistent(s: Auth)
  {
    s.authenticated ==> s.token.Some? && s.token == s.storage.token
  }

  /** Every transition keeps the state consistent. */
  lemma TransitionsConsistent(s: Auth, stored: Storage, t: string, u: string, answer: Answer, accepted: bool)
    requires Consistent(s)
    ensures Consistent(Initial(stored))
    ensures Consistent(Restore(s, answer))
    ensures Consistent(Login(s, t, u, answer))
    ensures Consistent(Logout(s, accepted))
  {
  }

  /** The state a page reload rebuilds: storage survives, the rest is read back and restored. */
  function Reload(s: Auth, answer: Answer): (r: Auth)
    ensures r.storage == s.storage && r.ready
  {
    Restore(Initial(s.storage), answer)
  }

  /** A login with a non-empty token and user id survives a reload. */
  lemma LoginSurvivesReload(s: Auth, t: string, u: string, first: Answer, second: Answer)
    requires t != "" && u != ""
    ensures var r := Reload(Login(s, t, u, first), second);
      r.authenticated && r.token == Some(t) && r.userId == Some(u)
  {
  }

  /** After a logout a reload stays logged out. */
  lemma LogoutSurvivesReload(s: Auth, accepted: bool, answer: Answer)
    ensures !Reload(Logout(s, accepted), answer).authenticated
    ensures Reload(Logout(s, accepted), answer).installed == []
  {
  }

  /** A stored token without a stored user id authenticates at mount, and the restore step leaves that as it is. */
  lemma TokenWithoutUser(t: string, answer: Answer)
    requires t != ""
    ensures Initial(Storage(Some(t), None)).authenticated
    ensures Reload(Initial(Storage(Some(t), None)), answer).authenticated
    ensures Reload(Initial(Storage(Some(t), None)), answer).installed == []
  {
  }
}

=== FILE: boot_screen.dfy ===
/**
 * The boot screen's loading bar: a 40-cell bar centred on row 18 between
 * brackets, filled in proportion to the progress, with a percentage label
 * two rows below, and the progress values the boot sequence steps through.
 */
module BootScreen {
  import opened Vga

  const BarWidth := 40
  /** `(VGA_WIDTH - bar_width) / 2`. */
  const BarX := (Width - BarWidth) / 2
  const BarY := 18
  /** Where the cursor is put for the label: `bar_x + bar_width / 2 - 2`, two rows below the bar. */
  const LabelX := BarX + BarWidth / 2 - 2
  const LabelY := BarY + 2
  /** The number of boot messages. */
  const Steps := 7

  const Zero: bv8 := 48
  const Percent: bv8 := 37
  const Equals: bv8 := 61
  const OpenBracket: bv8 := 91
  const CloseBracket: bv8 := 93

  /** C's `/` on `int`, which truncates toward zero. */
  function CDiv(a: int, b: int): (r: int)
    requires b > 0
    ensures 0 <= a ==> r == a / b
    ensures a < 0 ==> r == -((-a) / b)
  {
    if a >= 0 then a / b else -((-a) / b)
  }

  /** C's `%` on `int`, whose sign follows the dividend. */
  function CMod(a: int, b: int): (r: int)
    requires b > 0
    ensures a == b * CDiv(a, b) + r
  {
    a - b * CDiv(a, b)
  }

  /** `(progress * bar_width) / 100`: how many cells are filled. */
  function Filled(progress: int): (r: int)
    ensures 0 <= progress <= 100 ==> 0 <= r <= BarWidth
    ensures 0 <= progress ==> r * 100 <= progress * BarWidth < (r + 1) * 100
    ensures progress == 100 ==> r == BarWidth
  {
    CDiv(progress * BarWidth, 100)
  }

  /** More progress never fills fewer cells. */
  lemma FilledMonotone(p: int, q: int)
    requires 0 <= p <= q
    ensures Filled(p) <= Filled(q)
  {
    assert Filled(p) * 100 <= p * BarWidth <= q * BarWidth < (Filled(q) + 1) * 100;
  }

  // ---------------------------------------------------------------------------
  // The percentage label
  // ---------------------------------------------------------------------------

  /** `'0' + d` stored into a `char`: the low byte of the sum. */
  function DigitByte(d: int): (r: bv8)
    ensures 0 <= d <= 10 ==> r as int == 48 + d
  {
    ((48 + d) % 256) as bv8
  }

  predicate IsDigit(b: bv8)
  {
    48 <= b <= 57
  }

  /** The number a row of decimal digit bytes spells. */
  function Value(ds: seq<bv8>): int
  {
    if ds == [] then 0 else Value(ds[..|ds| - 1]) * 10 + (ds[|ds| - 1] as int - 48)
  }

  /** The label as `boot_draw_loading_bar` builds it: two digit characters and `%`. */
  function LabelAsWritten(progress: int): (r: seq<bv8>)
    ensures |r| == 3 && r[2] == Percent
  {
    [DigitByte(CDiv(progress, 10)), DigitByte(CMod(progress, 10)), Percent]
  }

  /** Below 100 the label is the two decimal digits of the progress. */
  lemma LabelAsWrittenBelowHundred(p: int)
    requires 0 <= p < 100
    ensures IsDigit(LabelAsWritten(p)[0]) && IsDigit(LabelAsWritten(p)[1])
    ensures Value(LabelAsWritten(p)[..2]) == p
  {
    var ds := LabelAsWritten(p)[..2];
    assert CDiv(p, 10) == p / 10 && CMod(p, 10) == p % 10;
    TwoDigits(ds, p / 10, p % 10);
  }

  /** Two digit bytes spell ten times the first digit plus the second. */
  lemma TwoDigits(ds: seq<bv8>, a: int, b: int)
    requires 0 <= a < 10 && 0 <= b < 10
    requires ds == [DigitByte(a), DigitByte(b)]
    ensures Value(ds) == 10 * a + b
  {
    var first := ds[..1];
    assert first[..0] == [];
    assert Value(first) == Value(first[..0]) * 10 + (DigitByte(a) as int - 48) == a;
    assert ds[..|ds| - 1] == first;
    assert Value(ds) == Value(first) * 10 + (DigitByte(b) as int - 48);
  }

  /** At 100 the first character is `'0' + 10`, which is `:`, so the label reads `:0%`. */
  lemma HundredMisrendered()
    ensures LabelAsWritten(100) == [58, 48, 37]
    ensures !IsDigit(LabelAsWritten(100)[0])
  {
    assert CDiv(100, 10) == 10 && CMod(100, 10) == 0;
    assert DigitByte(10) == 58 && DigitByte(0) == 48;
  }

  /** The decimal digits of a natural number, most significant first. */
  function Digits(n: nat): (r: seq<bv8>)
    ensures 1 <= |r|
    ensures forall j :: 0 <= j < |r| ==> IsDigit(r[j])
    ensures Value(r) == n
    ensures n < 10 ==> |r| == 1
    ensures 10 <= n < 100 ==> |r| == 2
    ensures 100 <= n < 1000 ==> |r| == 3
  {
    if n < 10 then [DigitByte(n)]
    else
      var r := Digits(n / 10) + [DigitByte(n % 10)];
      assert r[..|r| - 1] == Digits(n / 10);
      r
  }

  /** The corrected label: the progress in decimal, padded to two digits, and `%`. */
  function Label(progress: int): (r: seq<bv8>)
    ensures 0 <= progress ==> 3 <= |r| && r[|r| - 1] == Percent
    ensures 0 <= progress ==> forall j :: 0 <= j < |r| - 1 ==> IsDigit(r[j])
    ensures 0 <= progress ==> Value(r[..|r| - 1]) == progress
    ensures 0 <= progress <= 100 ==> |r| <= 4
  {
    if progress < 0 then LabelAsWritten(progress)
    else
      var ds := (if progress < 10 then [Zero] else []) + Digits(progress);
      var r := ds + [Percent];
      assert r[..|r| - 1] == ds;
      PaddedValue(progress);
      r
  }

  /** Padding a single digit with a zero keeps its value. */
  lemma PaddedValue(n: nat)
    ensures Value((if n < 10 then [Zero] else []) + Digits(n)) == n
  {
    if n < 10 {
      TwoDigits([Zero] + Digits(n), 0, n);
    } else {
      assert [] + Digits(n) == Digits(n);
    }
  }

  /** Where the built label is right, the corrected one is the same. */
  lemma LabelAgreesBelowHundred(p: int)
    requires 0 <= p < 100
    ensures Label(p) == LabelAsWritten(p)
  {
    if p >= 10 {
      assert Digits(p / 10) == [DigitByte(p / 10)];
    }
  }

  /** The corrected label at 100 reads `100%`. */
  lemma LabelOfHundred()
    ensures Label(100) == [49, 48, 48, 37]
  {
    assert Digits(100) == Digits(10) + [DigitByte(0)];
    assert Digits(10) == Digits(1) + [DigitByte(0)];
  }

  // ---------------------------------------------------------------------------
  // The progress sequence
  // ---------------------------------------------------------------------------

  /** `((i + 1) * 100) / num_messages`, the progress after the i-th message. */
  function Progress(i: int): (r: int)
    ensures 0 <= i < Steps ==> 0 < r <= 100
  {
    CDiv((i + 1) * 100, Steps)
  }

  /** The boot sequence shows 14, 28, 42, 57, 71, 85 and 100, each larger than the one before. */
  lemma ProgressSequence()
    ensures seq(Steps, i requires 0 <= i < Steps => Progress(i)) == [14, 28, 42, 57, 71, 85, 100]
    ensures forall i :: 0 <= i < Steps - 1 ==> Progress(i) < Progress(i + 1)
  {
  }

  /** The last step reaches 100, the one value the built label cannot show. */
  lemma LastStepMisrendered()
    ensures Progress(Steps - 1) == 100
    ensures !IsDigit(LabelAsWritten(Progress(Steps - 1))[0])
    ensures Label(Progress(Steps - 1)) == [49, 48, 48, 37]
  {
    LabelOfHundred();
  }

  // ---------------------------------------------------------------------------
  // Drawing
  // ---------------------------------------------------------------------------

  /** The colour and character of bar cell `i`: green `=` inside the filled part, dark grey blank after it. */
  function BarInk(k: int, i: int, filled: int): bv8
  {
    if i < filled then Ink(k, Equals, Color(Green, Black)) else Ink(k, Space, Color(DarkGrey, Black))
  }

  /** A label that prints along its row: short, with no NUL and no newline. */
  predicate PlainLabel(tag: seq<bv8>)
  {
    |tag| <= 4 && forall j :: 0 <= j < |tag| ==> tag[j] != 0 && tag[j] != Newline
  }

  /** Both labels print along their row for every progress the bar shows. */
  lemma LabelsPlain(progress: int)
    requires 0 <= progress <= 100
    ensures PlainLabel(LabelAsWritten(progress)) && PlainLabel(Label(progress))
  {
    WrittenLabelPlain(progress);
    CorrectedLabelPlain(progress);
  }

  /** The built label's two characters lie between `0` and `:`. */
  lemma WrittenLabelPlain(progress: int)
    requires 0 <= progress <= 100
    ensures PlainLabel(LabelAsWritten(progress))
  {
    var w := LabelAsWritten(progress);
    var hi := CDiv(progress, 10);
    var lo := CMod(progress, 10);
    assert 0 <= hi <= 10 && 0 <= lo < 10;
    assert w[0] as int == 48 + hi && w[1] as int == 48 + lo;
  }

  /** The corrected label is digits and `%`. */
  lemma CorrectedLabelPlain(progress: int)
    requires 0 <= progress <= 100
    ensures PlainLabel(Label(progress))
  {
    var tag := Label(progress);
    forall j | 0 <= j < |tag|
      ensures tag[j] != 0 && tag[j] != Newline
    {
      if j < |tag| - 1 {
        assert IsDigit(tag[j]);
      }
    }
  }

  /** What byte `k` of the screen holds once the bar for `progress` and the label `tag` are drawn over `before`. */
  function Drawn(before: seq<bv8>, k: int, progress: int, tag: seq<bv8>, labelColor: bv8): bv8
    requires 0 <= k < |before|
  {
    if InBox(k, BarX - 1, BarY, 1, 1) then Ink(k, OpenBracket, Color(White, Black))
    else if InBox(k, BarX + BarWidth, BarY, 1, 1) then Ink(k, CloseBracket, Color(White, Black))
    else if InBox(k, BarX, BarY, BarWidth, 1) then BarInk(k, Col(k) - BarX, Filled(progress))
    else if InBox(k, LabelX, LabelY, |tag|, 1) then Ink(k, tag[Col(k) - LabelX], Color(labelColor, Black))
    else before[k]
  }

  /**
   * `boot_draw_loading_bar` as written: the brackets, the bar and the
   * two-digit label are drawn, nothing else changes, and the cursor ends after
   * the label. At 100 the label is `:0%`. `labelColor` stands for
   * `VGA_COLOR_YELLOW`.
   */
  method DrawLoadingBar(s: Screen, progress: int, labelColor: bv8) returns (r: Screen)
    requires Valid(s)
    ensures Valid(r)
    ensures 0 <= progress <= 100 ==>
      forall k :: 0 <= k < Size ==> r.buf[k] == Drawn(s.buf, k, progress, LabelAsWritten(progress), labelColor)
    ensures 0 <= progress <= 100 ==> r.cx == LabelX + 3 && r.cy == LabelY
  {
    if 0 <= progress <= 100 {
      LabelsPlain(progress);
    }
    r := DrawBar(s, progress, LabelAsWritten(progress), labelColor);
  }

  /** The same drawing with the corrected label, which shows `100%` at the end. */
  method DrawLoadingBarCorrected(s: Screen, progress: int, labelColor: bv8) returns (r: Screen)
    requires Valid(s)
    ensures Valid(r)
    ensures 0 <= progress <= 100 ==>
      forall k :: 0 <= k < Size ==> r.buf[k] == Drawn(s.buf, k, progress, Label(progress), labelColor)
    ensures 0 <= progress <= 100 ==> r.cx == LabelX + |Label(progress)| && r.cy == LabelY
  {
    if 0 <= progress <= 100 {
      LabelsPlain(progress);
    }
    r := DrawBar(s, progress, Label(progress), labelColor);
  }

  /** The brackets, the bar for `progress`, and `tag` printed at the label position. */
  method DrawBar(s: Screen, progress: int, tag: seq<bv8>, labelColor: bv8) returns (r: Screen)
    requires Valid(s)
    ensures Valid(r)
    ensures PlainLabel(tag) ==> forall k :: 0 <= k < Size ==> r.buf[k] == Drawn(s.buf, k, progress, tag, labelColor)
    ensures PlainLabel(tag) ==> r.cx == LabelX + |tag| && r.cy == LabelY
  {
    var white := Color(White, Black);
    var b1 := PutCharAt(s.buf, OpenBracket, white, BarX - 1, BarY);
    var b2 := PutCharAt(b1, CloseBracket, white, BarX + BarWidth, BarY);
    var filled := Filled(progress);
    var b := b2;
    var i := 0;
    while i < BarWidth
      invariant 0 <= i <= BarWidth && |b| == Size
      invariant forall k :: 0 <= k < Size ==> b[k] == if InBox(k, BarX, BarY, i, 1) then BarInk(k, Col(k) - BarX, filled) else b2[k]
    {
      var c := if i < filled then Equals else Space;
      var color := if i < filled then Color(Green, Black) else Color(DarkGrey, Black);
      b := PutCharAt(b, c, color, BarX + i, BarY);
      i := i + 1;
    }
    var at := SetCursor(Screen(b, s.cx, s.cy), LabelX, LabelY);
    r := Print(at, tag + [0], Color(labelColor, Black));
    if PlainLabel(tag) {
      LabelPrinted(at, tag, Color(labelColor, Black));
      ComposeBar(s.buf, b1, b2, b, r.buf, progress, tag, labelColor);
    }
  }

  /** The brackets, the bar and the label, drawn one after the other, give the picture `Drawn` describes. */
  lemma ComposeBar(before: seq<bv8>, b1: seq<bv8>, b2: seq<bv8>, b: seq<bv8>, after: seq<bv8>, progress: int,
                   tag: seq<bv8>, labelColor: bv8)
    requires |before| == Size
    requires Painted(before, b1, BarX - 1, BarY, 1, 1, OpenBracket, Color(White, Black))
    requires Painted(b1, b2, BarX + BarWidth, BarY, 1, 1, CloseBracket, Color(White, Black))
    requires |b| == Size
    requires forall k :: 0 <= k < Size ==> b[k] == if InBox(k, BarX, BarY, BarWidth, 1) then BarInk(k, Col(k) - BarX, Filled(progress)) else b2[k]
    requires Written(b, after, LabelX, LabelY, tag, Color(labelColor, Black))
    ensures forall k :: 0 <= k < Size ==> after[k] == Drawn(before, k, progress, tag, labelColor)
  {
  }

  /** The label has no NUL and no newline, so printing it writes it along row 20. */
  lemma LabelPrinted(at: Screen, tag: seq<bv8>, color: bv8)
    requires Valid(at) && at.cx == LabelX && at.cy == LabelY
    requires PlainLabel(tag)
    ensures CString(tag + [0]) == tag
    ensures Written(at.buf, PrintAll(at, tag, color).buf, LabelX, LabelY, tag, color)
    ensures PrintAll(at, tag, color).cx == LabelX + |tag| && PrintAll(at, tag, color).cy == LabelY
  {
    var c := CString(tag + [0]);
    assert (tag + [0])[|tag|] == 0;
    assert forall j :: 0 <= j < |tag| ==> (tag + [0])[j] == tag[j];
    assert c == (tag + [0])[..|tag|] == tag;
    PrintRow(at, tag, color);
  }
}

=== FILE: client_fs.dfy ===
/**
 * The browser-side file-system service: the path validator every request goes
 * through, the name sanitiser of `createItem`, the errno message table and the
 * registry of WebSocket event handlers.
 */
module ClientFs {
  import opened Common
  import opened Strings

  /** A call that either returns a value or throws an `Error` with a message. */
  datatype Checked<+T> = Ok(value: T) | Thrown(message: string)

  const InvalidPath := "Invalid path provided"
  const TraversalRefused := "Invalid path: path traversal not allowed"
  const BlankName := "File or folder name cannot be blank or only invalid characters"
  const InvalidType := "Invalid type: must be \"file\" or \"folder\""
  const UnknownError := "Unknown error occurred"

  // ---------------------------------------------------------------------------
  // validatePath
  // ---------------------------------------------------------------------------

  /** `s.replace(/\/+$/, '')`: every trailing slash is removed. */
  function StripTrailingSlashes(s: string): (r: string)
    ensures r <= s
    ensures r == [] || r[|r| - 1] != '/'
    ensures forall k :: |r| <= k < |s| ==> s[k] == '/'
    decreases |s|
  {
    if s != [] && s[|s| - 1] == '/' then StripTrailingSlashes(s[..|s| - 1]) else s
  }

  /** Backslashes become slashes, a leading slash is added when missing, slash runs collapse, trailing slashes go. */
  function Canonical(s: string): string
  {
    var forward := ReplaceChar(s, '\\', '/');
    var rooted := if StartsWith(forward, "/") then forward else "/" + forward;
    StripTrailingSlashes(CollapseSlashes(rooted))
  }

  /** The shape of every path the validator accepts. */
  predicate CanonicalPath(p: string)
  {
    && |p| > 0 && p[0] == '/'
    && '\\' !in p
    && NoDoubleSlash(p)
    && (p == "/" || p[|p| - 1] != '/')
    && !HasDotDot(p)
  }

  /** Missing, non-string and empty inputs throw; any `..` throws; an empty result means the root. */
  function ValidatePath(p: Option<string>): (r: Checked<string>)
    ensures r.Ok? ==> CanonicalPath(r.value)
    ensures r == Thrown(InvalidPath) <==> !Truthy(p)
    ensures r == Thrown(TraversalRefused) <==> Truthy(p) && HasDotDot(p.value)
    ensures r.Ok? <==> Truthy(p) && !HasDotDot(p.value)
    ensures r.Ok? ==> RemoveChars(r.value, {'/'}) == RemoveChars(ReplaceChar(p.value, '\\', '/'), {'/'})
    ensures r.Ok? ==> Names(r.value) == Names(ReplaceChar(p.value, '\\', '/'))
  {
    if !Truthy(p) then Thrown(InvalidPath)
    else
      var n := Canonical(p.value);
      CanonicalDotDot(p.value);
      if HasDotDot(n) then Thrown(TraversalRefused)
      else
        AcceptedPath(p.value);
        if n == "" then Ok("/") else Ok(n)
  }

  /** What an input without `..` validates to is canonical and keeps the input's names. */
  lemma AcceptedPath(s: string)
    requires s != "" && !HasDotDot(Canonical(s))
    ensures var n := Canonical(s); var v := if n == "" then "/" else n;
      && CanonicalPath(v)
      && RemoveChars(v, {'/'}) == RemoveChars(ReplaceChar(s, '\\', '/'), {'/'})
      && Names(v) == Names(ReplaceChar(s, '\\', '/'))
  {
    CanonicalKeepsNames(s);
    CanonicalKeepsSegments(s);
    if Canonical(s) == "" {
      RootHasNoNames();
      assert RemoveChars("/", {'/'}) == [];
    } else {
      CanonicalShape(s);
    }
  }

  /** Putting one character in front adds at most the pair it forms with the old head. */
  lemma DotDotCons(c: char, t: string)
    ensures HasDotDot([c] + t) <==> (c == '.' && t != [] && t[0] == '.') || HasDotDot(t)
  {
    var s := [c] + t;
    if HasDotDot(s) {
      var i :| 0 <= i < |s| - 1 && s[i] == '.' && s[i + 1] == '.';
      if i > 0 {
        assert t[i - 1] == '.' && t[i] == '.';
      }
    }
    if HasDotDot(t) {
      var i :| 0 <= i < |t| - 1 && t[i] == '.' && t[i + 1] == '.';
      assert s[i + 1] == '.' && s[i + 2] == '.';
    }
    if c == '.' && t != [] && t[0] == '.' {
      assert s[0] == '.' && s[1] == '.';
    }
  }

  /** Collapsing slash runs never creates or destroys a `..`. */
  lemma {:induction false} CollapseDotDot(s: string)
    ensures HasDotDot(CollapseSlashes(s)) <==> HasDotDot(s)
    decreases |s|
  {
    if |s| >= 2 {
      assert s == [s[0]] + s[1..];
      CollapseDotDot(s[1..]);
      DotDotCons(s[0], s[1..]);
      if !(s[0] == '/' && s[1] == '/') {
        DotDotCons(s[0], CollapseSlashes(s[1..]));
      }
    } else if |s| == 1 {
      assert !HasDotDot(s);
    }
  }

  /** Dropping trailing slashes never creates or destroys a `..`. */
  lemma StripDotDot(s: string)
    ensures HasDotDot(StripTrailingSlashes(s)) <==> HasDotDot(s)
  {
    var r := StripTrailingSlashes(s);
    if HasDotDot(s) {
      var i :| 0 <= i < |s| - 1 && s[i] == '.' && s[i + 1] == '.';
      assert r[i] == '.' && r[i + 1] == '.';
    }
    if HasDotDot(r) {
      var i :| 0 <= i < |r| - 1 && r[i] == '.' && r[i + 1] == '.';
      assert s[i] == '.' && s[i + 1] == '.';
    }
  }

  /** Replacing backslashes leaves every dot where it was. */
  lemma ReplaceDotDot(s: string)
    ensures HasDotDot(ReplaceChar(s, '\\', '/')) <==> HasDotDot(s)
  {
    var r := ReplaceChar(s, '\\', '/');
    if HasDotDot(s) {
      var i :| 0 <= i < |s| - 1 && s[i] == '.' && s[i + 1] == '.';
      assert r[i] == '.' && r[i + 1] == '.';
    }
    if HasDotDot(r) {
      var i :| 0 <= i < |r| - 1 && r[i] == '.' && r[i + 1] == '.';
      assert s[i] == '.' && s[i + 1] == '.';
    }
  }

  /** The validator's `..` test sees exactly the `..` pairs of its raw input. */
  lemma CanonicalDotDot(s: string)
    ensures HasDotDot(Canonical(s)) <==> HasDotDot(s)
  {
    var forward := ReplaceChar(s, '\\', '/');
    var rooted := if StartsWith(forward, "/") then forward else "/" + forward;
    ReplaceDotDot(s);
    if !StartsWith(forward, "/") {
      DotDotCons('/', forward);
    }
    CollapseDotDot(rooted);
    StripDotDot(CollapseSlashes(rooted));
  }

  /** Dropping trailing slashes changes only slashes. */
  lemma {:induction false} StripKeepsNames(s: string)
    ensures RemoveChars(StripTrailingSlashes(s), {'/'}) == RemoveChars(s, {'/'})
    decreases |s|
  {
    if s != [] && s[|s| - 1] == '/' {
      var init := s[..|s| - 1];
      StripKeepsNames(init);
      assert s == init + ['/'];
      RemoveCharsAppend(init, ['/'], {'/'});
    }
  }

  /** Normalisation moves, adds and removes slashes but never touches another character. */
  lemma CanonicalKeepsNames(s: string)
    ensures RemoveChars(Canonical(s), {'/'}) == RemoveChars(ReplaceChar(s, '\\', '/'), {'/'})
  {
    var forward := ReplaceChar(s, '\\', '/');
    var rooted := if StartsWith(forward, "/") then forward else "/" + forward;
    if !StartsWith(forward, "/") {
      RemoveCharsAppend("/", forward, {'/'});
    }
    CollapseKeepsNames(rooted);
    StripKeepsNames(CollapseSlashes(rooted));
  }

  /** Dropping trailing slashes drops only empty pieces. */
  lemma {:induction false} StripKeepsSegments(s: string)
    ensures Names(StripTrailingSlashes(s)) == Names(s)
    decreases |s|
  {
    if s != [] && s[|s| - 1] == '/' {
      var init := s[..|s| - 1];
      StripKeepsSegments(init);
      assert s == init + ['/'];
      TrailingSlashNames(init);
    }
  }

  /** A trailing slash only adds an empty last piece. */
  lemma TrailingSlashNames(init: string)
    ensures Names(init + ['/']) == Names(init)
  {
    assert init + ['/'] == init + ['/'] + "";
    SplitAppend(init, "", '/');
    assert Split("", {'/'}) == [""];
    FilterAppend(Split(init, {'/'}), [""], NonEmpty);
    assert Filter([""], NonEmpty) == [];
  }

  /** Normalisation keeps the names of the path once backslashes are read as slashes. */
  lemma CanonicalKeepsSegments(s: string)
    ensures Names(Canonical(s)) == Names(ReplaceChar(s, '\\', '/'))
  {
    var forward := ReplaceChar(s, '\\', '/');
    var rooted := if StartsWith(forward, "/") then forward else "/" + forward;
    if !StartsWith(forward, "/") {
      NamesAfterSlash(forward);
    }
    CollapseKeepsSegments(rooted);
    StripKeepsSegments(CollapseSlashes(rooted));
  }

  /** `a/b` validates to a path whose names are `a` and `b`. */
  lemma ValidateKeepsNamesApart(a: string, b: string)
    requires a != "" && b != "" && NoneIn(a, {'/', '\\'}) && NoneIn(b, {'/', '\\'})
    requires ValidatePath(Some(a + "/" + b)).Ok?
    ensures Names(ValidatePath(Some(a + "/" + b)).value) == [a, b]
  {
    KeepsWithoutBackslash(a + "/" + b);
    NamesOfPair(a, b);
  }

  /** A string without backslashes is left alone by the backslash replacement. */
  lemma KeepsWithoutBackslash(s: string)
    requires '\\' !in s
    ensures ReplaceChar(s, '\\', '/') == s
  {
  }

  /** Two slash-free names joined by one slash split back into the two. */
  lemma NamesOfPair(a: string, b: string)
    requires a != "" && b != "" && NoneIn(a, {'/'}) && NoneIn(b, {'/'})
    ensures Names(a + "/" + b) == [a, b]
  {
    SplitWithoutSeparator(a, {'/'});
    SplitWithoutSeparator(b, {'/'});
    SplitAppend(a, b, '/');
    assert a + "/" + b == a + ['/'] + b;
    assert Filter([a, b], NonEmpty) == [a, b];
  }

  /** A non-empty normalised path is rooted, backslash-free, single-slashed and has no trailing slash. */
  lemma CanonicalShape(s: string)
    requires s != "" && Canonical(s) != "" && !HasDotDot(Canonical(s))
    ensures CanonicalPath(Canonical(s))
  {
    var forward := ReplaceChar(s, '\\', '/');
    var rooted := if StartsWith(forward, "/") then forward else "/" + forward;
    var collapsed := CollapseSlashes(rooted);
    var n := StripTrailingSlashes(collapsed);
    assert '\\' !in rooted;
    assert '\\' !in n by {
      forall k | 0 <= k < |n|
        ensures n[k] != '\\'
      {
        assert n[k] == collapsed[k];
      }
    }
    assert n[0] == collapsed[0] == rooted[0] == '/';
    forall i | 0 <= i < |n| - 1
      ensures n[i] != '/' || n[i + 1] != '/'
    {
      assert n[i] == collapsed[i] && n[i + 1] == collapsed[i + 1];
    }
  }

  /** A path the validator returned comes back unchanged: validation is idempotent. */
  lemma ValidateCanonical(p: string)
    requires CanonicalPath(p)
    ensures ValidatePath(Some(p)) == Ok(p)
  {
    var forward := ReplaceChar(p, '\\', '/');
    assert forward == p;
    assert StartsWith(forward, "/");
    CollapseKeepsSingleSlashes(p);
    if p == "/" {
      assert StripTrailingSlashes(p) == "";
    } else {
      assert StripTrailingSlashes(p) == p;
    }
  }

  /** Every accepted path validates to itself a second time. */
  lemma ValidateIdempotent(p: Option<string>)
    requires ValidatePath(p).Ok?
    ensures ValidatePath(Some(ValidatePath(p).value)) == ValidatePath(p)
  {
    ValidateCanonical(ValidatePath(p).value);
  }

  /** A non-empty input made only of slashes and backslashes validates to the root. */
  lemma SeparatorsAreRoot(s: string)
    requires |s| > 0 && forall k :: 0 <= k < |s| ==> s[k] == '/' || s[k] == '\\'
    ensures ValidatePath(Some(s)) == Ok("/")
  {
    var forward := ReplaceChar(s, '\\', '/');
    assert forward[0] == '/';
    assert StartsWith(forward, "/");
    CollapseAllSlashes(forward);
    assert StripTrailingSlashes("/") == "";
    assert !HasDotDot("");
  }

  /** A run of slashes collapses to one slash. */
  lemma {:induction false} CollapseAllSlashes(s: string)
    requires |s| > 0 && forall k :: 0 <= k < |s| ==> s[k] == '/'
    ensures CollapseSlashes(s) == "/"
    decreases |s|
  {
    if |s| >= 2 {
      CollapseAllSlashes(s[1..]);
    }
  }

  /** A `..` inside an ordinary name is refused as firmly as a parent step. */
  lemma DotsInsideNameRefused()
    ensures ValidatePath(Some("/a..b")) == Thrown(TraversalRefused)
  {
    assert "/a..b"[2] == '.' && "/a..b"[3] == '.';
  }

  // ---------------------------------------------------------------------------
  // createItem
  // ---------------------------------------------------------------------------

  /** The nine characters `createItem` deletes from a name. */
  const NameForbidden: set<char> := {'<', '>', ':', '"', '/', '\\', '|', '?', '*'}

  /** The filter that keeps every character outside `bad`. */
  function Outside(bad: set<char>): char -> bool
  {
    (c: char) => c !in bad
  }

  /** `name.trim().replace(/[<>:"/\\|?*]/g, '')`. */
  function SanitizeName(name: string): (r: string)
    ensures NoneIn(r, NameForbidden)
    ensures forall c :: c in r <==> c in Trim(name) && c !in NameForbidden
    ensures r == Filter(Trim(name), Outside(NameForbidden))
  {
    RemoveCharsFilters(Trim(name), NameForbidden);
    RemoveChars(Trim(name), NameForbidden)
  }

  /** Removing characters keeps every other character, in order and as often as it occurs. */
  lemma {:induction false} RemoveCharsFilters(s: string, bad: set<char>)
    ensures RemoveChars(s, bad) == Filter(s, Outside(bad))
    decreases |s|
  {
    if s != [] {
      RemoveCharsFilters(s[1..], bad);
      var rest := Filter(s[1..], Outside(bad));
      if s[0] in bad {
        assert Filter(s, Outside(bad)) == rest;
      } else {
        assert Filter(s, Outside(bad)) == [s[0]] + rest;
      }
    }
  }

  /** The body `createItem` posts to the server. */
  datatype ItemRequest = ItemRequest(path: string, name: string, kind: string)

  /**
   * Path validation first, then the sanitised name, then the type. The
   * source's later `!validPath` test can never fire, because an accepted path
   * is never empty.
   */
  function CreateItem(parentPath: Option<string>, name: string, kind: Option<string>): (r: Checked<ItemRequest>)
    ensures ValidatePath(parentPath).Thrown? ==> r == Thrown(ValidatePath(parentPath).message)
    ensures ValidatePath(parentPath).Ok? && SanitizeName(name) == "" ==> r == Thrown(BlankName)
    ensures (ValidatePath(parentPath).Ok? && SanitizeName(name) != "" && kind != Some("file") && kind != Some("folder")) ==>
              r == Thrown(InvalidType)
    ensures r.Ok? <==>
      ValidatePath(parentPath).Ok? && SanitizeName(name) != "" && (kind == Some("file") || kind == Some("folder"))
    ensures r.Ok? ==>
      && CanonicalPath(r.value.path) && r.value.name != "" && NoneIn(r.value.name, NameForbidden)
      && r.value.kind == kind.value
    ensures r.Ok? ==> r.value.path == ValidatePath(parentPath).value && r.value.name == SanitizeName(name)
    ensures r.Thrown? ==> r.message in {InvalidPath, TraversalRefused, BlankName, InvalidType}
  {
    match ValidatePath(parentPath)
    case Thrown(m) => Thrown(m)
    case Ok(validPath) =>
      var sanitized := SanitizeName(name);
      if sanitized == "" then Thrown(BlankName)
      else if !Truthy(kind) || (kind.value != "file" && kind.value != "folder") then Thrown(InvalidType)
      else Ok(ItemRequest(validPath, sanitized, kind.value))
  }

  /** The name is trimmed before the characters are removed, so removal can expose fresh edge spaces. */
  lemma SanitizeLeavesInnerSpace()
    ensures SanitizeName("x <") == "x "
  {
    TrimmedSample();
    KeepTwoDropOne('x', ' ', '<', NameForbidden);
  }

  /** Of three characters, the two allowed ones stay. */
  lemma KeepTwoDropOne(a: char, b: char, c: char, bad: set<char>)
    requires a !in bad && b !in bad && c in bad
    ensures RemoveChars([a, b, c], bad) == [a, b]
  {
    assert [a, b, c][1..] == [b, c] && [b, c][1..] == [c] && [c][1..] == [];
    assert RemoveChars([c], bad) == [];
    assert RemoveChars([b, c], bad) == [b];
  }

  /** The sample name has no edge white space. */
  lemma TrimmedSample()
    ensures Trim("x <") == "x <"
  {
    var s := "x <";
    assert !IsSpace(s[0]) && !IsSpace(s[2]);
    TrimTrimmed(s);
  }

  // ---------------------------------------------------------------------------
  // handleError
  // ---------------------------------------------------------------------------

  /** The fixed messages for the six errno codes the service knows. */
  const ErrnoMessages: map<string, string> := map[
    "ENOENT" := "File or directory not found",
    "EACCES" := "Permission denied",
    "EEXIST" := "File or directory already exists",
    "EISDIR" := "Path is a directory when file expected",
    "ENOTDIR" := "Path is not a directory when directory expected",
    "ENOTEMPTY" := "Directory not empty"
  ]

  /** The table entry for the code, else the error's own message, else a fixed fallback. */
  function HandleError(code: Option<string>, message: Option<string>): (r: string)
    ensures r != ""
    ensures code.Some? && code.value in ErrnoMessages ==> r == ErrnoMessages[code.value]
    ensures !(code.Some? && code.value in ErrnoMessages) && Truthy(message) ==> r == message.value
    ensures !(code.Some? && code.value in ErrnoMessages) && !Truthy(message) ==> r == UnknownError
  {
    var key := if Truthy(code) then code.value else "";
    if key in ErrnoMessages then ErrnoMessages[key]
    else if Truthy(message) then message.value
    else UnknownError
  }

  /** The six messages are distinct, so the code is recoverable from the message shown. */
  lemma ErrnoMessagesDistinct(a: string, b: string)
    requires a in ErrnoMessages && b in ErrnoMessages && a != b
    ensures HandleError(Some(a), None) != HandleError(Some(b), None)
  {
  }

  // ---------------------------------------------------------------------------
  // Event-handler registry
  // ---------------------------------------------------------------------------

  /** The `eventHandlers` map: event name to its handlers in registration order. */
  type Registry<H> = map<string, seq<H>>

  /** The handlers an incoming message with this event name is delivered to, in order. */
  function Handlers<H>(reg: Registry<H>, event: string): (r: seq<H>)
    ensures event !in reg ==> r == []
  {
    if event in reg then reg[event] else []
  }

  /** `addEventListener`: creates the list when missing, then appends. */
  function AddListener<H>(reg: Registry<H>, event: string, handler: H): (r: Registry<H>)
    ensures r.Keys == reg.Keys + {event}
    ensures Handlers(r, event) == Handlers(reg, event) + [handler]
    ensures forall e :: e != event ==> Handlers(r, e) == Handlers(reg, e)
  {
    reg[event := Handlers(reg, event) + [handler]]
  }

  /** Position of the first occurrence, as `indexOf` finds it. */
  function IndexOf<H(==)>(hs: seq<H>, handler: H): (r: Option<nat>)
    ensures r.None? <==> handler !in hs
    ensures r.Some? ==> r.value < |hs| && hs[r.value] == handler && handler !in hs[..r.value]
  {
    FirstIndex(hs, h => h == handler)
  }

  /** `removeEventListener`: splices out the first occurrence only; absent event or handler is a no-op. */
  function RemoveListener<H(==)>(reg: Registry<H>, event: string, handler: H): (r: Registry<H>)
    ensures event !in reg || handler !in reg[event] ==> r == reg
    ensures r.Keys == reg.Keys
    ensures forall e :: e != event ==> Handlers(r, e) == Handlers(reg, e)
    ensures event in reg && handler in reg[event] ==>
      && |r[event]| + 1 == |reg[event]|
      && (exists i :: 0 <= i < |reg[event]| && handler !in reg[event][..i] && reg[event] == r[event][..i] + [handler] + r[event][i..])
  {
    if event !in reg then reg
    else
      var hs := reg[event];
      match IndexOf(hs, handler)
      case None => reg
      case Some(i) =>
        var rest := hs[..i] + hs[i + 1..];
        assert hs == rest[..i] + [handler] + rest[i..];
        reg[event := rest]
  }

  /** `cleanup`: the registry is cleared. */
  function Cleanup<H>(reg: Registry<H>): (r: Registry<H>)
    ensures forall e :: Handlers(r, e) == []
  {
    map[]
  }

  /** Adding a handler that was not yet registered and removing it again restores the delivery list. */
  lemma AddThenRemove<H>(reg: Registry<H>, event: string, handler: H)
    requires handler !in Handlers(reg, event)
    ensures forall e :: Handlers(RemoveListener(AddListener(reg, event, handler), event, handler), e) == Handlers(reg, e)
  {
    var added := AddListener(reg, event, handler);
    var hs := Handlers(reg, event);
    assert added[event] == hs + [handler];
    assert IndexOf(hs + [handler], handler) == Some(|hs|) by {
      assert (hs + [handler])[..|hs|] == hs;
    }
    assert (hs + [handler])[..|hs|] + (hs + [handler])[|hs| + 1..] == hs;
  }

  /** A handler registered twice is still delivered to after one removal. */
  lemma RemoveOnlyFirst<H>(reg: Registry<H>, event: string, handler: H, j: nat, k: nat)
    requires j < k < |Handlers(reg, event)|
    requires Handlers(reg, event)[j] == handler && Handlers(reg, event)[k] == handler
    ensures handler in Handlers(RemoveListener(reg, event, handler), event)
  {
    var hs := reg[event];
    var r := RemoveListener(reg, event, handler);
    var i :| 0 <= i < |hs| && handler !in hs[..i] && hs == r[event][..i] + [handler] + r[event][i..];
    assert hs[k] == r[event][k - 1];
  }
}

=== FILE: common.dfy ===
/** Option and the JavaScript notion of a "truthy" field, shared by every model. */
module Common {

  /** A value that may be absent: a missing request field, a missing map entry. */
  datatype Option<+T> = None | Some(value: T)

  /** `!field` is false in JavaScript exactly when the field is present and not "". */
  predicate Truthy(field: Option<string>)
  {
    field.Some? && field.value != ""
  }

  /** `Boolean` as a filter on strings: only the empty string is falsy. */
  function NonEmpty(s: string): bool
  {
    s != ""
  }

  /** `Array.prototype.filter`: the elements that `keep` accepts, in their original order. */
  function Filter<T>(xs: seq<T>, keep: T -> bool): (r: seq<T>)
    ensures |r| <= |xs|
    ensures forall i :: 0 <= i < |r| ==> r[i] in xs && keep(r[i])
    ensures forall i :: 0 <= i < |xs| && keep(xs[i]) ==> xs[i] in r
    ensures |r| == |xs| <==> forall i :: 0 <= i < |xs| ==> keep(xs[i])
    ensures |r| == |xs| ==> r == xs
  {
    if xs == [] then []
    else
      var rest := Filter(xs[1..], keep);
      assert forall i :: 1 <= i < |xs| ==> xs[i] == xs[1..][i - 1];
      if keep(xs[0]) then [xs[0]] + rest else rest
  }

  /** `xs` is `ys` with some elements deleted and the rest in their original order. */
  ghost predicate Subsequence<T>(xs: seq<T>, ys: seq<T>)
    decreases |ys|
  {
    if xs == [] then true
    else if ys == [] then false
    else if xs[0] == ys[0] then Subsequence(xs[1..], ys[1..])
    else Subsequence(xs, ys[1..])
  }

  /** Index of the first element `pick` accepts, as `Array.prototype.findIndex` finds it. */
  function FirstIndex<T>(xs: seq<T>, pick: T -> bool): (r: Option<nat>)
    ensures r.None? <==> forall i :: 0 <= i < |xs| ==> !pick(xs[i])
    ensures r.Some? ==> r.value < |xs| && pick(xs[r.value])
    ensures r.Some? ==> forall i :: 0 <= i < r.value ==> !pick(xs[i])
  {
    if xs == [] then None
    else if pick(xs[0]) then Some(0)
    else
      match FirstIndex(xs[1..], pick)
      case None => None
      case Some(i) => Some(i + 1)
  }

  /** A filter keeps the order of what it keeps. */
  lemma {:induction false} FilterSubsequence<T>(xs: seq<T>, keep: T -> bool)
    ensures Subsequence(Filter(xs, keep), xs)
    decreases |xs|
  {
    if xs != [] {
      FilterSubsequence(xs[1..], keep);
      var rest := Filter(xs[1..], keep);
      if !keep(xs[0]) && rest != [] {
        assert keep(rest[0]);
        assert rest[0] != xs[0];
      }
    }
  }

  lemma {:induction false} FilterAppend<T>(xs: seq<T>, ys: seq<T>, keep: T -> bool)
    ensures Filter(xs + ys, keep) == Filter(xs, keep) + Filter(ys, keep)
    decreases |xs|
  {
    if xs == [] {
      assert xs + ys == ys;
    } else {
      assert (xs + ys)[1..] == xs[1..] + ys;
      FilterAppend(xs[1..], ys, keep);
    }
  }

  /** No two elements share a key. */
  ghost predicate DistinctBy<T, K>(xs: seq<T>, key: T -> K)
  {
    forall i, j :: 0 <= i < j < |xs| ==> key(xs[i]) != key(xs[j])
  }

  /** Filtering a sequence whose keys are pairwise distinct keeps them pairwise distinct. */
  lemma {:induction false} FilterKeepsDistinct<T, K>(xs: seq<T>, keep: T -> bool, key: T -> K)
    requires DistinctBy(xs, key)
    ensures DistinctBy(Filter(xs, keep), key)
    decreases |xs|
  {
    if xs != [] {
      var rest := Filter(xs[1..], keep);
      FilterKeepsDistinct(xs[1..], keep, key);
      forall i | 0 <= i < |rest|
        ensures key(rest[i]) != key(xs[0])
      {
        var j :| 0 <= j < |xs[1..]| && xs[1..][j] == rest[i];
        assert xs[j + 1] == rest[i];
      }
      var r := Filter(xs, keep);
      if keep(xs[0]) {
        assert r == [xs[0]] + rest;
        forall i, j | 0 <= i < j < |r|
          ensures key(r[i]) != key(r[j])
        {
          assert r[j] == rest[j - 1];
          if i > 0 {
            assert r[i] == rest[i - 1];
          }
        }
      }
    }
  }
}

=== FILE: explorer.dfy ===
/**
 * The file explorer: the path arithmetic behind entering a folder, going up
 * and deleting an item, the folder-first ordering of a listing and the guard
 * against blank names. Each server call is represented by the request it sends.
 */
module Explorer {
  import opened Common
  import opened Strings
  import PosixPath

  // ---------------------------------------------------------------------------
  // Path arithmetic
  // ---------------------------------------------------------------------------

  /** A path the explorer can hold: `/` or `/`-separated non-empty names. */
  predicate Canonical(p: string)
  {
    p == PosixPath.Absolute(Names(p))
  }

  /** Names that are non-empty and free of slashes. */
  predicate ValidNames(ns: seq<string>)
  {
    forall i :: 0 <= i < |ns| ==> ns[i] != "" && NoneIn(ns[i], {'/'})
  }

  /** Rendering valid names and splitting again gives the names back. */
  lemma NamesOfAbsolute(ns: seq<string>)
    requires ValidNames(ns)
    ensures Names(PosixPath.Absolute(ns)) == ns
  {
    if ns == [] {
      assert PosixPath.Absolute(ns) == "/";
      assert Split("/", {'/'}) == ["", ""];
      assert Filter(["", ""], NonEmpty) == [];
    } else {
      PosixPath.SplitAbsolute(ns);
      FilterAppend([""], ns, NonEmpty);
      assert Filter([""], NonEmpty) == [];
      assert Filter(ns, NonEmpty) == ns;
    }
  }

  /** `navigateToFolder`: `/name` at the root, `prev/name` elsewhere. */
  function NavigateToFolder(prev: string, name: string): (r: string)
    ensures Canonical(prev) && name != "" && NoneIn(name, {'/'}) ==>
      Canonical(r) && Names(r) == Names(prev) + [name]
  {
    ChildNames(prev, name);
    if prev == "/" then "/" + name else prev + "/" + name
  }

  /** The child path names one more name than its parent. */
  lemma ChildNames(prev: string, name: string)
    ensures Canonical(prev) && name != "" && NoneIn(name, {'/'}) ==>
      var child := if prev == "/" then "/" + name else prev + "/" + name;
      Canonical(child) && Names(child) == Names(prev) + [name]
  {
    if Canonical(prev) && name != "" && NoneIn(name, {'/'}) {
      var ns := Names(prev) + [name];
      assert ValidNames(ns);
      if prev == "/" {
        RootChild(name);
      } else {
        FolderChild(prev, name);
      }
      NamesOfAbsolute(ns);
    }
  }

  /** Below the root the child path is `/name`. */
  lemma RootChild(name: string)
    ensures Names("/") == [] && "/" + name == PosixPath.Absolute(Names("/") + [name])
  {
    assert Split("/", {'/'}) == ["", ""];
    assert Filter(["", ""], NonEmpty) == [];
    assert Names("/") + [name] == [name];
  }

  /** Below any other canonical path the child path is `prev/name`. */
  lemma FolderChild(prev: string, name: string)
    requires Canonical(prev) && prev != "/"
    ensures prev + "/" + name == PosixPath.Absolute(Names(prev) + [name])
  {
    assert Names(prev) != [];
    JoinAppend(Names(prev), [name], '/');
  }

  /** `navigateUp`: the last name is dropped; the root stays the root. */
  function NavigateUp(prev: string): (r: string)
    ensures prev == "/" ==> r == "/"
    ensures Names(prev) == [] ==> r == "/"
    ensures Names(prev) != [] ==> Canonical(r) && Names(r) == Names(prev)[..|Names(prev)| - 1]
  {
    if prev == "/" then "/"
    else
      var parts := Names(prev);
      var kept := if parts == [] then [] else parts[..|parts| - 1];
      assert ValidNames(kept);
      NamesOfAbsolute(kept);
      if kept == [] then "/" else "/" + Join(kept, '/')
  }

  /** Entering a folder and going up again returns to where the explorer was. */
  lemma UpUndoesEnter(p: string, name: string)
    requires Canonical(p) && name != "" && NoneIn(name, {'/'})
    ensures NavigateUp(NavigateToFolder(p, name)) == p
  {
    var child := NavigateToFolder(p, name);
    assert Names(child) == Names(p) + [name];
    assert (Names(p) + [name])[..|Names(p)|] == Names(p);
  }

  /** The request `deleteItem` sends once the user confirms. */
  function DeleteRequest(current: string, name: string, confirmed: bool): (r: Option<string>)
    ensures r.Some? <==> confirmed
    ensures r.Some? ==> r.value == NavigateToFolder(current, name)
    ensures r.Some? && Canonical(current) && name != "" && NoneIn(name, {'/'}) ==>
      Names(r.value) == Names(current) + [name]
  {
    if !confirmed then None
    else Some(if current == "/" then "/" + name else current + "/" + name)
  }

  // ---------------------------------------------------------------------------
  // Folder-first ordering
  // ---------------------------------------------------------------------------

  /** One entry of a listing. */
  datatype Entry = Entry(name: string, kind: string)

  /** Lexicographic order on characters (Unicode code points), standing in for `localeCompare`. */
  predicate NameLeq(a: string, b: string)
    decreases |a|
  {
    a == [] || (b != [] && (a[0] < b[0] || (a[0] == b[0] && NameLeq(a[1..], b[1..]))))
  }

  lemma {:induction false} NameLeqTotal(a: string, b: string)
    ensures NameLeq(a, b) || NameLeq(b, a)
    decreases |a|
  {
    if a != [] && b != [] && a[0] == b[0] {
      NameLeqTotal(a[1..], b[1..]);
    }
  }

  lemma {:induction false} NameLeqTransitive(a: string, b: string, c: string)
    requires NameLeq(a, b) && NameLeq(b, c)
    ensures NameLeq(a, c)
    decreases |a|
  {
    if a != [] && b != [] && c != [] && a[0] == b[0] && b[0] == c[0] {
      NameLeqTransitive(a[1..], b[1..], c[1..]);
    }
  }

  predicate IsFolder(e: Entry)
  {
    e.kind == "folder"
  }

  /** The comparator: folders before non-folders, names in order within a kind. */
  predicate Before(a: Entry, b: Entry)
  {
    (IsFolder(a) && !IsFolder(b)) || (IsFolder(a) == IsFolder(b) && NameLeq(a.name, b.name))
  }

  lemma BeforeTotal(a: Entry, b: Entry)
    ensures Before(a, b) || Before(b, a)
  {
    NameLeqTotal(a.name, b.name);
  }

  lemma BeforeTransitive(a: Entry, b: Entry, c: Entry)
    requires Before(a, b) && Before(b, c)
    ensures Before(a, c)
  {
    if IsFolder(a) == IsFolder(b) && IsFolder(b) == IsFolder(c) {
      NameLeqTransitive(a.name, b.name, c.name);
    }
  }

  predicate Sorted(s: seq<Entry>)
  {
    forall i, j :: 0 <= i < j < |s| ==> Before(s[i], s[j])
  }

  /** Every folder comes before every other entry. */
  predicate FoldersFirst(s: seq<Entry>)
  {
    forall i, j :: 0 <= i < j < |s| && IsFolder(s[j]) ==> IsFolder(s[i])
  }

  /** Places one entry into a sorted listing. */
  function Insert(x: Entry, s: seq<Entry>): (r: seq<Entry>)
    requires Sorted(s)
    ensures multiset(r) == multiset(s) + multiset{x}
    ensures forall y :: y in r <==> y == x || y in s
    ensures Sorted(r)
  {
    if s == [] then [x]
    else if Before(x, s[0]) then
      InsertFront(x, s);
      [x] + s
    else
      BeforeTotal(x, s[0]);
      var rest := Insert(x, s[1..]);
      assert s == [s[0]] + s[1..];
      InsertBehind(s[0], rest, x, s[1..]);
      [s[0]] + rest
  }

  /** An entry that precedes the head of a sorted listing precedes all of it. */
  lemma InsertFront(x: Entry, s: seq<Entry>)
    requires Sorted(s) && s != [] && Before(x, s[0])
    ensures Sorted([x] + s)
  {
    forall j | 0 < j <= |s|
      ensures Before(x, ([x] + s)[j])
    {
      if j > 1 {
        BeforeTransitive(x, s[0], s[j - 1]);
      }
    }
  }

  /** The old head stays in front of a sorted tail built from `x` and the old tail. */
  lemma InsertBehind(h: Entry, rest: seq<Entry>, x: Entry, tail: seq<Entry>)
    requires Sorted(rest) && Before(h, x)
    requires forall j :: 0 <= j < |tail| ==> Before(h, tail[j])
    requires forall y :: y in rest ==> y == x || y in tail
    ensures Sorted([h] + rest)
  {
    forall j | 0 <= j < |rest|
      ensures Before(h, rest[j])
    {
      assert rest[j] in rest;
    }
  }

  /** The order `data.sort` leaves the listing in. */
  function SortEntries(items: seq<Entry>): (r: seq<Entry>)
    ensures multiset(r) == multiset(items)
    ensures Sorted(r)
  {
    if items == [] then []
    else
      assert items == [items[0]] + items[1..];
      Insert(items[0], SortEntries(items[1..]))
  }

  /** A sorted listing shows all folders before all files. */
  lemma SortedFoldersFirst(s: seq<Entry>)
    requires Sorted(s)
    ensures FoldersFirst(s)
  {
  }

  /** Sorting a listing keeps its entries and puts folders first. */
  lemma SortKeepsEntries(items: seq<Entry>)
    ensures FoldersFirst(SortEntries(items))
    ensures forall e :: e in SortEntries(items) <==> e in items
  {
    var r := SortEntries(items);
    assert forall e :: e in r <==> e in multiset(r);
  }

  // ---------------------------------------------------------------------------
  // createNewItem
  // ---------------------------------------------------------------------------

  const NameEmpty := "Name cannot be empty."

  /** What pressing Create does: a local error for a blank name, otherwise a request with the trimmed name. */
  datatype CreateOutcome = LocalError(message: string) | CreateRequest(path: string, name: string, kind: string)

  function CreateNewItem(current: string, name: string, kind: string): (r: CreateOutcome)
    ensures r.LocalError? <==> AllSpace(name)
    ensures r.LocalError? ==> r.message == NameEmpty
    ensures r.CreateRequest? ==>
      && r.path == current && r.kind == kind
      && r.name != "" && !IsSpace(r.name[0]) && !IsSpace(r.name[|r.name| - 1])
      && r.name == Trim(name)
  {
    TrimEmpty(name);
    if Trim(name) == "" then LocalError(NameEmpty)
    else CreateRequest(current, Trim(name), kind)
  }
}

=== FILE: notifications.dfy ===
/**
 * The notification queue: each added notification takes the next number from
 * a counter as its id and goes to the end of the list; removal filters by id.
 * The timer that removes a notification later is represented by the request to
 * schedule it.
 */
module Notifications {
  import opened Common

  datatype Notification = Notification(id: nat, message: string, kind: string)

  /** The counter behind `notificationIdRef` and the list on screen. */
  datatype Queue = Queue(next: nat, shown: seq<Notification>)

  const Initial := Queue(0, [])

  /** Ids strictly increase along the list and all lie below the counter. */
  predicate Ordered(q: Queue)
  {
    && (forall i, j :: 0 <= i < j < |q.shown| ==> q.shown[i].id < q.shown[j].id)
    && (forall i :: 0 <= i < |q.shown| ==> q.shown[i].id < q.next)
  }

  /** An automatic removal of `id` after `delay` milliseconds. */
  datatype Timer = Timer(id: nat, delay: int)

  datatype Added = Added(queue: Queue, timer: Option<Timer>)

  /**
   * `addNotification(message, type = 'info', duration = 3000)`: an absent
   * argument takes its default.
   */
  function Add(q: Queue, message: string, kind: Option<string>, duration: Option<int>): (r: Added)
    ensures r.queue.next == q.next + 1
    ensures |r.queue.shown| == |q.shown| + 1 && r.queue.shown[..|q.shown|] == q.shown
    ensures r.queue.shown[|q.shown|].id == q.next
    ensures r.queue.shown[|q.shown|].message == message
    ensures r.queue.shown[|q.shown|].kind == (if kind.Some? then kind.value else "info")
    ensures r.timer.Some? <==> (duration.None? || duration.value > 0)
    ensures r.timer.Some? ==> r.timer.value.id == q.next
    ensures r.timer.Some? ==> r.timer.value.delay == (if duration.Some? then duration.value else 3000)
    ensures Ordered(q) ==> Ordered(r.queue)
  {
    var kindOrInfo := if kind.Some? then kind.value else "info";
    var wait := if duration.Some? then duration.value else 3000;
    var shown := q.shown + [Notification(q.next, message, kindOrInfo)];
    assert shown[..|q.shown|] == q.shown;
    Added(Queue(q.next + 1, shown), if wait > 0 then Some(Timer(q.next, wait)) else None)
  }

  /** The filter that keeps every notification except those with this id. */
  function Other(id: nat): Notification -> bool
  {
    (n: Notification) => n.id != id
  }

  /** `removeNotification`, and the timer's callback: the counter does not move. */
  function Remove(q: Queue, id: nat): (r: Queue)
    ensures r.next == q.next
    ensures forall n :: n in r.shown <==> n in q.shown && n.id != id
    ensures (forall n :: n in q.shown ==> n.id != id) ==> r == q
    ensures Subsequence(r.shown, q.shown)
  {
    var kept := Filter(q.shown, Other(id));
    FilterSubsequence(q.shown, Other(id));
    assert forall k :: 0 <= k < |kept| ==> Other(id)(kept[k]);
    assert forall k :: 0 <= k < |q.shown| && q.shown[k].id != id ==> Other(id)(q.shown[k]);
    Queue(q.next, kept)
  }

  /** Ids strictly increase along the list. */
  predicate Increasing(ns: seq<Notification>)
  {
    forall i, j :: 0 <= i < j < |ns| ==> ns[i].id < ns[j].id
  }

  /** Dropping notifications keeps the ids increasing. */
  lemma {:induction false} FilterKeepsIncreasing(ns: seq<Notification>, keep: Notification -> bool)
    requires Increasing(ns)
    ensures Increasing(Filter(ns, keep))
    decreases |ns|
  {
    if ns != [] {
      var rest := Filter(ns[1..], keep);
      FilterKeepsIncreasing(ns[1..], keep);
      HeadBelowRest(ns, rest);
      if keep(ns[0]) {
        ConsIncreasing(ns[0], rest);
      }
    }
  }

  /** Every element drawn from the tail of an increasing list has a larger id than its head. */
  lemma HeadBelowRest(ns: seq<Notification>, rest: seq<Notification>)
    requires ns != [] && Increasing(ns)
    requires forall k :: 0 <= k < |rest| ==> rest[k] in ns[1..]
    ensures forall k :: 0 <= k < |rest| ==> ns[0].id < rest[k].id
  {
    forall k | 0 <= k < |rest|
      ensures ns[0].id < rest[k].id
    {
      var j :| 0 <= j < |ns[1..]| && ns[1..][j] == rest[k];
      assert ns[j + 1] == rest[k];
    }
  }

  /** An increasing list stays increasing behind a head with a smaller id. */
  lemma ConsIncreasing(h: Notification, rest: seq<Notification>)
    requires Increasing(rest)
    requires forall k :: 0 <= k < |rest| ==> h.id < rest[k].id
    ensures Increasing([h] + rest)
  {
    var r := [h] + rest;
    forall i, j | 0 <= i < j < |r|
      ensures r[i].id < r[j].id
    {
      assert r[j] == rest[j - 1];
      if i > 0 {
        assert r[i] == rest[i - 1];
      }
    }
  }

  /** Removal keeps the ids increasing and below the counter. */
  lemma RemoveKeepsOrder(q: Queue, id: nat)
    requires Ordered(q)
    ensures Ordered(Remove(q, id))
  {
    assert Increasing(q.shown);
    FilterKeepsIncreasing(q.shown, Other(id));
    var r := Remove(q, id).shown;
    forall k | 0 <= k < |r|
      ensures r[k].id < q.next
    {
      assert r[k] in q.shown;
    }
  }

  /** Removing the notification just added restores the list. */
  lemma RemoveUndoesAdd(q: Queue, message: string, kind: Option<string>, duration: Option<int>)
    requires Ordered(q)
    ensures Remove(Add(q, message, kind, duration).queue, q.next).shown == q.shown
  {
    var shown := Add(q, message, kind, duration).queue.shown;
    assert shown == q.shown + [shown[|q.shown|]];
    FilterAppend(q.shown, [shown[|q.shown|]], Other(q.next));
    assert Filter([shown[|q.shown|]], Other(q.next)) == [];
    assert forall k :: 0 <= k < |q.shown| ==> Other(q.next)(q.shown[k]);
  }

  /** Ids handed out by a sequence of adds from the initial state are 0, 1, 2, and so on. */
  function AddAll(q: Queue, messages: seq<string>): (r: Queue)
    ensures r.next == q.next + |messages|
    ensures Ordered(q) ==> Ordered(r)
    ensures |r.shown| == |q.shown| + |messages| && r.shown[..|q.shown|] == q.shown
    ensures forall k :: 0 <= k < |messages| ==> r.shown[|q.shown| + k] == Notification(q.next + k, messages[k], "info")
    decreases |messages|
  {
    if messages == [] then q
    else
      var first := Add(q, messages[0], None, None).queue;
      var r := AddAll(first, messages[1..]);
      assert r.shown[..|q.shown|] == r.shown[..|first.shown|][..|q.shown|];
      assert forall k :: 0 <= k < |messages| ==> r.shown[|q.shown| + k] == Notification(q.next + k, messages[k], "info") by {
        forall k | 0 <= k < |messages|
          ensures r.shown[|q.shown| + k] == Notification(q.next + k, messages[k], "info")
        {
          if k == 0 {
            assert r.shown[|q.shown|] == r.shown[..|first.shown|][|q.shown|];
          } else {
            assert messages[1..][k - 1] == messages[k];
            assert |q.shown| + k == |first.shown| + (k - 1);
          }
        }
      }
      r
  }
}

=== FILE: packages.dfy ===
/**
 * The package manager of the server (server/server.js): installing an app from
 * a `.pakapp` JSON file in the VFS, uninstalling it, and the manifest of
 * installed apps. JSON parsing and the clock are parameters; the manifest file
 * is held as its parsed contents.
 */
module Packages {
  import opened Common
  import opened Sessions
  import opened Vfs

  /** The 400 message for an unknown app; its interpolation is not a template, so it is constant text. */
  const NotRecognized: string := "App ID \"<span class=\"math-inline\">{appId}\" with component \"</span>{componentName}\" is not a recognized predefined app."

  /** An app the frontend knows how to render. */
  datatype AppInfo = AppInfo(appId: string, title: string, componentName: string, description: string)

  /** `PREDEFINED_APPS`. */
  const Predefined: seq<AppInfo> := [
    AppInfo("hello-world-app", "Hello World", "HelloWorldApp", "A simple greeting application."),
    AppInfo("file-explorer-app", "File Explorer", "FileExplorer", "Browse and manage your files."),
    AppInfo("text-editor-app", "Text Editor", "TextEditor", "Edit text files."),
    AppInfo("terminal-app", "Terminal", "TerminalApp", "Access the command line.")
  ]

  /** A record of the installed-apps manifest. */
  datatype InstalledApp = InstalledApp(appId: string, title: string, componentName: string,
                                       description: string, installedAt: string)

  /**
   * One field of the parsed object: absent, a string, or another JSON value,
   * of which only its truthiness and the text a template literal makes of it
   * matter.
   */
  datatype Field = Absent | Str(s: string) | Other(truthy: bool, text: string)

  /** `!field` is false: a non-empty string, or a truthy value of another type. */
  predicate Present(f: Field)
  {
    (f.Str? && f.s != "") || (f.Other? && f.truthy)
  }

  /** What `${field}` writes. */
  function Text(f: Field): string
  {
    match f
    case Absent => "undefined"
    case Str(s) => s
    case Other(_, text) => text
  }

  /** The fields of a `.pakapp` object. */
  datatype Pakapp = Pakapp(appId: Field, title: Field, componentName: Field, description: Field)

  /** The three fields an install needs are all truthy. */
  predicate Complete(pak: Pakapp)
  {
    Present(pak.appId) && Present(pak.title) && Present(pak.componentName)
  }

  /**
   * What `JSON.parse` makes of the file: a syntax error, the value `null` (whose
   * destructuring throws), or any other value, read as an object.
   */
  datatype Parsed = Malformed | NullValue | Value(pak: Pakapp)

  ghost predicate UniqueAppIds(installed: seq<InstalledApp>)
  {
    DistinctBy(installed, (a: InstalledApp) => a.appId)
  }

  predicate IsInstalled(installed: seq<InstalledApp>, appId: string)
  {
    exists i :: 0 <= i < |installed| && installed[i].appId == appId
  }

  /** The predefined entry a record was copied from. */
  function Source(record: InstalledApp): AppInfo
  {
    AppInfo(record.appId, record.title, record.componentName, record.description)
  }

  /** Every record describes a predefined app, copied field by field. */
  predicate AllPredefined(installed: seq<InstalledApp>)
  {
    forall i :: 0 <= i < |installed| ==> Source(installed[i]) in Predefined
  }

  /** The record an install appends for a predefined app. */
  function Record(app: AppInfo, now: string): (r: InstalledApp)
    ensures Source(r) == app && r.installedAt == now
  {
    InstalledApp(app.appId, app.title, app.componentName, app.description, now)
  }

  /** The predefined app matching both the id and the component name. */
  function FindPredefined(appId: string, componentName: string): (r: Option<AppInfo>)
    ensures r.Some? <==>
      (exists j :: 0 <= j < |Predefined| && Predefined[j].appId == appId && Predefined[j].componentName == componentName)
    ensures r.Some? ==> r.value in Predefined && r.value.appId == appId && r.value.componentName == componentName
  {
    match FirstIndex(Predefined, (a: AppInfo) => a.appId == appId && a.componentName == componentName)
    case None => None
    case Some(j) => Some(Predefined[j])
  }

  /**
   * `PREDEFINED_APPS.find` with `===` on both fields: a value that is not a
   * string equals no predefined id or component name.
   */
  function Match(pak: Pakapp): (r: Option<AppInfo>)
    ensures r.Some? ==> pak.appId.Str? && pak.componentName.Str?
    ensures r.Some? ==> r.value in Predefined && r.value.appId == pak.appId.s && r.value.componentName == pak.componentName.s
    ensures pak.appId.Str? && pak.componentName.Str? ==> r == FindPredefined(pak.appId.s, pak.componentName.s)
  {
    if pak.appId.Str? && pak.componentName.Str? then FindPredefined(pak.appId.s, pak.componentName.s) else None
  }

  /** Every predefined app has a non-empty id and component name. */
  lemma PredefinedNamed(app: AppInfo)
    requires app in Predefined
    ensures app.appId != "" && app.componentName != ""
  {
  }

  datatype InstallReply = InstallReply(reply: Reply, app: Option<InstalledApp>, installed: seq<InstalledApp>)

  /** The `.pakapp` file an install request reads, or the status of the failure. */
  datatype Fetched = Fetched(content: string) | FetchFailed(status: int)

  function FetchPackage(root: string, t: Tree, packagePath: string): (r: Fetched)
    ensures r.Fetched? <==>
      Locate(root, packagePath).Some?
      && var target := Locate(root, packagePath).value;
         Lookup(t, target.key, target.trailing).Found? && t[target.key].File?
    ensures r.Fetched? ==> t[Locate(root, packagePath).value.key] == File(r.content)
    ensures r.FetchFailed? ==> r.status in {404, 500}
  {
    match Locate(root, packagePath)
    case None => FetchFailed(500)
    case Some(target) =>
      match Lookup(t, target.key, target.trailing)
      case NoEnt => FetchFailed(404)
      case NotDir => FetchFailed(500)
      case Found(node) =>
        if node.Folder? then FetchFailed(500) else Fetched(node.content)
  }

  /** The part of an install after the file is read: validation, lookup, duplicate check. */
  function InstallParsed(installed: seq<InstalledApp>, parsed: Parsed, now: string): (r: InstallReply)
    ensures r.reply.status in {200, 400, 409, 500}
    ensures r.reply.status != 200 ==> r.installed == installed && r.app.None?
    ensures r.reply.status == 200 ==>
      && r.app.Some? && r.installed == installed + [r.app.value]
      && !IsInstalled(installed, r.app.value.appId)
      && Source(r.app.value) in Predefined && r.app.value.installedAt == now
    ensures parsed.Malformed? ==> r.reply.status == 400
    ensures parsed.NullValue? ==> r.reply.status == 500
    ensures parsed.Value? && !Complete(parsed.pak) ==> r.reply.status == 400
    ensures parsed.Value? && Complete(parsed.pak) && Match(parsed.pak).None? ==> r.reply == Reply(400, NotRecognized)
    ensures (parsed.Value? && Complete(parsed.pak) && Match(parsed.pak).Some? &&
             IsInstalled(installed, Match(parsed.pak).value.appId)) ==>
              r.reply == Reply(409, "App \"" + Text(parsed.pak.appId) + "\" is already installed.")
  {
    match parsed
    case Malformed =>
      InstallReply(Reply(400, "Invalid .pakapp file format. Must be valid JSON."), None, installed)
    case NullValue => InstallReply(Reply(500, "Failed to install app."), None, installed)
    case Value(pak) =>
      if !Complete(pak) then
        InstallReply(Reply(400, "Invalid .pakapp: missing appId, title, or componentName."), None, installed)
      else
        match Match(pak)
        case None =>
          InstallReply(Reply(400, NotRecognized),
                       None, installed)
        case Some(app) =>
          if IsInstalled(installed, app.appId) then
            InstallReply(Reply(409, "App \"" + Text(pak.appId) + "\" is already installed."), None, installed)
          else
            var record := Record(app, now);
            InstallReply(Reply(200, "App \"" + Text(pak.title) + "\" installed successfully!"),
                         Some(record), installed + [record])
  }

  /**
   * `POST /api/apps/install`: `parse` stands for `JSON.parse`, `now` for the
   * ISO time stamp.
   */
  function Install(root: string, t: Tree, installed: seq<InstalledApp>, packagePath: Option<string>,
                   parse: string -> Parsed, now: string): (r: InstallReply)
    ensures r.reply.status in {200, 400, 404, 409, 500}
    ensures r.reply.status != 200 ==> r.installed == installed && r.app.None?
    ensures r.reply.status == 200 ==>
      && Truthy(packagePath) && FetchPackage(root, t, packagePath.value).Fetched?
      && r == InstallParsed(installed, parse(FetchPackage(root, t, packagePath.value).content), now)
    ensures !Truthy(packagePath) ==> r.reply.status == 400
    ensures Truthy(packagePath) && FetchPackage(root, t, packagePath.value) == FetchFailed(404) ==>
      r.reply == Reply(404, "Package file not found at " + packagePath.value + ".")
    ensures Truthy(packagePath) && FetchPackage(root, t, packagePath.value) == FetchFailed(500) ==> r.reply.status == 500
    ensures Truthy(packagePath) && FetchPackage(root, t, packagePath.value).Fetched? ==>
      r == InstallParsed(installed, parse(FetchPackage(root, t, packagePath.value).content), now)
  {
    if !Truthy(packagePath) then
      InstallReply(Reply(400, "Package path is required."), None, installed)
    else
      match FetchPackage(root, t, packagePath.value)
      case FetchFailed(status) =>
        if status == 404 then
          InstallReply(Reply(404, "Package file not found at " + packagePath.value + "."), None, installed)
        else InstallReply(Reply(500, "Failed to install app."), None, installed)
      case Fetched(content) => InstallParsed(installed, parse(content), now)
  }

  /**
   * An install succeeds exactly when the file is there and parses to an object
   * whose id and component name match a predefined app that is not installed yet.
   */
  lemma InstallSucceedsIff(root: string, t: Tree, installed: seq<InstalledApp>, packagePath: string,
                           parse: string -> Parsed, now: string)
    requires packagePath != ""
    ensures var r := Install(root, t, installed, Some(packagePath), parse, now);
      r.reply.status == 200 <==>
        && FetchPackage(root, t, packagePath).Fetched?
        && var p := parse(FetchPackage(root, t, packagePath).content);
           && p.Value? && Present(p.pak.title)
           && p.pak.appId.Str? && p.pak.componentName.Str?
           && FindPredefined(p.pak.appId.s, p.pak.componentName.s).Some?
           && !IsInstalled(installed, p.pak.appId.s)
  {
    var f := FetchPackage(root, t, packagePath);
    if f.Fetched? {
      assert Install(root, t, installed, Some(packagePath), parse, now) == InstallParsed(installed, parse(f.content), now);
      ParsedSucceedsIff(installed, parse(f.content), now);
    }
  }

  /** After the file is read, an install succeeds exactly when the parsed object names a predefined app not yet installed. */
  lemma ParsedSucceedsIff(installed: seq<InstalledApp>, p: Parsed, now: string)
    ensures InstallParsed(installed, p, now).reply.status == 200 <==>
      && p.Value? && Present(p.pak.title)
      && p.pak.appId.Str? && p.pak.componentName.Str?
      && FindPredefined(p.pak.appId.s, p.pak.componentName.s).Some?
      && !IsInstalled(installed, p.pak.appId.s)
  {
    if p.Value? && Match(p.pak).Some? {
      var app := Match(p.pak).value;
      assert app.appId == p.pak.appId.s;
      PredefinedNamed(app);
    }
  }

  /** After the file is read, a successful install records the predefined entry. */
  lemma ParsedCopiesPredefined(installed: seq<InstalledApp>, p: Parsed, now: string)
    ensures InstallParsed(installed, p, now).reply.status == 200 ==>
      InstallParsed(installed, p, now).app == Some(Record(FindPredefined(p.pak.appId.s, p.pak.componentName.s).value, now))
  {
  }

  /** The installed record is the predefined entry, not the file's own title or description. */
  lemma InstallCopiesPredefined(root: string, t: Tree, installed: seq<InstalledApp>, packagePath: string,
                                parse: string -> Parsed, now: string)
    requires packagePath != ""
    ensures var r := Install(root, t, installed, Some(packagePath), parse, now);
      r.reply.status == 200 ==>
        var p := parse(FetchPackage(root, t, packagePath).content).pak;
        r.app == Some(Record(FindPredefined(p.appId.s, p.componentName.s).value, now))
  {
    var f := FetchPackage(root, t, packagePath);
    if f.Fetched? {
      assert Install(root, t, installed, Some(packagePath), parse, now) == InstallParsed(installed, parse(f.content), now);
      ParsedCopiesPredefined(installed, parse(f.content), now);
    }
  }

  /** A truthy title of any type passes the check, and the reply writes its text. */
  lemma AnyTruthyTitleInstalls(installed: seq<InstalledApp>, appId: string, title: Field, componentName: string,
                               description: Field, now: string)
    requires Present(title)
    requires FindPredefined(appId, componentName).Some? && !IsInstalled(installed, appId)
    ensures var r := InstallParsed(installed, Value(Pakapp(Str(appId), title, Str(componentName), description)), now);
      r.reply == Reply(200, "App \"" + Text(title) + "\" installed successfully!")
  {
    var pak := Pakapp(Str(appId), title, Str(componentName), description);
    assert Match(pak) == FindPredefined(appId, componentName);
    assert Present(pak.appId) && Present(pak.componentName);
  }

  /** A truthy id or component name that is not a string never matches a predefined app. */
  lemma NonStringIdRefused(installed: seq<InstalledApp>, pak: Pakapp, now: string)
    requires Present(pak.appId) && Present(pak.title) && Present(pak.componentName)
    requires pak.appId.Other? || pak.componentName.Other?
    ensures InstallParsed(installed, Value(pak), now).reply == Reply(400, NotRecognized)
  {
  }

  lemma InstallParsedKeepsInvariants(installed: seq<InstalledApp>, parsed: Parsed, now: string)
    requires UniqueAppIds(installed) && AllPredefined(installed)
    ensures var r := InstallParsed(installed, parsed, now);
      UniqueAppIds(r.installed) && AllPredefined(r.installed)
  {
    var r := InstallParsed(installed, parsed, now);
    if r.reply.status == 200 {
      assert r.installed[|installed|] == r.app.value;
    }
  }

  /** Installs keep app ids unique and admit only predefined apps. */
  lemma InstallKeepsInvariants(root: string, t: Tree, installed: seq<InstalledApp>, packagePath: Option<string>,
                               parse: string -> Parsed, now: string)
    requires UniqueAppIds(installed) && AllPredefined(installed)
    ensures var r := Install(root, t, installed, packagePath, parse, now);
      UniqueAppIds(r.installed) && AllPredefined(r.installed)
  {
    var r := Install(root, t, installed, packagePath, parse, now);
    if r.reply.status == 200 {
      InstallParsedKeepsInvariants(installed, parse(FetchPackage(root, t, packagePath.value).content), now);
    }
  }

  /** `GET /api/apps/installed`: the manifest as stored. */
  function ListInstalled(installed: seq<InstalledApp>): (r: (Reply, seq<InstalledApp>))
    ensures r.0.status == 200 && r.1 == installed
  {
    (Reply(200, ""), installed)
  }

  /** The filter that keeps every record except those with this id. */
  function OtherApp(appId: string): InstalledApp -> bool
  {
    (a: InstalledApp) => a.appId != appId
  }

  /** `DELETE /api/apps/uninstall`: drops every record with the id. */
  function Uninstall(installed: seq<InstalledApp>, appId: Option<string>): (r: (Reply, seq<InstalledApp>))
    ensures r.0.status in {200, 400, 404}
    ensures r.0.status == 200 <==> Truthy(appId) && IsInstalled(installed, appId.value)
    ensures r.0.status != 200 ==> r.1 == installed
    ensures r.0.status == 200 ==> !IsInstalled(r.1, appId.value)
    ensures Truthy(appId) ==> forall i :: 0 <= i < |installed| && installed[i].appId != appId.value ==> installed[i] in r.1
    ensures forall i :: 0 <= i < |r.1| ==> r.1[i] in installed
    ensures r.0.status == 200 ==> r.1 == Filter(installed, OtherApp(appId.value)) && Subsequence(r.1, installed)
    ensures !Truthy(appId) ==> r.0.status == 400
    ensures Truthy(appId) && !IsInstalled(installed, appId.value) ==> r.0.status == 404
  {
    if !Truthy(appId) then (Reply(400, "App ID is required for uninstallation."), installed)
    else
      var kept := Filter(installed, OtherApp(appId.value));
      FilterSubsequence(installed, OtherApp(appId.value));
      if |kept| == |installed| then
        (Reply(404, "App \"" + appId.value + "\" not found in installed apps."), installed)
      else (Reply(200, "App \"" + appId.value + "\" uninstalled successfully."), kept)
  }

  lemma UninstallKeepsInvariants(installed: seq<InstalledApp>, appId: Option<string>)
    requires UniqueAppIds(installed) && AllPredefined(installed)
    ensures UniqueAppIds(Uninstall(installed, appId).1) && AllPredefined(Uninstall(installed, appId).1)
  {
    var kept := Uninstall(installed, appId).1;
    if Truthy(appId) {
      var keep := OtherApp(appId.value);
      FilterKeepsDistinct(installed, keep, (a: InstalledApp) => a.appId);
      assert kept == installed || kept == Filter(installed, keep);
    }
    forall i | 0 <= i < |kept|
      ensures Source(kept[i]) in Predefined
    {
      var k :| 0 <= k < |installed| && installed[k] == kept[i];
    }
  }

  /** Uninstalling an app that was appended to a manifest without it restores the manifest. */
  lemma UninstallLast(installed: seq<InstalledApp>, record: InstalledApp)
    requires record.appId != "" && !IsInstalled(installed, record.appId)
    ensures Uninstall(installed + [record], Some(record.appId))
         == (Reply(200, "App \"" + record.appId + "\" uninstalled successfully."), installed)
  {
    var keep := OtherApp(record.appId);
    FilterAppend(installed, [record], keep);
    assert [record][1..] == [];
    assert Filter([record], keep) == [];
    assert forall i :: 0 <= i < |installed| ==> keep(installed[i]);
    assert Filter(installed, keep) == installed;
    var all := installed + [record];
    assert Filter(all, keep) == installed;
    assert |installed| != |all|;
  }

  /** Installing an app and uninstalling it again restores the manifest. */
  lemma InstallThenUninstall(root: string, t: Tree, installed: seq<InstalledApp>, packagePath: Option<string>,
                             parse: string -> Parsed, now: string)
    ensures var r := Install(root, t, installed, packagePath, parse, now);
      r.reply.status == 200 ==>
        Uninstall(r.installed, Some(r.app.value.appId)).1 == installed
  {
    var r := Install(root, t, installed, packagePath, parse, now);
    if r.reply.status == 200 {
      assert r.app.value.appId != "";
      UninstallLast(installed, r.app.value);
    }
  }
}

=== FILE: path_utils.dfy ===
/**
 * The browser's small replacement for Node's `path` module: `basename`,
 * `join`, `dirname` and `normalize`, which accept both slash and backslash
 * as separators.
 */
module PathUtils {
  import opened Common
  import opened Strings

  /** `[\\/]`: both separators `basename` and `dirname` split on. */
  const Separators: set<char> := {'/', '\\'}

  /** Splitting depends only on which characters of the input are separators. */
  lemma {:induction false} SplitSameSeparators(s: string, a: set<char>, b: set<char>)
    requires forall k :: 0 <= k < |s| ==> (s[k] in a <==> s[k] in b)
    ensures Split(s, a) == Split(s, b)
    decreases |s|
  {
    if s != [] {
      SplitSameSeparators(s[1..], a, b);
    }
  }

  /** `tail` is a suffix of `s` preceded, if anything precedes it, by a separator. */
  predicate SuffixAfterSeparator(s: string, tail: string, seps: set<char>)
  {
    && |tail| <= |s| && tail == s[|s| - |tail|..]
    && (|tail| < |s| ==> s[|s| - |tail| - 1] in seps)
  }

  /** A split yields one piece exactly when there is no separator, and that piece is the input. */
  lemma {:induction false} SplitSingle(s: string, seps: set<char>)
    ensures |Split(s, seps)| == 1 <==> NoneIn(s, seps)
    ensures |Split(s, seps)| == 1 ==> Split(s, seps)[0] == s
    decreases |s|
  {
    if s != [] {
      SplitSingle(s[1..], seps);
      assert [s[0]] + s[1..] == s;
    }
  }

  /** The last piece of a split is the longest separator-free suffix of the input. */
  lemma {:induction false} SplitLast(s: string, seps: set<char>)
    ensures SuffixAfterSeparator(s, Last(Split(s, seps)), seps)
    decreases |s|
  {
    if s != [] {
      SplitLast(s[1..], seps);
      SplitSingle(s[1..], seps);
      var rest := Split(s[1..], seps);
      if s[0] in seps || |rest| > 1 {
        SplitLastKept(s, seps);
      } else {
        SplitLastWhole(s, seps);
      }
    }
  }

  /** When the first character is a separator or the rest splits, the last piece is the rest's last piece. */
  lemma SplitLastKept(s: string, seps: set<char>)
    requires s != [] && (s[0] in seps || |Split(s[1..], seps)| > 1)
    requires SuffixAfterSeparator(s[1..], Last(Split(s[1..], seps)), seps)
    ensures SuffixAfterSeparator(s, Last(Split(s, seps)), seps)
  {
    var last := Last(Split(s[1..], seps));
    assert Last(Split(s, seps)) == last;
    if s[0] !in seps {
      assert |last| < |s| - 1 by {
        SplitSingle(s[1..], seps);
      }
    }
    SuffixShift(s, last, seps);
  }

  /** A suffix after a separator in the tail is one in the whole, given a separator before it. */
  lemma SuffixShift(s: string, last: string, seps: set<char>)
    requires s != [] && SuffixAfterSeparator(s[1..], last, seps)
    requires |last| < |s| - 1 || s[0] in seps
    ensures SuffixAfterSeparator(s, last, seps)
  {
    var t := s[1..];
    assert t[|t| - |last|..] == s[|s| - |last|..];
    if |last| < |t| {
      assert t[|t| - |last| - 1] == s[|s| - |last| - 1];
    }
  }

  /** Without any separator after the first character, a split is the whole input. */
  lemma SplitLastWhole(s: string, seps: set<char>)
    requires s != [] && s[0] !in seps && |Split(s[1..], seps)| == 1
    requires Split(s[1..], seps)[0] == s[1..]
    ensures SuffixAfterSeparator(s, Last(Split(s, seps)), seps)
  {
    assert Split(s[1..], seps) == [s[1..]];
    assert [s[0]] + s[1..] == s;
    assert Split(s, seps) == [s];
    assert s[|s| - |s|..] == s;
  }

  /** `basename`: the piece after the last separator. */
  function Basename(p: string): (r: string)
    ensures NoneIn(r, Separators)
    ensures |r| <= |p| && r == p[|p| - |r|..]
    ensures |r| < |p| ==> p[|p| - |r| - 1] in Separators
    ensures p != [] && p[|p| - 1] in Separators ==> r == ""
  {
    SplitLast(p, Separators);
    Last(Split(p, Separators))
  }

  /** The names of every part, one part after the other. */
  function AllNames(parts: seq<string>): seq<string>
  {
    if parts == [] then [] else Names(parts[0]) + AllNames(parts[1..])
  }

  /** `join(...parts)`: empty parts dropped, the rest joined with `/`, slash runs collapsed. */
  function JoinParts(parts: seq<string>): (r: string)
    ensures NoDoubleSlash(r)
    ensures forall c :: c != '/' ==> (c in r <==> c in Join(Filter(parts, NonEmpty), '/'))
    ensures Names(r) == AllNames(parts)
    ensures r == "" <==> forall i :: 0 <= i < |parts| ==> parts[i] == ""
    ensures r != "" ==> var kept := Filter(parts, NonEmpty);
      |kept| > 0 && (r[0] == '/' <==> kept[0][0] == '/') && (r[|r| - 1] == '/' <==> Last(kept)[|Last(kept)| - 1] == '/')
  {
    JoinedNames(parts);
    JoinedEnds(parts);
    CollapseSlashes(Join(Filter(parts, NonEmpty), '/'))
  }

  /** The collapsed join has the names of all the parts. */
  lemma JoinedNames(parts: seq<string>)
    ensures Names(CollapseSlashes(Join(Filter(parts, NonEmpty), '/'))) == AllNames(parts)
  {
    var kept := Filter(parts, NonEmpty);
    NamesOfJoin(kept);
    AllNamesDropsEmpty(parts);
    CollapseKeepsSegments(Join(kept, '/'));
  }

  /** The collapsed join is empty only without non-empty parts, and otherwise begins and ends as they do. */
  lemma JoinedEnds(parts: seq<string>)
    ensures var kept := Filter(parts, NonEmpty); var r := CollapseSlashes(Join(kept, '/'));
      && (r == "" <==> forall i :: 0 <= i < |parts| ==> parts[i] == "")
      && (r != "" ==> |kept| > 0 && (r[0] == '/' <==> kept[0][0] == '/')
                      && (r[|r| - 1] == '/' <==> Last(kept)[|Last(kept)| - 1] == '/'))
  {
    var kept := Filter(parts, NonEmpty);
    if kept != [] {
      assert forall i :: 0 <= i < |kept| ==> kept[i] != "" by {
        forall i | 0 <= i < |kept|
          ensures kept[i] != ""
        {
          assert NonEmpty(kept[i]);
        }
      }
      JoinStartsWithFirst(kept, '/');
    } else {
      forall i | 0 <= i < |parts|
        ensures parts[i] == ""
      {
        if parts[i] != "" {
          assert NonEmpty(parts[i]);
        }
      }
    }
  }

  /** The names of a join with `/` are the names of its parts. */
  lemma {:induction false} NamesOfJoin(parts: seq<string>)
    ensures Names(Join(parts, '/')) == AllNames(parts)
    decreases |parts|
  {
    if parts == [] {
      RootHasNoNames();
    } else if |parts| == 1 {
      assert parts[1..] == [];
    } else {
      NamesOfJoin(parts[1..]);
      var rest := Join(parts[1..], '/');
      SplitAppend(parts[0], rest, '/');
      FilterAppend(Split(parts[0], {'/'}), Split(rest, {'/'}), NonEmpty);
    }
  }

  /** Empty parts have no names. */
  lemma {:induction false} AllNamesDropsEmpty(parts: seq<string>)
    ensures AllNames(Filter(parts, NonEmpty)) == AllNames(parts)
    decreases |parts|
  {
    if parts != [] {
      AllNamesDropsEmpty(parts[1..]);
      if parts[0] == "" {
        RootHasNoNames();
      } else {
        var kept := Filter(parts, NonEmpty);
        assert kept == [parts[0]] + Filter(parts[1..], NonEmpty);
        assert kept[1..] == Filter(parts[1..], NonEmpty);
      }
    }
  }

  /** Empty parts make no difference to a join. */
  lemma JoinDropsEmpty(parts: seq<string>)
    ensures JoinParts(parts) == JoinParts(Filter(parts, NonEmpty))
  {
    var kept := Filter(parts, NonEmpty);
    assert Filter(kept, NonEmpty) == kept;
  }

  /** A join of nothing but empty parts is the empty string. */
  lemma JoinOfEmpties(parts: seq<string>)
    requires forall i :: 0 <= i < |parts| ==> parts[i] == ""
    ensures JoinParts(parts) == ""
  {
    assert forall x :: x in parts ==> !NonEmpty(x);
  }

  /** Two clean parts are joined with exactly one slash. */
  lemma JoinTwo(a: string, b: string)
    requires a != "" && b != ""
    requires NoDoubleSlash(a + "/" + b)
    ensures JoinParts([a, b]) == a + "/" + b
  {
    assert Filter([a, b], NonEmpty) == [a, b];
    assert Join([a, b], '/') == a + "/" + b by {
      assert [a, b][1..] == [b];
    }
    CollapseKeepsSingleSlashes(a + "/" + b);
  }

  /** The pieces before the last separator carry no backslash, and there are none without a separator. */
  lemma DirnameParts(p: string)
    ensures var parts := Split(p, Separators); NoneIn(Join(parts[..|parts| - 1], '/'), {'\\'})
    ensures NoneIn(p, Separators) ==> |Split(p, Separators)| == 1
  {
    var parts := Split(p, Separators);
    var init := parts[..|parts| - 1];
    assert forall i :: 0 <= i < |init| ==> NoneIn(init[i], {'\\'}) by {
      forall i | 0 <= i < |init|
        ensures NoneIn(init[i], {'\\'})
      {
        assert init[i] == parts[i];
      }
    }
    JoinAvoids(init, '/', {'\\'});
    SplitSingle(p, Separators);
  }

  /** `dirname`: everything before the last separator, joined with `/`, or `/` when that is empty. */
  function Dirname(p: string): (r: string)
    ensures r != ""
    ensures NoneIn(r, {'\\'})
    ensures NoneIn(p, Separators) ==> r == "/"
  {
    DirnameParts(p);
    var parts := Split(p, Separators);
    var joined := Join(parts[..|parts| - 1], '/');
    if joined == "" then "/" else joined
  }

  /** Splitting on both separators is splitting on `/` once backslashes became slashes. */
  lemma {:induction false} SplitReplaced(p: string)
    ensures Split(p, Separators) == Split(ReplaceChar(p, '\\', '/'), {'/'})
    decreases |p|
  {
    if p != [] {
      SplitReplaced(p[1..]);
      assert ReplaceChar(p, '\\', '/')[1..] == ReplaceChar(p[1..], '\\', '/');
    }
  }

  /** With a separator at `k` and none after it, the directory is the text before `k` with slashes for backslashes. */
  lemma DirnameBeforeLastSeparator(p: string, k: nat)
    requires k < |p| && p[k] in Separators && NoneIn(p[k + 1..], Separators)
    ensures Dirname(p) == if k == 0 then "/" else ReplaceChar(p[..k], '\\', '/')
  {
    var f := ReplaceChar(p, '\\', '/');
    var head := f[..k];
    var tail := f[k + 1..];
    assert f == head + ['/'] + tail;
    assert NoneIn(tail, {'/'}) by {
      forall j | 0 <= j < |tail|
        ensures tail[j] != '/'
      {
        assert tail[j] == f[k + 1 + j] && p[k + 1 + j] == p[k + 1..][j];
      }
    }
    SplitReplaced(p);
    SplitAppend(head, tail, '/');
    SplitWithoutSeparator(tail, {'/'});
    var parts := Split(p, Separators);
    assert parts == Split(head, {'/'}) + [tail];
    assert parts[..|parts| - 1] == Split(head, {'/'});
    JoinSplit(head, '/');
    assert head == ReplaceChar(p[..k], '\\', '/');
  }

  /** `normalize`: backslashes become slashes and slash runs collapse. */
  function Normalize(p: string): (r: string)
    ensures '\\' !in r
    ensures NoDoubleSlash(r)
    ensures RemoveChars(r, {'/'}) == RemoveChars(ReplaceChar(p, '\\', '/'), {'/'})
    ensures Names(r) == Filter(Split(p, Separators), NonEmpty)
    ensures r == "" <==> p == ""
    ensures p != "" ==> (r[0] == '/' <==> p[0] in Separators) && (r[|r| - 1] == '/' <==> p[|p| - 1] in Separators)
  {
    CollapseKeepsNames(ReplaceChar(p, '\\', '/'));
    NormalizedNames(p);
    NormalizedEnds(p);
    CollapseSlashes(ReplaceChar(p, '\\', '/'))
  }

  /** Collapsing the slashes of the slashed input keeps the names between both separators. */
  lemma NormalizedNames(p: string)
    ensures Names(CollapseSlashes(ReplaceChar(p, '\\', '/'))) == Filter(Split(p, Separators), NonEmpty)
  {
    CollapseKeepsSegments(ReplaceChar(p, '\\', '/'));
    SplitReplaced(p);
  }

  /** The normal form is empty only for the empty input, and begins and ends with a slash where the input has a separator. */
  lemma NormalizedEnds(p: string)
    ensures var r := CollapseSlashes(ReplaceChar(p, '\\', '/'));
      && (r == "" <==> p == "")
      && (p != "" ==> (r[0] == '/' <==> p[0] in Separators) && (r[|r| - 1] == '/' <==> p[|p| - 1] in Separators))
  {
  }

  /** A normalised path is its own normal form. */
  lemma NormalizeIdempotent(p: string)
    ensures Normalize(Normalize(p)) == Normalize(p)
  {
    var n := Normalize(p);
    assert ReplaceChar(n, '\\', '/') == n;
    CollapseKeepsSingleSlashes(n);
  }

  /** An absolute, single-slashed path without a trailing slash is rebuilt from its directory and base name. */
  lemma DirnameBasenameJoin(p: string)
    requires |p| > 1 && p[0] == '/' && p[|p| - 1] != '/'
    requires '\\' !in p && NoDoubleSlash(p)
    ensures JoinParts([Dirname(p), Basename(p)]) == p
  {
    var parts := Split(p, Separators);
    var base := Basename(p);
    DirAndBase(p);
    var d := Join(parts[..|parts| - 1], '/');
    if d == "" {
      assert Dirname(p) == "/";
      JoinUnderSlash(p, base);
    } else {
      assert Dirname(p) == d;
      JoinTwo(d, base);
    }
  }

  /** Such a path is the joined pieces before its last separator, a slash, and its base name. */
  lemma DirAndBase(p: string)
    requires |p| > 1 && p[0] == '/' && p[|p| - 1] != '/'
    requires '\\' !in p
    ensures var parts := Split(p, Separators);
      p == Join(parts[..|parts| - 1], '/') + "/" + Basename(p) && Basename(p) != ""
  {
    var parts := Split(p, Separators);
    SplitSameSeparators(p, Separators, {'/'});
    JoinSplit(p, '/');
    assert Join(parts, '/') == p;
    var base := Basename(p);
    var init := parts[..|parts| - 1];
    assert parts == init + [base];
    assert |parts| > 1 by {
      SplitSingle(p, Separators);
      assert p[0] in Separators;
    }
    JoinAppend(init, [base], '/');
  }

  /** Joining `/` and the base name of `/base` gives `/base` back. */
  lemma JoinUnderSlash(p: string, base: string)
    requires p == "" + "/" + base && base != "" && NoDoubleSlash(p)
    ensures JoinParts(["/", base]) == p
  {
    var parts := ["/", base];
    assert parts[1..] == [base];
    assert Join(parts, '/') == "/" + ['/'] + base == "/" + p;
    assert Filter(parts, NonEmpty) == parts;
    CollapseKeepsSingleSlashes(p);
    assert ("/" + p)[1..] == p;
  }
}

=== FILE: posix_path.dfy ===
/**
 * The POSIX semantics of Node's `path.normalize` and `path.join`, which the
 * server relies on, stated over path segments. The walk that resolves `.` and
 * `..` segments is also the one the terminal's own normaliser performs.
 */
module PosixPath {
  import opened Strings

  /** A segment a resolved path keeps as a name: not empty, not `.` or `..`, slash-free. */
  predicate Plain(seg: string)
  {
    seg != "" && seg != "." && seg != ".." && NoneIn(seg, {'/'})
  }

  predicate AllPlain(segs: seq<string>)
  {
    forall i :: 0 <= i < |segs| ==> Plain(segs[i])
  }

  lemma AllPlainConcat(a: seq<string>, b: seq<string>)
    requires AllPlain(a) && AllPlain(b)
    ensures AllPlain(a + b)
  {
    forall i | 0 <= i < |a + b|
      ensures Plain((a + b)[i])
    {
      if i >= |a| { assert (a + b)[i] == b[i - |a|]; }
    }
  }

  /** A relative path may also keep leading `..` segments. */
  predicate AllKept(segs: seq<string>)
  {
    forall i :: 0 <= i < |segs| ==> Plain(segs[i]) || segs[i] == ".."
  }

  predicate SlashFree(parts: seq<string>)
  {
    forall i :: 0 <= i < |parts| ==> NoneIn(parts[i], {'/'})
  }

  /**
   * One segment of the resolution: empty and `.` segments vanish, `..` drops the
   * previous name, or is kept when the path is relative and nothing is left to drop.
   */
  function Step(stack: seq<string>, part: string, aboveRoot: bool): seq<string>
  {
    if part == "" || part == "." then stack
    else if part == ".." then
      if |stack| > 0 && Last(stack) != ".." then stack[..|stack| - 1]
      else if aboveRoot then stack + [".."]
      else stack
    else stack + [part]
  }

  /** Resolves `parts` from left to right on top of `stack`. */
  function Walk(stack: seq<string>, parts: seq<string>, aboveRoot: bool): (r: seq<string>)
    ensures AllKept(stack) && SlashFree(parts) ==> AllKept(r)
    ensures !aboveRoot && AllPlain(stack) && SlashFree(parts) ==> AllPlain(r)
    decreases |parts|
  {
    if parts == [] then stack
    else Walk(Step(stack, parts[0], aboveRoot), parts[1..], aboveRoot)
  }

  lemma {:induction false} WalkAppend(stack: seq<string>, a: seq<string>, b: seq<string>, aboveRoot: bool)
    ensures Walk(stack, a + b, aboveRoot) == Walk(Walk(stack, a, aboveRoot), b, aboveRoot)
    decreases |a|
  {
    if a == [] {
      assert a + b == b;
    } else {
      assert (a + b)[1..] == a[1..] + b;
      WalkAppend(Step(stack, a[0], aboveRoot), a[1..], b, aboveRoot);
    }
  }

  /** Plain segments are simply appended. */
  lemma {:induction false} WalkPlain(stack: seq<string>, parts: seq<string>, aboveRoot: bool)
    requires AllPlain(parts)
    ensures Walk(stack, parts, aboveRoot) == stack + parts
    decreases |parts|
  {
    if parts != [] {
      WalkPlain(stack + [parts[0]], parts[1..], aboveRoot);
      assert stack + [parts[0]] + parts[1..] == stack + parts;
    }
  }

  /** `"/" + segs.join("/")`: the absolute path naming `segs`. */
  function Absolute(segs: seq<string>): string
  {
    "/" + Join(segs, '/')
  }

  /**
   * How `path.normalize` writes resolved segments: `/` or `.` when none are left,
   * otherwise the segments joined by `/`, rooted when the input was, with the
   * input's trailing slash kept.
   */
  function Render(segs: seq<string>, absolute: bool, trailing: bool): (r: string)
    requires AllKept(segs)
    ensures r != ""
    ensures r[0] == '/' <==> absolute
  {
    if segs == [] then
      (if absolute then "/" else if trailing then "./" else ".")
    else
      var body := Join(segs, '/') + (if trailing then "/" else "");
      assert body[0] == segs[0][0] by { JoinStartsWithFirst(segs, '/'); }
      if absolute then "/" + body else body
  }

  /** `path.normalize` (POSIX). */
  function Normalize(p: string): (r: string)
    ensures r != ""
    ensures r[0] == '/' <==> p != "" && p[0] == '/'
  {
    if p == "" then "."
    else Render(Walk([], Split(p, {'/'}), p[0] != '/'), p[0] == '/', p[|p| - 1] == '/')
  }

  /** `path.join(a, b)` (POSIX): the non-empty arguments joined by `/`, then normalised. */
  function JoinPaths(a: string, b: string): (r: string)
    ensures r != ""
    ensures a != "" && a[0] == '/' ==> r[0] == '/'
  {
    var joined := if a == "" then b else if b == "" then a else a + "/" + b;
    if joined == "" then "." else Normalize(joined)
  }

  /** The segments an absolute path string names. */
  function PathKey(abs: string): seq<string>
  {
    Walk([], Split(abs, {'/'}), false)
  }

  /** How `Normalize` renders resolved segments of an absolute path. */
  function Shown(segs: seq<string>, trailing: bool): string
  {
    if segs == [] then "/" else Absolute(segs) + (if trailing then "/" else "")
  }

  lemma SplitAbsolute(segs: seq<string>)
    requires |segs| > 0 && SlashFree(segs)
    ensures Split(Absolute(segs), {'/'}) == [""] + segs
  {
    SplitAppend("", Join(segs, '/'), '/');
    assert "" + ['/'] + Join(segs, '/') == Absolute(segs);
    SplitJoin(segs, '/');
  }

  /** The pieces of a rendered absolute path. */
  lemma SplitShown(segs: seq<string>, trailing: bool)
    requires AllPlain(segs)
    ensures Split(Shown(segs, trailing), {'/'}) ==
      if segs == [] then ["", ""] else [""] + segs + (if trailing then [""] else [])
  {
    if segs == [] {
      SplitAppend("", "", '/');
      assert "" + ['/'] + "" == "/";
    } else {
      SplitAbsolute(segs);
      assert Absolute(segs) + "" == Absolute(segs);
      if trailing {
        SplitAppend(Absolute(segs), "", '/');
        assert Absolute(segs) + ['/'] + "" == Absolute(segs) + "/";
      }
    }
  }

  /** A rendered absolute path names exactly the segments it was rendered from. */
  lemma KeyOfShown(segs: seq<string>, trailing: bool)
    requires AllPlain(segs)
    ensures PathKey(Shown(segs, trailing)) == segs
  {
    SplitShown(segs, trailing);
    if segs != [] {
      var tail: seq<string> := if trailing then [""] else [];
      assert [""] + segs + tail == [""] + (segs + tail);
      WalkAppend([], [""], segs + tail, false);
      assert Walk([], [""], false) == [];
      WalkAppend([], segs, tail, false);
      WalkPlain([], segs, false);
      assert Walk(segs, tail, false) == segs;
    } else {
      assert Walk([], ["", ""], false) == Walk([], [""], false) == [];
    }
  }

  /** The normal form of an absolute path: its resolved segments, rendered. */
  lemma NormalizeAbsolute(p: string)
    requires p != "" && p[0] == '/'
    ensures var w := Walk([], Split(p, {'/'}), false);
      AllPlain(w) && Normalize(p) == Shown(w, p[|p| - 1] == '/')
  {
    RenderAbsolute(Walk([], Split(p, {'/'}), false), p[|p| - 1] == '/');
  }

  /** Rooted rendering of plain segments is what `Shown` writes. */
  lemma RenderAbsolute(segs: seq<string>, trailing: bool)
    requires AllPlain(segs)
    ensures Render(segs, true, trailing) == Shown(segs, trailing)
  {
    if segs != [] {
      var tail := if trailing then "/" else "";
      assert "/" + (Join(segs, '/') + tail) == "/" + Join(segs, '/') + tail;
    }
  }

  /** Joining a plain name onto a normal absolute path names the child. */
  lemma JoinShownName(segs: seq<string>, trailing: bool, name: string)
    requires AllPlain(segs) && Plain(name)
    ensures JoinPaths(Shown(segs, trailing), name) == Shown(segs + [name], false)
    ensures PathKey(JoinPaths(Shown(segs, trailing), name)) == segs + [name]
  {
    var p := Shown(segs, trailing);
    var j := p + "/" + name;
    assert JoinPaths(p, name) == Normalize(j);
    assert j[|j| - 1] == name[|name| - 1] && j[0] == '/';
    WalkJoinedName(segs, trailing, name);
    NormalizeAbsolute(j);
    AllPlainConcat(segs, [name]);
    KeyOfShown(segs + [name], false);
  }

  /** A plain name put after a rendered absolute path resolves to one more segment. */
  lemma WalkJoinedName(segs: seq<string>, trailing: bool, name: string)
    requires AllPlain(segs) && Plain(name)
    ensures Walk([], Split(Shown(segs, trailing) + "/" + name, {'/'}), false) == segs + [name]
  {
    var p := Shown(segs, trailing);
    SplitAppend(p, name, '/');
    assert p + ['/'] + name == p + "/" + name;
    SplitWithoutSeparator(name, {'/'});
    SplitShown(segs, trailing);
    if segs == [] {
      assert Split(p + "/" + name, {'/'}) == ["", "", name];
      assert Walk([], ["", "", name], false) == Walk([], [name], false) == [name];
    } else {
      var tail: seq<string> := if trailing then [""] else [];
      assert Split(p + "/" + name, {'/'}) == [""] + segs + tail + [name];
      WalkSegsName(segs, tail, name);
    }
  }

  lemma WalkSegsName(segs: seq<string>, tail: seq<string>, name: string)
    requires AllPlain(segs) && Plain(name) && (tail == [] || tail == [""])
    ensures Walk([], [""] + segs + tail + [name], false) == segs + [name]
  {
    assert [""] + segs + tail + [name] == [""] + (segs + (tail + [name]));
    WalkAppend([], [""], segs + (tail + [name]), false);
    assert Walk([], [""], false) == [];
    WalkAppend([], segs, tail + [name], false);
    WalkPlain([], segs, false);
    assert [] + segs == segs;
    WalkAppend(segs, tail, [name], false);
    assert Walk(segs, tail, false) == segs;
    WalkPlain(segs, [name], false);
  }

  /** A rendered path without a trailing slash ends inside its last segment. */
  lemma ShownEndsPlain(segs: seq<string>)
    requires |segs| > 0 && AllPlain(segs)
    ensures var s := Shown(segs, false); s[|s| - 1] == Last(Last(segs)) && s[|s| - 1] != '/'
  {
    JoinEndsWithLast(segs, '/');
    assert Shown(segs, false) == "/" + Join(segs, '/');
  }
}

=== FILE: sandbox.dfy ===
/**
 * The server's path sandbox, `getAbsolutePath` in server/server.js: the client's
 * path is normalised, joined under the VFS root and accepted when the result
 * starts with the root's characters.
 */
module Sandbox {
  import opened Common
  import opened Strings
  import opened PosixPath

  /**
   * The VFS root directory, `<server dir>/data/vfs_data`: an absolute path of
   * plain segments with no trailing slash. The server directory is not known,
   * so the root is a parameter of the model.
   */
  predicate ValidRoot(root: string)
  {
    |root| > 1 && root[0] == '/' && AllPlain(Split(root[1..], {'/'}))
  }

  function RootKey(root: string): (k: seq<string>)
    requires ValidRoot(root)
    ensures |k| > 0 && AllPlain(k)
  {
    Split(root[1..], {'/'})
  }

  lemma RootIsAbsolute(root: string)
    requires ValidRoot(root)
    ensures root == Absolute(RootKey(root))
  {
    JoinSplit(root[1..], '/');
    assert root == [root[0]] + root[1..];
  }

  /** `getAbsolutePath`: the joined path, or `None` for the "Security Error" it throws. */
  function GetAbsolutePath(root: string, rel: string): (r: Option<string>)
    ensures r.Some? <==> StartsWith(JoinPaths(root, Normalize(rel)), root)
    ensures r.Some? ==> r.value == JoinPaths(root, Normalize(rel)) && StartsWith(r.value, root)
  {
    var absolutePath := JoinPaths(root, Normalize(rel));
    if StartsWith(absolutePath, root) then Some(absolutePath) else None
  }

  /** The path names a node at or below the root, segment by segment. */
  predicate Contained(root: string, key: seq<string>)
    requires ValidRoot(root)
  {
    RootKey(root) <= key
  }

  lemma WalkSkipsEmpty(stack: seq<string>, parts: seq<string>)
    ensures Walk(stack, [""] + parts, false) == Walk(stack, parts, false)
  {
    assert ([""] + parts)[1..] == parts;
  }

  /**
   * The resolved segments of `root + "/" + n` when `n` is the normal form of an
   * absolute path with segments `w`: the root's segments followed by `w`.
   */
  lemma JoinUnderRoot(root: string, w: seq<string>, trailing: bool)
    requires ValidRoot(root) && AllPlain(w)
    ensures var j := root + "/" + Shown(w, trailing);
      j[0] == '/' && Walk([], Split(j, {'/'}), false) == RootKey(root) + w
  {
    var n := Shown(w, trailing);
    WalkUnderRoot(root, n);
    WalkOnShown(RootKey(root), w, trailing);
  }

  /** Below the root, a joined path resolves on top of the root's segments. */
  lemma WalkUnderRoot(root: string, n: string)
    requires ValidRoot(root)
    ensures var j := root + "/" + n;
      j[0] == '/' && Walk([], Split(j, {'/'}), false) == Walk(RootKey(root), Split(n, {'/'}), false)
  {
    var r := RootKey(root);
    var j := root + "/" + n;
    var x := Split(n, {'/'});
    RootIsAbsolute(root);
    SplitAppend(root, n, '/');
    SplitAbsolute(r);
    assert Split(j, {'/'}) == [""] + r + x;
    WalkSkipsEmpty([], r + x);
    assert [""] + r + x == [""] + (r + x);
    WalkAppend([], r, x, false);
    WalkPlain([], r, false);
    assert [] + r == r;
  }

  /** A rendered absolute path resolved on top of plain names appends its segments. */
  lemma WalkOnShown(r: seq<string>, w: seq<string>, trailing: bool)
    requires AllPlain(r) && AllPlain(w)
    ensures Walk(r, Split(Shown(w, trailing), {'/'}), false) == r + w
  {
    SplitShown(w, trailing);
    if w == [] {
      assert Walk(r, ["", ""], false) == Walk(r, [""], false) == r;
      assert r + w == r;
    } else {
      var tail: seq<string> := if trailing then [""] else [];
      assert [""] + w + tail == [""] + (w + tail);
      WalkSkipsEmpty(r, w + tail);
      WalkAppend(r, w, tail, false);
      WalkPlain(r, w, false);
      assert Walk(r + w, tail, false) == r + w;
    }
  }

  /** Rendering is the identity on the root followed by plain segments. */
  lemma ShownUnderRoot(root: string, w: seq<string>, trailing: bool)
    requires ValidRoot(root) && AllPlain(w)
    ensures StartsWith(Shown(RootKey(root) + w, trailing), root)
  {
    var r := RootKey(root);
    RootIsAbsolute(root);
    var abs := Shown(r + w, trailing);
    if w == [] {
      assert r + w == r;
      assert abs[..|root|] == root;
    } else {
      JoinAppend(r, w, '/');
      assert abs == root + "/" + Join(w, '/') + (if trailing then "/" else "");
      assert abs[..|root|] == root;
    }
  }

  /**
   * `path.join(root, n)` for a normal absolute path `n`; the joined path keeps
   * `n`'s trailing slash, and `n == "/"` leaves one behind the root.
   */
  lemma JoinedShown(root: string, w: seq<string>, trailing: bool)
    requires ValidRoot(root) && AllPlain(w)
    ensures JoinPaths(root, Shown(w, trailing)) == Shown(RootKey(root) + w, trailing || w == [])
  {
    var n := Shown(w, trailing);
    var j := root + "/" + n;
    assert JoinPaths(root, n) == Normalize(j);
    JoinUnderRoot(root, w, trailing);
    assert j[|j| - 1] == n[|n| - 1];
    if w != [] {
      JoinEndsWithLast(w, '/');
      assert n[|n| - 1] == '/' <==> trailing;
    }
    NormalizeAbsolute(j);
  }

  /**
   * An absolute request path is accepted, and the joined path is the rendering of
   * the root's segments followed by the request's resolved segments.
   */
  lemma AbsoluteRequestShown(root: string, rel: string)
    requires ValidRoot(root) && rel != "" && rel[0] == '/'
    ensures var w := Walk([], Split(rel, {'/'}), false);
      AllPlain(w) && GetAbsolutePath(root, rel).Some?
      && GetAbsolutePath(root, rel).value == Shown(RootKey(root) + w, rel[|rel| - 1] == '/' || w == [])
  {
    var w := Walk([], Split(rel, {'/'}), false);
    var trailing := rel[|rel| - 1] == '/';
    NormalizeAbsolute(rel);
    JoinedShown(root, w, trailing);
    ShownUnderRoot(root, w, trailing || w == []);
  }

  /**
   * Every absolute request path (the only kind the clients send) is accepted and
   * resolves inside the root: to the root's segments followed by the path's own
   * resolved segments, `..` clamped at the virtual `/`.
   */
  lemma AbsoluteRequestStaysInside(root: string, rel: string)
    requires ValidRoot(root) && rel != "" && rel[0] == '/'
    ensures GetAbsolutePath(root, rel).Some?
    ensures PathKey(GetAbsolutePath(root, rel).value)
         == RootKey(root) + Walk([], Split(rel, {'/'}), false)
    ensures Contained(root, PathKey(GetAbsolutePath(root, rel).value))
  {
    var w := Walk([], Split(rel, {'/'}), false);
    AbsoluteRequestShown(root, rel);
    KeyOfShown(RootKey(root) + w, rel[|rel| - 1] == '/' || w == []);
  }

  lemma StartsWithAfterCommonPrefix(p: string, x: string, s: string)
    ensures StartsWith(p + x, p + s) <==> StartsWith(x, s)
  {
    if StartsWith(x, s) {
      assert (p + x)[..|p + s|] == p + x[..|s|];
    }
    if StartsWith(p + x, p + s) {
      assert x[..|s|] == (p + x)[..|p + s|][|p|..];
    }
  }

  lemma SplitParent(x: string)
    requires Plain(x)
    ensures Split("../" + x, {'/'}) == ["..", x]
  {
    assert "../" + x == ".." + ['/'] + x;
    SplitAppend("..", x, '/');
    SplitWithoutSeparator("..", {'/'});
    SplitWithoutSeparator(x, {'/'});
  }

  /** `../x` is already in normal form. */
  lemma NormalParent(x: string)
    requires Plain(x)
    ensures Normalize("../" + x) == "../" + x
  {
    var rel := "../" + x;
    SplitParent(x);
    assert Walk([], ["..", x], true) == ["..", x] by {
      assert Step([], "..", true) == [".."];
      assert ["..", x][1..] == [x];
      assert Walk([".."], [x], true) == Walk([".."] + [x], [], true);
    }
    assert rel[|rel| - 1] != '/' by {
      assert rel[|rel| - 1] == x[|x| - 1];
    }
    assert Normalize(rel) == Render(["..", x], false, false);
    assert Join(["..", x], '/') == ".." + ['/'] + x;
  }

  /** A name below a stack of names: `..` drops the last one, then `x` is added. */
  lemma WalkParentThen(stack: seq<string>, x: string)
    requires |stack| > 0 && AllPlain(stack) && Plain(x)
    ensures Walk(stack, ["..", x], false) == stack[..|stack| - 1] + [x]
  {
    var k := |stack| - 1;
    assert Step(stack, "..", false) == stack[..k];
    assert ["..", x][1..] == [x];
    assert Walk(stack, ["..", x], false) == Walk(stack[..k], [x], false);
    assert Walk(stack[..k], [x], false) == Walk(stack[..k] + [x], [], false);
  }

  lemma SplitJoinedParent(root: string, x: string)
    requires ValidRoot(root) && Plain(x)
    ensures Split(root + "/" + ("../" + x), {'/'}) == [""] + (RootKey(root) + ["..", x])
  {
    var r := RootKey(root);
    RootIsAbsolute(root);
    SplitAppend(root, "../" + x, '/');
    SplitAbsolute(r);
    SplitParent(x);
  }

  /** `root/../x` resolves to the root's parent followed by `x`. */
  lemma ParentKey(root: string, x: string)
    requires ValidRoot(root) && Plain(x)
    ensures var r := RootKey(root);
      JoinPaths(root, "../" + x) == Absolute(r[..|r| - 1] + [x])
  {
    var r := RootKey(root);
    var k := |r| - 1;
    var rel := "../" + x;
    var j := root + "/" + rel;
    assert JoinPaths(root, rel) == Normalize(j);
    SplitJoinedParent(root, x);
    WalkSkipsEmpty([], r + ["..", x]);
    WalkAppend([], r, ["..", x], false);
    WalkPlain([], r, false);
    assert [] + r == r;
    WalkParentThen(r, x);
    var w := r[..k] + [x];
    assert Walk([], Split(j, {'/'}), false) == w;
    assert j[|j| - 1] == x[|x| - 1];
    NormalizeAbsolute(j);
  }

  /**
   * A request that climbs one level above the root with `../x` is accepted exactly
   * when `x` starts with the characters of the root's last segment, and then
   * names the sibling directory `x` of the root.
   */
  lemma ParentSibling(root: string, x: string)
    requires ValidRoot(root) && Plain(x)
    ensures var res := GetAbsolutePath(root, "../" + x);
      var r := RootKey(root);
      && (res.Some? <==> StartsWith(x, Last(r)))
      && (res.Some? ==> PathKey(res.value) == r[..|r| - 1] + [x])
  {
    var r := RootKey(root);
    var w := r[..|r| - 1] + [x];
    NormalParent(x);
    ParentKey(root, x);
    assert AllPlain(w) by { AllPlainConcat(r[..|r| - 1], [x]); }
    KeyOfShown(w, false);
    assert Shown(w, false) == Absolute(w) + "" == Absolute(w);
    SiblingText(root, x);
  }

  /** The root's sibling `x`, written out, starts with the root exactly when `x` starts with its last segment. */
  lemma SiblingText(root: string, x: string)
    requires ValidRoot(root) && Plain(x)
    ensures var r := RootKey(root);
      StartsWith(Absolute(r[..|r| - 1] + [x]), root) <==> StartsWith(x, Last(r))
  {
    var r := RootKey(root);
    RootIsAbsolute(root);
    assert r == r[..|r| - 1] + [Last(r)];
    if |r| == 1 {
      SiblingTextTop(r, x);
    } else {
      SiblingTextDeep(r, x);
    }
  }

  lemma SiblingTextTop(r: seq<string>, x: string)
    requires |r| == 1 && AllPlain(r) && Plain(x)
    ensures StartsWith(Absolute(r[..0] + [x]), Absolute(r)) <==> StartsWith(x, Last(r))
  {
    assert r[..0] + [x] == [x];
    assert r == [Last(r)];
    assert Absolute([x]) == "/" + x;
    assert Absolute(r) == "/" + Last(r);
    StartsWithAfterCommonPrefix("/", x, Last(r));
  }

  lemma SiblingTextDeep(r: seq<string>, x: string)
    requires |r| > 1 && AllPlain(r) && Plain(x)
    ensures var k := |r| - 1;
      StartsWith(Absolute(r[..k] + [x]), Absolute(r)) <==> StartsWith(x, Last(r))
  {
    var k := |r| - 1;
    var q := r[..k];
    assert r == q + [Last(r)];
    JoinAppend(q, [x], '/');
    JoinAppend(q, [Last(r)], '/');
    assert Join([x], '/') == x;
    assert Join([Last(r)], '/') == Last(r);
    var p := "/" + Join(q, '/') + "/";
    assert Absolute(q + [x]) == "/" + (Join(q, '/') + "/" + x) == p + x;
    assert Absolute(q + [Last(r)]) == "/" + (Join(q, '/') + "/" + Last(r)) == p + Last(r);
    StartsWithAfterCommonPrefix(p, x, Last(r));
  }

  /**
   * The character-prefix test does not confine requests to the root: a sibling
   * whose name extends the root's last segment (`../vfs_data2/...` next to
   * `vfs_data`) is accepted although it lies outside the root.
   */
  lemma SiblingEscapes(root: string, suffix: string)
    requires ValidRoot(root) && suffix != "" && NoneIn(suffix, {'/'})
    ensures var res := GetAbsolutePath(root, "../" + Last(RootKey(root)) + suffix);
      res.Some? && !Contained(root, PathKey(res.value))
  {
    var r := RootKey(root);
    var last := Last(r);
    var x := last + suffix;
    assert |x| > |last| > 0;
    assert |x| == 2 ==> last == [x[0]];
    assert Plain(x);
    assert "../" + last + suffix == "../" + x;
    ParentSibling(root, x);
    assert StartsWith(x, last) by { assert x[..|last|] == last; }
    var key := PathKey(GetAbsolutePath(root, "../" + x).value);
    assert key == r[..|r| - 1] + [x];
    assert |key| == |r| && key[|r| - 1] != r[|r| - 1];
  }

  /** The request path `/` lands on the root itself, rendered with a trailing slash. */
  lemma SlashIsRoot(root: string)
    requires ValidRoot(root)
    ensures GetAbsolutePath(root, "/") == Some(Shown(RootKey(root), true))
  {
    assert "/" == "" + ['/'] + "";
    SplitAppend("", "", '/');
    assert Walk([], ["", ""], false) == Walk([], [""], false) == [];
    AbsoluteRequestShown(root, "/");
    assert RootKey(root) + [] == RootKey(root);
  }

  /**
   * A name of the form `../x` joined onto the root (as `create` does with its
   * unchecked `name`) resolves to the sibling `x` of the root.
   */
  lemma NameClimbsOut(root: string, x: string)
    requires ValidRoot(root) && Plain(x)
    ensures var r := RootKey(root);
      && JoinPaths(Shown(r, true), "../" + x) == Shown(r[..|r| - 1] + [x], false)
      && PathKey(JoinPaths(Shown(r, true), "../" + x)) == r[..|r| - 1] + [x]
  {
    var r := RootKey(root);
    var k := |r| - 1;
    var p := Shown(r, true);
    var j := p + "/" + ("../" + x);
    assert JoinPaths(p, "../" + x) == Normalize(j);
    SplitAppend(p, "../" + x, '/');
    SplitShown(r, true);
    SplitParent(x);
    assert Split(j, {'/'}) == [""] + (r + ([""] + ["..", x]));
    WalkSkipsEmpty([], r + ([""] + ["..", x]));
    WalkAppend([], r, [""] + ["..", x], false);
    WalkPlain([], r, false);
    assert [] + r == r;
    WalkSkipsEmpty(r, ["..", x]);
    WalkParentThen(r, x);
    var w := r[..k] + [x];
    assert Walk([], Split(j, {'/'}), false) == w;
    assert j[|j| - 1] == x[|x| - 1];
    NormalizeAbsolute(j);
    KeyOfShown(w, false);
    assert Shown(w, false) == Absolute(w) + "";
  }
}

=== FILE: sessions.dfy ===
/**
 * Accounts and sessions of the server (server/server.js): sign-up, login,
 * logout and the bearer-token gate in front of every protected endpoint.
 * The users file is held as its parsed contents; bcrypt and uuid are
 * parameters (a hash function, a verifier, fresh identifiers).
 */
module Sessions {
  import opened Common
  import opened Strings

  /** A JSON reply: the HTTP status and its `message`. */
  datatype Reply = Reply(status: int, message: string)

  datatype User = User(id: string, username: string, password: string)

  /** `activeSessions`: token -> user id. */
  type SessionMap = map<string, string>

  predicate UniqueUsernames(users: seq<User>)
  {
    forall i, j :: 0 <= i < j < |users| ==> users[i].username != users[j].username
  }

  /** The second space-separated word of the `Authorization` header, when it is non-empty. */
  function BearerToken(header: Option<string>): (token: Option<string>)
    ensures token.Some? ==> token.value != "" && NoneIn(token.value, {' '})
    ensures token.Some? ==> Truthy(header)
  {
    if !Truthy(header) then None
    else
      var words := Split(header.value, {' '});
      if |words| > 1 && words[1] != "" then Some(words[1]) else None
  }

  lemma BearerRoundTrip(scheme: string, token: string)
    requires token != "" && NoneIn(scheme, {' '}) && NoneIn(token, {' '})
    ensures BearerToken(Some(scheme + " " + token)) == Some(token)
  {
    assert scheme + " " + token == scheme + [' '] + token;
    SplitAppend(scheme, token, ' ');
    SplitWithoutSeparator(scheme, {' '});
    SplitWithoutSeparator(token, {' '});
  }

  datatype Gate = Denied(reply: Reply) | Authorized(userId: string)

  /** `authenticateToken`. */
  function Authenticate(sessions: SessionMap, header: Option<string>): (g: Gate)
    ensures g.Authorized? <==> BearerToken(header).Some? && BearerToken(header).value in sessions
    ensures g.Authorized? ==> g.userId == sessions[BearerToken(header).value]
    ensures g.Denied? ==> g.reply.status == (if BearerToken(header).None? then 401 else 403)
  {
    match BearerToken(header)
    case None => Denied(Reply(401, "Authentication token required."))
    case Some(token) =>
      if token !in sessions then Denied(Reply(403, "Invalid or expired token."))
      else Authorized(sessions[token])
  }

  const FieldsRequired := "Username and password are required."
  const NameTaken := "Username already taken."
  const BadCredentials := "Invalid username or password."

  /** `POST /api/auth/signup`; `hash` stands for bcrypt, `freshId` for uuid. */
  function Signup(users: seq<User>, username: Option<string>, password: Option<string>,
                  hash: string -> string, freshId: string): (r: (Reply, seq<User>))
    ensures r.0.status == 201 <==> Truthy(username) && Truthy(password)
                                   && forall i :: 0 <= i < |users| ==> users[i].username != username.value
    ensures r.0.status == 201 ==> r.1 == users + [User(freshId, username.value, hash(password.value))]
    ensures r.0.status != 201 ==> r.1 == users && r.0.status in {400, 409}
    ensures !Truthy(username) || !Truthy(password) ==> r.0 == Reply(400, FieldsRequired)
    ensures (Truthy(username) && Truthy(password) && exists i :: 0 <= i < |users| && users[i].username == username.value) ==>
              r.0 == Reply(409, NameTaken)
  {
    if !Truthy(username) || !Truthy(password) then
      (Reply(400, FieldsRequired), users)
    else if exists i :: 0 <= i < |users| && users[i].username == username.value then
      (Reply(409, NameTaken), users)
    else
      (Reply(201, "User registered successfully."),
       users + [User(freshId, username.value, hash(password.value))])
  }

  /** Sign-up never creates a second account with the same name. */
  lemma SignupKeepsUsernamesUnique(users: seq<User>, username: Option<string>, password: Option<string>,
                                   hash: string -> string, freshId: string)
    requires UniqueUsernames(users)
    ensures UniqueUsernames(Signup(users, username, password, hash, freshId).1)
  {
  }

  datatype LoginReply = LoginReply(reply: Reply, token: Option<string>, userId: Option<string>)

  function FindUser(users: seq<User>, username: string): (r: Option<User>)
    ensures r.Some? <==> exists i :: 0 <= i < |users| && users[i].username == username
    ensures r.Some? ==> r.value.username == username && r.value in users
    ensures r.Some? ==> exists i :: 0 <= i < |users| && users[i] == r.value &&
                          forall k :: 0 <= k < i ==> users[k].username != username
  {
    match FirstIndex(users, (u: User) => u.username == username)
    case None => None
    case Some(i) => Some(users[i])
  }

  /**
   * `POST /api/auth/login`; `verify(password, hash)` stands for bcrypt.compare,
   * `freshToken` for the uuid session id.
   */
  function Login(users: seq<User>, sessions: SessionMap, username: Option<string>, password: Option<string>,
                 verify: (string, string) -> bool, freshToken: string): (r: (LoginReply, SessionMap))
    ensures r.0.reply.status == 200 <==>
      Truthy(username) && Truthy(password) && FindUser(users, username.value).Some?
      && verify(password.value, FindUser(users, username.value).value.password)
    ensures r.0.reply.status == 200 ==>
      var user := FindUser(users, username.value).value;
      r.0.token == Some(freshToken) && r.0.userId == Some(user.id)
      && r.1 == sessions[freshToken := user.id]
    ensures r.0.reply.status != 200 ==> r.1 == sessions && r.0.token.None? && r.0.reply.status in {400, 401}
    ensures !Truthy(username) || !Truthy(password) ==> r.0.reply == Reply(400, FieldsRequired)
    ensures Truthy(username) && Truthy(password) && r.0.reply.status != 200 ==> r.0.reply == Reply(401, BadCredentials)
  {
    if !Truthy(username) || !Truthy(password) then
      (LoginReply(Reply(400, FieldsRequired), None, None), sessions)
    else
      match FindUser(users, username.value)
      case None =>
        (LoginReply(Reply(401, BadCredentials), None, None), sessions)
      case Some(user) =>
        if !verify(password.value, user.password) then
          (LoginReply(Reply(401, BadCredentials), None, None), sessions)
        else
          (LoginReply(Reply(200, "Login successful!"), Some(freshToken), Some(user.id)),
           sessions[freshToken := user.id])
  }

  /**
   * An unknown user and a wrong password get the same reply, so a failed login
   * does not reveal which accounts exist.
   */
  lemma LoginFailuresIndistinguishable(users: seq<User>, sessions: SessionMap, name1: string, name2: string,
                                       password: string, verify: (string, string) -> bool, t1: string, t2: string)
    requires name1 != "" && name2 != "" && password != ""
    requires FindUser(users, name1).None?
    requires FindUser(users, name2).Some? && !verify(password, FindUser(users, name2).value.password)
    ensures Login(users, sessions, Some(name1), Some(password), verify, t1)
         == Login(users, sessions, Some(name2), Some(password), verify, t2)
  {
  }

  /** The token a login hands out authenticates its user on the next request. */
  lemma LoginThenAuthenticate(users: seq<User>, sessions: SessionMap, username: Option<string>,
                              password: Option<string>, verify: (string, string) -> bool, freshToken: string)
    requires freshToken != "" && NoneIn(freshToken, {' '})
    ensures var (reply, after) := Login(users, sessions, username, password, verify, freshToken);
      reply.reply.status == 200 ==>
        Authenticate(after, Some("Bearer " + freshToken)) == Authorized(reply.userId.value)
  {
    assert NoneIn("Bearer", {' '});
    BearerRoundTrip("Bearer", freshToken);
    assert "Bearer" + " " + freshToken == "Bearer " + freshToken;
  }

  /** A login with an unused token leaves every other session as it was. */
  lemma LoginKeepsOtherSessions(users: seq<User>, sessions: SessionMap, username: Option<string>,
                                password: Option<string>, verify: (string, string) -> bool, freshToken: string)
    requires freshToken !in sessions
    ensures var after := Login(users, sessions, username, password, verify, freshToken).1;
      forall t :: t in sessions ==> t in after && after[t] == sessions[t]
  {
  }

  /** `POST /api/auth/logout`. */
  function Logout(sessions: SessionMap, header: Option<string>): (r: (Reply, SessionMap))
    ensures r.0.status == 200 <==> BearerToken(header).Some? && BearerToken(header).value in sessions
    ensures r.0.status == 200 ==> r.1 == sessions - {BearerToken(header).value}
    ensures r.0.status != 200 ==> r.0.status == 400 && r.1 == sessions
  {
    match BearerToken(header)
    case Some(token) =>
      if token in sessions then (Reply(200, "Logged out successfully."), sessions - {token})
      else (Reply(400, "No active session found."), sessions)
    case None => (Reply(400, "No active session found."), sessions)
  }

  /** After a successful logout the same header is refused with 403; a second logout fails. */
  lemma LogoutThenRefused(sessions: SessionMap, header: Option<string>)
    requires Authenticate(sessions, header).Authorized?
    ensures var after := Logout(sessions, header).1;
      Authenticate(after, header).Denied? && Authenticate(after, header).reply.status == 403
      && Logout(after, header).0.status == 400
  {
  }
}

=== FILE: strings.dfy ===
/**
 * String operations of the JavaScript standard library that the models use:
 * `split` on a character class, `join`, the `/\/+/g` slash collapse, `trim`
 * and `split(/\s+/)`. Strings are sequences of characters.
 */
module Strings {
  import opened Common

  /** No character of `s` is in `cs`. */
  predicate NoneIn(s: string, cs: set<char>)
  {
    forall k :: 0 <= k < |s| ==> s[k] !in cs
  }

  predicate StartsWith(s: string, prefix: string)
  {
    |prefix| <= |s| && s[..|prefix|] == prefix
  }

  /** `s.split(/[seps]/)`: the pieces between separator characters, empty pieces included. */
  function Split(s: string, seps: set<char>): (r: seq<string>)
    ensures |r| > 0
    ensures forall i :: 0 <= i < |r| ==> NoneIn(r[i], seps)
  {
    if s == [] then [""]
    else
      var rest := Split(s[1..], seps);
      if s[0] in seps then [""] + rest
      else [[s[0]] + rest[0]] + rest[1..]
  }

  /** `parts.join(sep)`. */
  function Join(parts: seq<string>, sep: char): string
  {
    if |parts| == 0 then ""
    else if |parts| == 1 then parts[0]
    else parts[0] + [sep] + Join(parts[1..], sep)
  }

  /** `parts[parts.length - 1]`. */
  function Last<T>(parts: seq<T>): T
    requires |parts| > 0
  {
    parts[|parts| - 1]
  }

  /** A join ends with the last character of its last part. */
  lemma {:induction false} JoinEndsWithLast(parts: seq<string>, c: char)
    requires |parts| > 0 && Last(parts) != ""
    ensures var s := Join(parts, c); |s| > 0 && s[|s| - 1] == Last(parts)[|Last(parts)| - 1]
    decreases |parts|
  {
    if |parts| > 1 {
      JoinEndsWithLast(parts[1..], c);
      assert Last(parts[1..]) == Last(parts);
    }
  }

  lemma SplitWithoutSeparator(s: string, seps: set<char>)
    requires NoneIn(s, seps)
    ensures Split(s, seps) == [s]
  {
    if s != [] {
      SplitWithoutSeparator(s[1..], seps);
      assert [s[0]] + s[1..] == s;
    }
  }

  /** Splitting at one separator splits the two sides independently. */
  lemma {:induction false} SplitAppend(a: string, b: string, c: char)
    ensures Split(a + [c] + b, {c}) == Split(a, {c}) + Split(b, {c})
  {
    if a == [] {
      assert a + [c] + b == [c] + b;
      assert ([c] + b)[1..] == b;
    } else {
      assert (a + [c] + b)[1..] == a[1..] + [c] + b;
      SplitAppend(a[1..], b, c);
    }
  }

  lemma {:induction false} JoinAppend(a: seq<string>, b: seq<string>, c: char)
    requires |a| > 0 && |b| > 0
    ensures Join(a + b, c) == Join(a, c) + [c] + Join(b, c)
  {
    if |a| == 1 {
      assert (a + b)[1..] == b;
    } else {
      assert (a + b)[1..] == a[1..] + b;
      JoinAppend(a[1..], b, c);
    }
  }

  /** `s.split(c).join(c) === s`. */
  lemma {:induction false} JoinSplit(s: string, c: char)
    ensures Join(Split(s, {c}), c) == s
  {
    if s != [] {
      var rest := Split(s[1..], {c});
      JoinSplit(s[1..], c);
      if s[0] != c {
        var r := Split(s, {c});
        assert r == [[s[0]] + rest[0]] + rest[1..];
        if |rest| > 1 {
          assert r[1..] == rest[1..];
          assert Join(rest, c) == rest[0] + [c] + Join(rest[1..], c);
        }
      } else {
        assert Split(s, {c}) == [""] + rest;
        assert ([""] + rest)[1..] == rest;
      }
    }
  }

  /** Joining pieces free of the separator and splitting again gives the pieces back. */
  lemma {:induction false} SplitJoin(parts: seq<string>, c: char)
    requires |parts| > 0
    requires forall i :: 0 <= i < |parts| ==> NoneIn(parts[i], {c})
    ensures Split(Join(parts, c), {c}) == parts
  {
    if |parts| == 1 {
      SplitWithoutSeparator(parts[0], {c});
    } else {
      SplitWithoutSeparator(parts[0], {c});
      SplitJoin(parts[1..], c);
      SplitAppend(parts[0], Join(parts[1..], c), c);
    }
  }

  /** Every character of `Join(parts, c)` is `c` or a character of some part. */
  lemma {:induction false} JoinAvoids(parts: seq<string>, c: char, cs: set<char>)
    requires c !in cs
    requires forall i :: 0 <= i < |parts| ==> NoneIn(parts[i], cs)
    ensures NoneIn(Join(parts, c), cs)
  {
    if |parts| > 1 {
      JoinAvoids(parts[1..], c, cs);
    }
  }

  /** `s.replace(/a/g, b)` for single characters. */
  function ReplaceChar(s: string, a: char, b: char): (r: string)
    ensures |r| == |s|
    ensures forall k :: 0 <= k < |s| ==> r[k] == if s[k] == a then b else s[k]
  {
    if s == [] then [] else [if s[0] == a then b else s[0]] + ReplaceChar(s[1..], a, b)
  }

  /** `s.replace(/[bad]/g, '')`. */
  function RemoveChars(s: string, bad: set<char>): (r: string)
    ensures NoneIn(r, bad)
    ensures forall c :: c in r <==> c in s && c !in bad
  {
    if s == [] then [] else (if s[0] in bad then [] else [s[0]]) + RemoveChars(s[1..], bad)
  }

  /** No two consecutive slashes. */
  predicate NoDoubleSlash(s: string)
  {
    forall i :: 0 <= i < |s| - 1 ==> s[i] != '/' || s[i + 1] != '/'
  }

  /** `s.replace(/\/+/g, '/')`: every run of slashes becomes one slash. */
  function CollapseSlashes(s: string): (r: string)
    ensures |r| <= |s|
    ensures |s| > 0 ==> |r| > 0 && r[0] == s[0] && r[|r| - 1] == s[|s| - 1]
    ensures NoDoubleSlash(r)
    ensures forall c :: c != '/' ==> (c in r <==> c in s)
    decreases |s|
  {
    if |s| < 2 then s
    else if s[0] == '/' && s[1] == '/' then CollapseSlashes(s[1..])
    else [s[0]] + CollapseSlashes(s[1..])
  }

  /** A string that already has no slash run is left alone by the collapse. */
  lemma {:induction false} CollapseKeepsSingleSlashes(s: string)
    requires NoDoubleSlash(s)
    ensures CollapseSlashes(s) == s
    decreases |s|
  {
    if |s| >= 2 {
      CollapseKeepsSingleSlashes(s[1..]);
    }
  }

  /** Removing characters commutes with concatenation. */
  lemma {:induction false} RemoveCharsAppend(a: string, b: string, bad: set<char>)
    ensures RemoveChars(a + b, bad) == RemoveChars(a, bad) + RemoveChars(b, bad)
    decreases |a|
  {
    if a != [] {
      assert (a + b)[1..] == a[1..] + b;
      RemoveCharsAppend(a[1..], b, bad);
    } else {
      assert a + b == b;
    }
  }

  /** Collapsing slash runs changes only slashes. */
  lemma {:induction false} CollapseKeepsNames(s: string)
    ensures RemoveChars(CollapseSlashes(s), {'/'}) == RemoveChars(s, {'/'})
    decreases |s|
  {
    if |s| >= 2 {
      CollapseKeepsNames(s[1..]);
      if s[0] == '/' && s[1] == '/' {
        CollapseDropsSlash(s);
      } else {
        CollapseKeepsHead(s);
      }
    }
  }

  /** A slash followed by a slash is dropped, and it carried no name. */
  lemma CollapseDropsSlash(s: string)
    requires |s| >= 2 && s[0] == '/' && s[1] == '/'
    requires RemoveChars(CollapseSlashes(s[1..]), {'/'}) == RemoveChars(s[1..], {'/'})
    ensures RemoveChars(CollapseSlashes(s), {'/'}) == RemoveChars(s, {'/'})
  {
    assert CollapseSlashes(s) == CollapseSlashes(s[1..]);
    assert RemoveChars(s, {'/'}) == [] + RemoveChars(s[1..], {'/'});
  }

  /** Any other head character is kept in front of the collapsed rest. */
  lemma CollapseKeepsHead(s: string)
    requires |s| >= 2 && !(s[0] == '/' && s[1] == '/')
    requires RemoveChars(CollapseSlashes(s[1..]), {'/'}) == RemoveChars(s[1..], {'/'})
    ensures RemoveChars(CollapseSlashes(s), {'/'}) == RemoveChars(s, {'/'})
  {
    var rest := CollapseSlashes(s[1..]);
    assert CollapseSlashes(s) == [s[0]] + rest;
    RemoveCharsAppend([s[0]], rest, {'/'});
    RemoveCharsAppend([s[0]], s[1..], {'/'});
    assert [s[0]] + s[1..] == s;
  }

  /** The non-empty pieces between slashes, as `split('/').filter(Boolean)` keeps them. */
  function Names(p: string): (r: seq<string>)
    ensures forall i :: 0 <= i < |r| ==> r[i] != "" && NoneIn(r[i], {'/'})
  {
    Filter(Split(p, {'/'}), NonEmpty)
  }

  /** The root and the empty string name nothing. */
  lemma RootHasNoNames()
    ensures Names("/") == [] && Names("") == []
  {
    assert Split("/", {'/'}) == ["", ""];
  }

  /** The names of a path are those of its first piece, when non-empty, and then those of the later pieces. */
  lemma NamesByPieces(s: string)
    ensures Names(s) == Filter([Split(s, {'/'})[0]], NonEmpty) + Filter(Split(s, {'/'})[1..], NonEmpty)
  {
    var ps := Split(s, {'/'});
    assert ps == [ps[0]] + ps[1..];
    FilterAppend([ps[0]], ps[1..], NonEmpty);
  }

  /** A leading slash only adds an empty first piece. */
  lemma NamesAfterSlash(t: string)
    ensures Names("/" + t) == Names(t)
  {
    assert ("/" + t)[1..] == t;
    assert Split("/" + t, {'/'}) == [""] + Split(t, {'/'});
    assert ([""] + Split(t, {'/'}))[1..] == Split(t, {'/'});
  }

  /**
   * Collapsing slash runs keeps the text before the first slash, and removes
   * only empty pieces after it.
   */
  lemma {:induction false} CollapsePieces(s: string)
    ensures Split(CollapseSlashes(s), {'/'})[0] == Split(s, {'/'})[0]
    ensures Filter(Split(CollapseSlashes(s), {'/'})[1..], NonEmpty) == Filter(Split(s, {'/'})[1..], NonEmpty)
    decreases |s|
  {
    if |s| >= 2 {
      var t := s[1..];
      CollapsePieces(t);
      var u := CollapseSlashes(t);
      if s[0] == '/' && s[1] == '/' {
        CollapseRun(s, t, u);
      } else if s[0] == '/' {
        CollapseSingleSlash(s, t, u);
      } else {
        CollapseNameChar(s, t, u);
      }
    }
  }

  /** A slash followed by a slash: the first one goes, and it only separated an empty piece. */
  lemma CollapseRun(s: string, t: string, u: string)
    requires |s| >= 2 && s[0] == '/' && s[1] == '/' && t == s[1..] && u == CollapseSlashes(t)
    requires Split(u, {'/'})[0] == Split(t, {'/'})[0]
    requires Filter(Split(u, {'/'})[1..], NonEmpty) == Filter(Split(t, {'/'})[1..], NonEmpty)
    ensures Split(CollapseSlashes(s), {'/'})[0] == Split(s, {'/'})[0]
    ensures Filter(Split(CollapseSlashes(s), {'/'})[1..], NonEmpty) == Filter(Split(s, {'/'})[1..], NonEmpty)
  {
    assert CollapseSlashes(s) == u;
    var pt := Split(t, {'/'});
    assert Split(s, {'/'}) == [""] + pt;
    assert pt == [""] + Split(t[1..], {'/'});
    assert ([""] + pt)[1..] == pt;
    assert pt == [pt[0]] + pt[1..];
  }

  /** A single slash stays, in front of the collapsed rest. */
  lemma CollapseSingleSlash(s: string, t: string, u: string)
    requires |s| >= 2 && s[0] == '/' && s[1] != '/' && t == s[1..] && u == CollapseSlashes(t)
    requires Split(u, {'/'})[0] == Split(t, {'/'})[0]
    requires Filter(Split(u, {'/'})[1..], NonEmpty) == Filter(Split(t, {'/'})[1..], NonEmpty)
    ensures Split(CollapseSlashes(s), {'/'})[0] == Split(s, {'/'})[0]
    ensures Filter(Split(CollapseSlashes(s), {'/'})[1..], NonEmpty) == Filter(Split(s, {'/'})[1..], NonEmpty)
  {
    assert CollapseSlashes(s) == "/" + u;
    assert s == "/" + t;
    NamesAfterSlash(u);
    NamesAfterSlash(t);
    NamesByPieces(u);
    NamesByPieces(t);
    assert Split("/" + u, {'/'}) == [""] + Split(u, {'/'});
    assert Split("/" + t, {'/'}) == [""] + Split(t, {'/'});
  }

  /** Any other character stays at the front of the first piece. */
  lemma CollapseNameChar(s: string, t: string, u: string)
    requires |s| >= 2 && s[0] != '/' && t == s[1..] && u == CollapseSlashes(t)
    requires Split(u, {'/'})[0] == Split(t, {'/'})[0]
    requires Filter(Split(u, {'/'})[1..], NonEmpty) == Filter(Split(t, {'/'})[1..], NonEmpty)
    ensures Split(CollapseSlashes(s), {'/'})[0] == Split(s, {'/'})[0]
    ensures Filter(Split(CollapseSlashes(s), {'/'})[1..], NonEmpty) == Filter(Split(s, {'/'})[1..], NonEmpty)
  {
    var c := CollapseSlashes(s);
    assert c == [s[0]] + u;
    assert c[1..] == u;
    var pu := Split(u, {'/'});
    var pt := Split(t, {'/'});
    assert Split(c, {'/'}) == [[s[0]] + pu[0]] + pu[1..];
    assert Split(s, {'/'}) == [[s[0]] + pt[0]] + pt[1..];
  }

  /** Collapsing slash runs keeps the names of a path. */
  lemma CollapseKeepsSegments(s: string)
    ensures Names(CollapseSlashes(s)) == Names(s)
  {
    CollapsePieces(s);
    NamesByPieces(s);
    NamesByPieces(CollapseSlashes(s));
  }

  /** The string contains `..` somewhere, as `includes('..')` tests it. */
  predicate HasDotDot(s: string)
  {
    exists i :: 0 <= i < |s| - 1 && s[i] == '.' && s[i + 1] == '.'
  }

  /** The characters `String.prototype.trim` removes and `\s` matches. */
  predicate IsSpace(c: char)
  {
    || c == '\t' || c == '\n' || c == '\U{000B}' || c == '\U{000C}' || c == '\r' || c == ' '
    || c == '\U{00A0}' || c == '\U{1680}' || ('\U{2000}' <= c <= '\U{200A}')
    || c == '\U{2028}' || c == '\U{2029}' || c == '\U{202F}' || c == '\U{205F}'
    || c == '\U{3000}' || c == '\U{FEFF}'
  }

  predicate NoSpace(s: string)
  {
    forall k :: 0 <= k < |s| ==> !IsSpace(s[k])
  }

  predicate AllSpace(s: string)
  {
    forall k :: 0 <= k < |s| ==> IsSpace(s[k])
  }

  /** `s.trimStart()`: a suffix of `s`, only white space dropped. */
  function TrimStart(s: string): (r: string)
    ensures |r| <= |s| && r == s[|s| - |r|..]
    ensures r == [] || !IsSpace(r[0])
    ensures AllSpace(s[..|s| - |r|])
  {
    if s != [] && IsSpace(s[0]) then
      var r := TrimStart(s[1..]);
      assert s[..|s| - |r|] == [s[0]] + s[1..][..|s[1..]| - |r|];
      r
    else s
  }

  /** `s.trimEnd()`: a prefix of `s`, only white space dropped. */
  function TrimEnd(s: string): (r: string)
    ensures |r| <= |s| && r == s[..|r|]
    ensures r == [] || !IsSpace(r[|r| - 1])
    ensures AllSpace(s[|r|..])
  {
    if s != [] && IsSpace(s[|s| - 1]) then
      var r := TrimEnd(s[..|s| - 1]);
      assert s[|r|..] == s[..|s| - 1][|r|..] + [s[|s| - 1]];
      r
    else s
  }

  /** `s.trim()`. */
  function Trim(s: string): string
  {
    TrimEnd(TrimStart(s))
  }

  /** A trimmed string is empty exactly when the input is all white space. */
  lemma TrimEmpty(s: string)
    ensures Trim(s) == "" <==> AllSpace(s)
  {
    var t := TrimStart(s);
    if !AllSpace(s) {
      var k :| 0 <= k < |s| && !IsSpace(s[k]);
      assert k >= |s| - |t|;
      assert t[k - (|s| - |t|)] == s[k];
    }
  }

  /** A string that starts and ends with a non-space character is its own trim. */
  lemma TrimTrimmed(s: string)
    requires s != [] && !IsSpace(s[0]) && !IsSpace(s[|s| - 1])
    ensures Trim(s) == s
  {
  }

  /** `s.split(/\s+/)`: the pieces between maximal runs of white space. */
  function SplitSpaces(s: string): (r: seq<string>)
    ensures |r| > 0
    ensures forall i :: 0 <= i < |r| ==> NoSpace(r[i])
    ensures s != [] && !IsSpace(s[0]) ==> r[0] != ""
    decreases |s|
  {
    if s == [] then [""]
    else if IsSpace(s[0]) then [""] + SplitSpaces(TrimStart(s[1..]))
    else
      var rest := SplitSpaces(s[1..]);
      [[s[0]] + rest[0]] + rest[1..]
  }

  /** In a string that ends with a non-space character, every piece after the first is non-empty. */
  lemma {:induction false} SplitSpacesTail(s: string)
    requires s != [] && !IsSpace(s[|s| - 1])
    ensures forall i :: 1 <= i < |SplitSpaces(s)| ==> SplitSpaces(s)[i] != ""
    decreases |s|
  {
    if IsSpace(s[0]) {
      var t := TrimStart(s[1..]);
      assert s[1..][|s[1..]| - 1] == s[|s| - 1];
      assert t[|t| - 1] == s[|s| - 1];
      SplitSpacesTail(t);
    } else if |s| > 1 {
      assert s[1..][|s[1..]| - 1] == s[|s| - 1];
      SplitSpacesTail(s[1..]);
    }
  }

  /** A word without white space, a space and then more text split apart at that space. */
  lemma {:induction false} SplitSpacesAppend(a: string, b: string)
    requires NoSpace(a)
    requires b == [] || !IsSpace(b[0])
    ensures SplitSpaces(a + [' '] + b) == [a] + SplitSpaces(b)
    decreases |a|
  {
    var s := a + [' '] + b;
    if a == [] {
      assert s == [' '] + b;
      assert s[1..] == b;
    } else {
      assert s[1..] == a[1..] + [' '] + b;
      SplitSpacesAppend(a[1..], b);
      assert [a[0]] + a[1..] == a;
    }
  }

  lemma {:induction false} SplitSpacesWord(a: string)
    requires NoSpace(a)
    ensures SplitSpaces(a) == [a]
  {
    if a != [] {
      SplitSpacesWord(a[1..]);
      assert [a[0]] + a[1..] == a;
    }
  }

  /** Tokenising words joined by single spaces gives the words back. */
  lemma {:induction false} SplitSpacesJoin(words: seq<string>)
    requires |words| > 0
    requires forall i :: 0 <= i < |words| ==> words[i] != "" && NoSpace(words[i])
    ensures SplitSpaces(Join(words, ' ')) == words
  {
    if |words| == 1 {
      SplitSpacesWord(words[0]);
    } else {
      SplitSpacesJoin(words[1..]);
      JoinStartsWithFirst(words[1..], ' ');
      SplitSpacesAppend(words[0], Join(words[1..], ' '));
    }
  }

  /** White space in front of a string that starts with a non-space character is all `trimStart` removes. */
  lemma {:induction false} TrimStartSpaces(g: string, b: string)
    requires AllSpace(g)
    requires b == [] || !IsSpace(b[0])
    ensures TrimStart(g + b) == b
    decreases |g|
  {
    if g == [] {
      assert g + b == b;
    } else {
      assert (g + b)[1..] == g[1..] + b;
      TrimStartSpaces(g[1..], b);
    }
  }

  /** White space behind a string that ends with a non-space character is all `trimEnd` removes. */
  lemma {:induction false} TrimEndSpaces(a: string, g: string)
    requires AllSpace(g)
    requires a == [] || !IsSpace(a[|a| - 1])
    ensures TrimEnd(a + g) == a
    decreases |g|
  {
    if g == [] {
      assert a + g == a;
    } else {
      var h := g[..|g| - 1];
      assert (a + g)[..|a + g| - 1] == a + h;
      TrimEndSpaces(a, h);
    }
  }

  /** Words separated by runs of white space: `words[0] + gaps[0] + words[1] + ...`. */
  function Interleave(words: seq<string>, gaps: seq<string>): string
    requires |words| > 0 && |gaps| == |words| - 1
  {
    if |words| == 1 then words[0] else words[0] + gaps[0] + Interleave(words[1..], gaps[1..])
  }

  /** Non-empty words put together start with the first word's first character and end with the last's last. */
  lemma {:induction false} InterleaveEnds(words: seq<string>, gaps: seq<string>)
    requires |words| > 0 && |gaps| == |words| - 1
    requires forall i :: 0 <= i < |words| ==> words[i] != ""
    ensures var s := Interleave(words, gaps); |s| > 0 && s[0] == words[0][0] && s[|s| - 1] == Last(words)[|Last(words)| - 1]
    decreases |words|
  {
    if |words| > 1 {
      InterleaveEnds(words[1..], gaps[1..]);
      assert Last(words[1..]) == Last(words);
    }
  }

  /** A word, a run of white space and more text split apart at that run. */
  lemma {:induction false} SplitSpacesGap(a: string, g: string, b: string)
    requires NoSpace(a)
    requires g != [] && AllSpace(g)
    requires b == [] || !IsSpace(b[0])
    ensures SplitSpaces(a + g + b) == [a] + SplitSpaces(b)
    decreases |a|
  {
    var s := a + g + b;
    if a == [] {
      assert s == g + b;
      assert s[1..] == g[1..] + b;
      TrimStartSpaces(g[1..], b);
    } else {
      assert s[1..] == a[1..] + g + b;
      SplitSpacesGap(a[1..], g, b);
      assert [a[0]] + a[1..] == a;
    }
  }

  /** Tokenising words separated by runs of white space gives the words back. */
  lemma {:induction false} SplitSpacesInterleave(words: seq<string>, gaps: seq<string>)
    requires |words| > 0 && |gaps| == |words| - 1
    requires forall i :: 0 <= i < |words| ==> words[i] != "" && NoSpace(words[i])
    requires forall i :: 0 <= i < |gaps| ==> gaps[i] != "" && AllSpace(gaps[i])
    ensures SplitSpaces(Interleave(words, gaps)) == words
    decreases |words|
  {
    if |words| == 1 {
      SplitSpacesWord(words[0]);
    } else {
      SplitSpacesInterleave(words[1..], gaps[1..]);
      InterleaveEnds(words[1..], gaps[1..]);
      SplitSpacesGap(words[0], gaps[0], Interleave(words[1..], gaps[1..]));
    }
  }

  /** A join of non-empty parts begins with the first part and ends with the last one. */
  lemma {:induction false} JoinStartsWithFirst(parts: seq<string>, c: char)
    requires |parts| > 0 && forall i :: 0 <= i < |parts| ==> parts[i] != ""
    ensures |Join(parts, c)| > 0
    ensures Join(parts, c)[0] == parts[0][0]
    ensures Join(parts, c)[|Join(parts, c)| - 1] == Last(parts)[|Last(parts)| - 1]
  {
    if |parts| > 1 {
      JoinStartsWithFirst(parts[1..], c);
    }
  }
}

=== FILE: taskbar.dfy ===
/**
 * The taskbar's pinned applications: dropping an application onto the bar pins
 * it, the context menu unpins it, and only pinned applications that are
 * installed get a button.
 */
module Taskbar {
  import opened Common

  /** An installed application as the manifest lists it. */
  datatype App = App(appId: string, title: string)

  /** A notification the taskbar raises: its text and its kind. */
  datatype Note = Note(message: string, kind: string)

  const AlreadyPinned := "App is already pinned to the Taskbar."
  const NotInstalled := "Could not pin app: App not found or not installed."
  const PinnedSuffix := "\" pinned to Taskbar."
  const UnpinnedSuffix := "\" unpinned."

  /** No application id appears twice. */
  predicate Distinct(ids: seq<string>)
  {
    forall i, j :: 0 <= i < j < |ids| ==> ids[i] != ids[j]
  }

  /** The installed record for an id, as `installedApps.find` returns it. */
  function Find(installed: seq<App>, appId: string): (r: Option<App>)
    ensures r.Some? ==> r.value in installed && r.value.appId == appId
    ensures r.None? ==> forall a :: a in installed ==> a.appId != appId
    ensures r.Some? ==> exists i :: 0 <= i < |installed| && installed[i] == r.value &&
                          forall k :: 0 <= k < i ==> installed[k].appId != appId
  {
    match FirstIndex(installed, (a: App) => a.appId == appId)
    case None => None
    case Some(i) => Some(installed[i])
  }

  /** The pinned list after a drop, and the notification it raises. */
  datatype Dropped = Dropped(pinned: seq<string>, note: Option<Note>)

  /** `handleDrop`: pin an installed, not yet pinned application at the end. */
  function Drop(pinned: seq<string>, installed: seq<App>, appId: string): (r: Dropped)
    ensures appId == "" ==> r == Dropped(pinned, None)
    ensures appId != "" && appId in pinned ==> r == Dropped(pinned, Some(Note(AlreadyPinned, "info")))
    ensures appId != "" && appId !in pinned && Find(installed, appId).None? ==>
      r == Dropped(pinned, Some(Note(NotInstalled, "error")))
    ensures appId != "" && appId !in pinned && Find(installed, appId).Some? ==>
      && r.pinned == pinned + [appId]
      && r.note == Some(Note("\"" + Find(installed, appId).value.title + PinnedSuffix, "success"))
    ensures r.pinned == pinned || r.pinned == pinned + [appId]
  {
    if appId == "" then Dropped(pinned, None)
    else if appId in pinned then Dropped(pinned, Some(Note(AlreadyPinned, "info")))
    else match Find(installed, appId)
      case None => Dropped(pinned, Some(Note(NotInstalled, "error")))
      case Some(app) => Dropped(pinned + [appId], Some(Note("\"" + app.title + PinnedSuffix, "success")))
  }

  /** A drop never pins an application twice. */
  lemma DropKeepsDistinct(pinned: seq<string>, installed: seq<App>, appId: string)
    requires Distinct(pinned)
    ensures Distinct(Drop(pinned, installed, appId).pinned)
  {
    var r := Drop(pinned, installed, appId).pinned;
    if r != pinned {
      forall i, j | 0 <= i < j < |r|
        ensures r[i] != r[j]
      {
        if j == |pinned| {
          assert r[i] == pinned[i];
        }
      }
    }
  }

  /** A drop only ever pins installed applications. */
  lemma DropPinsInstalled(pinned: seq<string>, installed: seq<App>, appId: string)
    requires forall id :: id in pinned ==> Find(installed, id).Some?
    ensures forall id :: id in Drop(pinned, installed, appId).pinned ==> Find(installed, id).Some?
  {
  }

  /** The filter that keeps every id except this one. */
  function Except(appId: string): string -> bool
  {
    (id: string) => id != appId
  }

  /** `handleUnpinApp`: every occurrence of the id goes, the rest keep their order. */
  function Unpin(pinned: seq<string>, appId: string): (r: seq<string>)
    ensures appId !in r
    ensures forall id :: id != appId ==> (id in r <==> id in pinned)
    ensures appId !in pinned ==> r == pinned
    ensures Subsequence(r, pinned)
  {
    var r := Filter(pinned, Except(appId));
    FilterSubsequence(pinned, Except(appId));
    assert forall k :: 0 <= k < |r| ==> Except(appId)(r[k]);
    assert forall k :: 0 <= k < |pinned| && pinned[k] != appId ==> Except(appId)(pinned[k]);
    r
  }

  /** The label of the unpin notification: the installed title, or the id when there is none. */
  function UnpinNote(installed: seq<App>, appId: string): (r: Note)
    ensures r.kind == "info"
    ensures Find(installed, appId).Some? && Find(installed, appId).value.title != "" ==>
      r.message == "\"" + Find(installed, appId).value.title + UnpinnedSuffix
    ensures Find(installed, appId).None? ==> r.message == "\"" + appId + UnpinnedSuffix
  {
    var found := Find(installed, appId);
    var text := if found.Some? && found.value.title != "" then found.value.title else appId;
    Note("\"" + text + UnpinnedSuffix, "info")
  }

  /** Unpinning keeps a duplicate-free list duplicate-free. */
  lemma UnpinKeepsDistinct(pinned: seq<string>, appId: string)
    requires Distinct(pinned)
    ensures Distinct(Unpin(pinned, appId))
  {
    assert DistinctBy(pinned, (id: string) => id);
    FilterKeepsDistinct(pinned, Except(appId), (id: string) => id);
  }

  /** Pinning an application by a drop and unpinning it again restores the pinned list. */
  lemma UnpinUndoesDrop(pinned: seq<string>, installed: seq<App>, appId: string)
    ensures Unpin(Drop(pinned, installed, appId).pinned, appId) == Unpin(pinned, appId)
    ensures appId !in pinned ==> Unpin(Drop(pinned, installed, appId).pinned, appId) == pinned
  {
    var r := Drop(pinned, installed, appId).pinned;
    if r != pinned {
      FilterAppend(pinned, [appId], Except(appId));
      assert Filter([appId], Except(appId)) == [];
    }
  }

  /** The pinned ids that have an installed app. */
  function HasApp(installed: seq<App>): string -> bool
  {
    (id: string) => Find(installed, id).Some?
  }

  /** One more found app in front keeps the buttons in line with their ids. */
  lemma ButtonsInOrder(installed: seq<App>, id: string, app: App, ids: seq<string>, buttons: seq<App>)
    requires Find(installed, id) == Some(app) && |buttons| == |ids|
    requires forall i :: 0 <= i < |buttons| ==> Find(installed, ids[i]) == Some(buttons[i])
    ensures forall i :: 0 <= i < |buttons| + 1 ==> Find(installed, ([id] + ids)[i]) == Some(([app] + buttons)[i])
  {
    forall i | 0 <= i < |buttons| + 1
      ensures Find(installed, ([id] + ids)[i]) == Some(([app] + buttons)[i])
    {
      if i > 0 {
        assert ([id] + ids)[i] == ids[i - 1] && ([app] + buttons)[i] == buttons[i - 1];
      }
    }
  }

  /** The buttons the bar renders: the pinned ids that have an installed app, in pinned order. */
  function Shown(pinned: seq<string>, installed: seq<App>): (r: seq<App>)
    ensures |r| <= |pinned|
    ensures forall a :: a in r ==> a in installed && a.appId in pinned
    ensures forall id :: id in pinned && Find(installed, id).Some? ==> Find(installed, id).value in r
    ensures |r| == |Filter(pinned, HasApp(installed))|
    ensures forall i :: 0 <= i < |r| ==> Find(installed, Filter(pinned, HasApp(installed))[i]) == Some(r[i])
  {
    if pinned == [] then []
    else
      var rest := Shown(pinned[1..], installed);
      var later := Filter(pinned[1..], HasApp(installed));
      assert forall id :: id in pinned[1..] ==> id in pinned;
      assert forall id :: id in pinned ==> id == pinned[0] || id in pinned[1..];
      match Find(installed, pinned[0])
      case None =>
        assert Filter(pinned, HasApp(installed)) == later;
        rest
      case Some(app) =>
        assert Filter(pinned, HasApp(installed)) == [pinned[0]] + later;
        ButtonsInOrder(installed, pinned[0], app, later, rest);
        [app] + rest
  }
}

=== FILE: terminal.dfy ===
/**
 * The terminal application: its own path normaliser, the resolution of a
 * command argument against the current directory, the tokenising of a command
 * line and the choice of what each command does. Every server call a command
 * makes is represented by the request it issues.
 */
module Terminal {
  import opened Common
  import opened Strings
  import PosixPath

  // ---------------------------------------------------------------------------
  // path.normalize inside the terminal
  // ---------------------------------------------------------------------------

  /** The names a path keeps once empty pieces, `.` and `..` are resolved; a `..` at the top is dropped. */
  function Segments(p: string): (r: seq<string>)
    ensures PosixPath.AllPlain(r)
  {
    var parts := Filter(Split(p, {'/'}), NonEmpty);
    assert PosixPath.SlashFree(parts);
    PosixPath.Walk([], parts, false)
  }

  /** The terminal's `path.normalize`: `/` followed by the resolved names. */
  function Normalize(p: string): (r: string)
    ensures r != "" && r[0] == '/'
    ensures Segments(p) == [] ==> r == "/"
    ensures Segments(p) != [] ==> Split(r, {'/'}) == [""] + Segments(p)
  {
    SplitRendered(Segments(p));
    if p == "/" then "/" else PosixPath.Absolute(Segments(p))
  }

  /** The pieces of a rendered non-empty name list. */
  lemma SplitRendered(segs: seq<string>)
    requires PosixPath.AllPlain(segs)
    ensures segs != [] ==> Split(PosixPath.Absolute(segs), {'/'}) == [""] + segs
  {
    if segs != [] {
      PosixPath.SplitAbsolute(segs);
    }
  }

  /** A path the terminal's normaliser leaves alone. */
  predicate IsNormal(p: string)
  {
    Normalize(p) == p
  }

  /** Rendering plain names and resolving them again gives the same names. */
  lemma SegmentsOfAbsolute(segs: seq<string>)
    requires PosixPath.AllPlain(segs)
    ensures Segments(PosixPath.Absolute(segs)) == segs
    ensures Normalize(PosixPath.Absolute(segs)) == PosixPath.Absolute(segs)
  {
    var p := PosixPath.Absolute(segs);
    if segs == [] {
      assert p == "/";
      assert Split("/", {'/'}) == ["", ""];
      assert Filter(["", ""], NonEmpty) == [];
    } else {
      PosixPath.SplitAbsolute(segs);
      FilterAppend([""], segs, NonEmpty);
      assert Filter(segs, NonEmpty) == segs;
      assert Filter([""], NonEmpty) == [];
      PosixPath.WalkPlain([], segs, false);
      assert p != "/" by {
        assert |p| > 1;
      }
    }
  }

  /** The normaliser is idempotent. */
  lemma NormalizeIdempotent(p: string)
    ensures Normalize(Normalize(p)) == Normalize(p)
  {
    if p == "/" {
      SegmentsOfAbsolute([]);
    } else {
      SegmentsOfAbsolute(Segments(p));
    }
  }

  /** A normal path is the rendering of its own names. */
  lemma NormalIsAbsolute(p: string)
    requires IsNormal(p)
    ensures p == PosixPath.Absolute(Segments(p))
  {
    if p == "/" {
      assert Split("/", {'/'}) == ["", ""];
      assert Filter(["", ""], NonEmpty) == [];
    }
  }

  /** A `..` with nothing before it is dropped: the normaliser never climbs above `/`. */
  lemma ParentAtTopDropped(x: string)
    ensures Normalize("/../" + x) == Normalize("/" + x)
  {
    var rest := Split(x, {'/'});
    SplitBelowTop(x);
    FilterAppend([""], [".."] + rest, NonEmpty);
    FilterAppend([".."], rest, NonEmpty);
    FilterAppend([""], rest, NonEmpty);
    var kept := Filter(rest, NonEmpty);
    assert Filter(Split("/../" + x, {'/'}), NonEmpty) == [".."] + kept;
    assert Filter(Split("/" + x, {'/'}), NonEmpty) == kept;
    PosixPath.WalkAppend([], [".."], kept, false);
    assert PosixPath.Walk([], [".."], false) == [];
    assert Segments("/../" + x) == Segments("/" + x);
    assert "/../" + x != "/";
    if "/" + x == "/" {
      assert x == "";
      assert Segments("/") == [];
    }
  }

  /** The pieces of `/../x` and of `/x`. */
  lemma SplitBelowTop(x: string)
    ensures Split("/../" + x, {'/'}) == [""] + ([".."] + Split(x, {'/'}))
    ensures Split("/" + x, {'/'}) == [""] + Split(x, {'/'})
  {
    SplitAppend("", "../" + x, '/');
    assert "" + ['/'] + ("../" + x) == "/../" + x;
    SplitAppend("..", x, '/');
    assert ".." + ['/'] + x == "../" + x;
    SplitWithoutSeparator("..", {'/'});
    SplitAppend("", x, '/');
    assert "" + ['/'] + x == "/" + x;
  }

  // ---------------------------------------------------------------------------
  // resolvePath
  // ---------------------------------------------------------------------------

  /**
   * The relative-path template as it stands in the source: it interpolates
   * nothing, so the text is fixed whatever the directory and argument are.
   */
  const GarbledRelative := "<span class=\"math-inline\">{cwd}/</span>{inputPath}"

  /** `cwd` without its last name, as the `..` branch computes it from the raw pieces of `cwd`. */
  function ParentText(cwd: string): string
  {
    var parts := Filter(Split(cwd, {'/'}), NonEmpty);
    var kept := if parts == [] then [] else parts[..|parts| - 1];
    if kept == [] then "/" else "/" + Join(kept, '/')
  }

  /** `resolvePath` as written: a relative argument outside the root becomes the fixed template text. */
  function ResolvePathAsWritten(cwd: string, input: string): (r: string)
    ensures r != "" && r[0] == '/'
  {
    var absolute :=
      if StartsWith(input, "/") then input
      else if input == "." || input == "./" then cwd
      else if input == ".." then ParentText(cwd)
      else if cwd == "/" then "/" + input
      else GarbledRelative;
    Normalize(absolute)
  }

  /** `resolvePath` with the relative template reading `${cwd}/${inputPath}`, as its comment intends. */
  function ResolvePath(cwd: string, input: string): (r: string)
    ensures r != "" && r[0] == '/' && IsNormal(r)
    ensures StartsWith(input, "/") ==> r == Normalize(input)
    ensures !StartsWith(input, "/") && (input == "." || input == "./") ==> r == Normalize(cwd)
    ensures input == ".." && IsNormal(cwd) ==>
      r == PosixPath.Absolute(if Segments(cwd) == [] then [] else Segments(cwd)[..|Segments(cwd)| - 1])
    ensures !StartsWith(input, "/") && input !in {".", "./", ".."} ==>
      r == Normalize(if cwd == "/" then "/" + input else cwd + "/" + input)
  {
    var absolute :=
      if StartsWith(input, "/") then input
      else if input == "." || input == "./" then cwd
      else if input == ".." then ParentText(cwd)
      else if cwd == "/" then "/" + input
      else cwd + "/" + input;
    NormalizeIdempotent(absolute);
    ParentOfNormal(cwd);
    Normalize(absolute)
  }

  /** For a normal directory the `..` branch names its parent. */
  lemma ParentOfNormal(cwd: string)
    ensures IsNormal(cwd) ==>
      var segs := Segments(cwd);
      Normalize(ParentText(cwd)) == PosixPath.Absolute(if segs == [] then [] else segs[..|segs| - 1])
  {
    if IsNormal(cwd) {
      ParentOfNormalPath(cwd);
    }
  }

  lemma ParentOfNormalPath(cwd: string)
    requires IsNormal(cwd)
    ensures var segs := Segments(cwd);
      Normalize(ParentText(cwd)) == PosixPath.Absolute(if segs == [] then [] else segs[..|segs| - 1])
  {
    var segs := Segments(cwd);
    NormalIsAbsolute(cwd);
    var parts := Filter(Split(cwd, {'/'}), NonEmpty);
    SegmentsOfAbsolute(segs);
    if segs == [] {
      assert Split("/", {'/'}) == ["", ""];
      assert Filter(["", ""], NonEmpty) == [];
      assert ParentText(cwd) == "/";
      SegmentsOfAbsolute([]);
    } else {
      PosixPath.SplitAbsolute(segs);
      FilterAppend([""], segs, NonEmpty);
      assert Filter(segs, NonEmpty) == segs;
      assert parts == segs;
      var kept := segs[..|segs| - 1];
      assert PosixPath.AllPlain(kept);
      SegmentsOfAbsolute(kept);
      assert ParentText(cwd) == PosixPath.Absolute(kept);
    }
  }

  /** A plain name typed in a normal directory names its child. */
  lemma ResolveChildName(cwd: string, name: string)
    requires IsNormal(cwd) && PosixPath.Plain(name)
    ensures ResolvePath(cwd, name) == PosixPath.Absolute(Segments(cwd) + [name])
  {
    var w := Segments(cwd) + [name];
    assert PosixPath.AllPlain(w);
    assert !StartsWith(name, "/");
    if cwd == "/" {
      ChildOfTop(name);
    } else {
      ChildOfDirectory(cwd, name);
    }
    SegmentsOfAbsolute(w);
  }

  lemma ChildOfTop(name: string)
    requires PosixPath.Plain(name)
    ensures Segments("/" + name) == [name] && "/" + name != "/"
    ensures Segments("/") == []
  {
    SplitWithoutSeparator(name, {'/'});
    SplitAppend("", name, '/');
    assert "" + ['/'] + name == "/" + name;
    assert Split("/" + name, {'/'}) == ["", name];
    assert Filter(["", name], NonEmpty) == [name];
    PosixPath.WalkPlain([], [name], false);
    assert Split("/", {'/'}) == ["", ""];
    assert Filter(["", ""], NonEmpty) == [];
  }

  lemma ChildOfDirectory(cwd: string, name: string)
    requires IsNormal(cwd) && cwd != "/" && PosixPath.Plain(name)
    ensures Segments(cwd + "/" + name) == Segments(cwd) + [name] && cwd + "/" + name != "/"
  {
    var segs := Segments(cwd);
    NormalIsAbsolute(cwd);
    SplitWithoutSeparator(name, {'/'});
    var w := segs + [name];
    assert PosixPath.AllPlain(w);
    var p := cwd + "/" + name;
    assert segs != [];
    PosixPath.SplitAbsolute(segs);
    SplitAppend(cwd, name, '/');
    assert cwd + ['/'] + name == p;
    assert Split(p, {'/'}) == [""] + w;
    FilterAppend([""], w, NonEmpty);
    assert Filter(w, NonEmpty) == w;
    PosixPath.WalkPlain([], w, false);
  }

  /** As written, any two ordinary names typed outside the root resolve to the same path. */
  lemma RelativeTemplateIgnoresInput(cwd: string, x: string, y: string)
    requires cwd != "/"
    requires !StartsWith(x, "/") && x !in {".", "./", ".."}
    requires !StartsWith(y, "/") && y !in {".", "./", ".."}
    ensures ResolvePathAsWritten(cwd, x) == ResolvePathAsWritten(cwd, y)
  {
  }

  /** As written, `a` and `b` typed in `/docs` resolve to the same path. */
  lemma TemplateMergesNames()
    ensures ResolvePathAsWritten("/docs", "a") == ResolvePathAsWritten("/docs", "b")
  {
    assert "a"[0] != '.' && "a"[0] != '/' && "b"[0] != '.' && "b"[0] != '/';
    RelativeTemplateIgnoresInput("/docs", "a", "b");
  }

  /** Corrected, two different names typed in `/docs` resolve to two different children of `/docs`. */
  lemma CorrectedTemplateNamesChild(x: string, y: string)
    requires PosixPath.Plain(x) && PosixPath.Plain(y) && x != y
    ensures ResolvePath("/docs", x) == "/docs/" + x
    ensures ResolvePath("/docs", y) == "/docs/" + y
    ensures ResolvePath("/docs", x) != ResolvePath("/docs", y)
  {
    DocsChild(x);
    DocsChild(y);
    assert ("/docs/" + x)[6..] == x && ("/docs/" + y)[6..] == y;
  }

  /** A plain name typed in `/docs` resolves to `/docs/` followed by the name. */
  lemma DocsChild(name: string)
    requires PosixPath.Plain(name)
    ensures ResolvePath("/docs", name) == "/docs/" + name
  {
    DocsNormal();
    ResolveChildName("/docs", name);
    AbsoluteOfTwo("docs", name);
  }

  /** `/docs` is normal and names the single segment `docs`. */
  lemma DocsNormal()
    ensures IsNormal("/docs") && Segments("/docs") == ["docs"]
  {
    assert PosixPath.Plain("docs");
    SegmentsOfAbsolute(["docs"]);
    assert PosixPath.Absolute(["docs"]) == "/docs";
  }

  /** Two names rendered as an absolute path. */
  lemma AbsoluteOfTwo(x: string, y: string)
    ensures PosixPath.Absolute([x] + [y]) == "/" + x + "/" + y
  {
    assert ([x] + [y])[1..] == [y];
    assert Join([x] + [y], '/') == x + ['/'] + y;
    assert "/" + (x + ['/'] + y) == "/" + x + "/" + y;
  }

  // ---------------------------------------------------------------------------
  // executeCommand and handleCommandSubmit
  // ---------------------------------------------------------------------------

  /** `fullCommand.trim().split(/\s+/)`. */
  function Tokens(line: string): (r: seq<string>)
    ensures |r| > 0
    ensures forall i :: 1 <= i < |r| ==> r[i] != ""
    ensures forall i :: 0 <= i < |r| ==> NoSpace(r[i])
    ensures Trim(line) != "" ==> r[0] != ""
  {
    TrimmedTokens(Trim(line));
    SplitSpaces(Trim(line))
  }

  /** Every piece but the first of a trimmed line is a word. */
  lemma TrimmedTokens(t: string)
    requires t == [] || (!IsSpace(t[0]) && !IsSpace(t[|t| - 1]))
    ensures forall i :: 1 <= i < |SplitSpaces(t)| ==> SplitSpaces(t)[i] != ""
  {
    if t != [] {
      SplitSpacesTail(t);
    }
  }

  /**
   * Words separated by runs of any white space, with any white space before
   * and after them, tokenise to the words.
   */
  lemma TokensOfSpacedWords(lead: string, words: seq<string>, gaps: seq<string>, trail: string)
    requires AllSpace(lead) && AllSpace(trail)
    requires |words| > 0 && |gaps| == |words| - 1
    requires forall i :: 0 <= i < |words| ==> words[i] != "" && NoSpace(words[i])
    requires forall i :: 0 <= i < |gaps| ==> gaps[i] != "" && AllSpace(gaps[i])
    ensures Tokens(lead + Interleave(words, gaps) + trail) == words
  {
    var s := Interleave(words, gaps);
    InterleaveEnds(words, gaps);
    assert lead + s + trail == lead + (s + trail);
    TrimStartSpaces(lead, s + trail);
    TrimEndSpaces(s, trail);
    SplitSpacesInterleave(words, gaps);
  }

  /** Words separated by single spaces tokenise back to the words. */
  lemma TokensOfWords(words: seq<string>)
    requires |words| > 0
    requires forall i :: 0 <= i < |words| ==> words[i] != "" && NoSpace(words[i])
    ensures Tokens(Join(words, ' ')) == words
  {
    var s := Join(words, ' ');
    JoinStartsWithFirst(words, ' ');
    assert !IsSpace(s[0]) && !IsSpace(s[|s| - 1]);
    TrimTrimmed(s);
    SplitSpacesJoin(words);
  }

  /** A server call a command issues; its reply only prints lines. */
  datatype Request =
    | ListDir(path: string)
    | ChangeDir(path: string)
    | CreateEntry(parent: string, name: string, kind: string)
    | InstallPackage(path: string)
    | ListInstalled
    | UninstallApp(appId: string)

  /** What executing one command line does. */
  datatype Outcome =
    | ShowHelp
    | Usage(lines: seq<string>)
    | Issue(request: Request)
    | ClearScreen
    | UnknownCommand(cmd: string)
    | UnknownPackageCommand(sub: string)

  const CdUsage := "Usage: cd <path>"
  const MkdirUsage := "Usage: mkdir <name>"
  const CfUsage := "Usage: cf <name>"
  const PkgmUsage := "Usage: pkgm <command> [args]"
  const PkgmCommands := "  Commands: install, list-installed, uninstall"
  const InstallUsage := "Usage: pkgm install <path/to/package.pakapp>"
  const UninstallUsage := "Usage: pkgm uninstall <app_id>"

  /** The `pkgm` sub-commands. */
  function Package(cwd: string, args: seq<string>): (r: Outcome)
    requires |args| > 0 && args[0] != ""
    ensures r.Issue? ==> r.request.InstallPackage? || r.request.ListInstalled? || r.request.UninstallApp?
    ensures r.Issue? && r.request.InstallPackage? ==> |args| >= 2 && r.request.path == ResolvePath(cwd, args[1])
    ensures r.Issue? && r.request.UninstallApp? ==> |args| >= 2 && r.request.appId == args[1]
    ensures r.Usage? ==> r.lines == [InstallUsage] || r.lines == [UninstallUsage]
    ensures args[0] == "install" ==>
      r == if |args| < 2 then Usage([InstallUsage]) else Issue(InstallPackage(ResolvePath(cwd, args[1])))
    ensures args[0] == "list-installed" <==> r == Issue(ListInstalled)
    ensures args[0] == "uninstall" ==>
      r == if |args| < 2 then Usage([UninstallUsage]) else Issue(UninstallApp(args[1]))
    ensures r.UnknownPackageCommand? <==> args[0] !in {"install", "list-installed", "uninstall"}
    ensures r.UnknownPackageCommand? ==> r.sub == args[0]
  {
    match args[0]
    case "install" =>
      if |args| < 2 then Usage([InstallUsage]) else Issue(InstallPackage(ResolvePath(cwd, args[1])))
    case "list-installed" => Issue(ListInstalled)
    case "uninstall" =>
      if |args| < 2 then Usage([UninstallUsage]) else Issue(UninstallApp(args[1]))
    case _ => UnknownPackageCommand(args[0])
  }

  /** The command words `executeCommand` knows. */
  const CommandWords: set<string> := {"help", "ls", "cd", "mkdir", "cf", "pkgm", "clear"}

  /** The `switch (cmd)` of `executeCommand`, given the command word and its arguments. */
  function Command(cwd: string, cmd: string, args: seq<string>): (r: Outcome)
    requires forall i :: 0 <= i < |args| ==> args[i] != ""
    ensures cmd in {"cd", "mkdir", "cf"} && |args| == 0 <==> r.Usage? && |r.lines| == 1 && r.lines[0] in {CdUsage, MkdirUsage, CfUsage}
    ensures r.Issue? && r.request.ChangeDir? ==> cmd == "cd" && r.request.path == ResolvePath(cwd, args[0])
    ensures r.Issue? && r.request.CreateEntry? ==>
      && |args| > 0 && r.request.parent == cwd && r.request.name == args[0]
      && (r.request.kind == "folder" <==> cmd == "mkdir")
      && (r.request.kind == "file" <==> cmd == "cf")
    ensures r.Issue? && r.request.ListDir? ==>
      cmd == "ls" && r.request.path == if |args| > 0 then ResolvePath(cwd, args[0]) else cwd
    ensures cmd == "help" <==> r.ShowHelp?
    ensures cmd == "clear" <==> r.ClearScreen?
    ensures cmd == "ls" ==> r.Issue? && r.request.ListDir?
    ensures cmd == "cd" && |args| > 0 ==> r == Issue(ChangeDir(ResolvePath(cwd, args[0])))
    ensures cmd in {"mkdir", "cf"} && |args| > 0 ==> r.Issue? && r.request.CreateEntry?
    ensures cmd == "pkgm" ==> r == if |args| == 0 then Usage([PkgmUsage, PkgmCommands]) else Package(cwd, args)
    ensures r.UnknownCommand? <==> cmd !in CommandWords
    ensures r.UnknownCommand? ==> r.cmd == cmd
  {
    match cmd
    case "help" => ShowHelp
    case "ls" => Issue(ListDir(if |args| > 0 && args[0] != "" then ResolvePath(cwd, args[0]) else cwd))
    case "cd" => if |args| == 0 then Usage([CdUsage]) else Issue(ChangeDir(ResolvePath(cwd, args[0])))
    case "mkdir" => if |args| == 0 then Usage([MkdirUsage]) else Issue(CreateEntry(cwd, args[0], "folder"))
    case "cf" => if |args| == 0 then Usage([CfUsage]) else Issue(CreateEntry(cwd, args[0], "file"))
    case "pkgm" => if |args| == 0 then Usage([PkgmUsage, PkgmCommands]) else Package(cwd, args)
    case "clear" => ClearScreen
    case _ => UnknownCommand(cmd)
  }

  /** `executeCommand`: the first token picks the command, the rest are its arguments. */
  function Execute(cwd: string, line: string): (r: Outcome)
    ensures var t := Tokens(line);
      t[0] in {"cd", "mkdir", "cf"} && |t| == 1 <==> r.Usage? && |r.lines| == 1 && r.lines[0] in {CdUsage, MkdirUsage, CfUsage}
    ensures r.Issue? && r.request.ChangeDir? ==> Tokens(line)[0] == "cd" && r.request.path == ResolvePath(cwd, Tokens(line)[1])
    ensures r.Issue? && r.request.CreateEntry? ==>
      && |Tokens(line)| > 1 && r.request.parent == cwd && r.request.name == Tokens(line)[1]
      && (r.request.kind == "folder" <==> Tokens(line)[0] == "mkdir")
      && (r.request.kind == "file" <==> Tokens(line)[0] == "cf")
    ensures r.Issue? && r.request.ListDir? ==>
      Tokens(line)[0] == "ls" && r.request.path == if |Tokens(line)| > 1 then ResolvePath(cwd, Tokens(line)[1]) else cwd
    ensures Tokens(line)[0] == "help" <==> r.ShowHelp?
    ensures Tokens(line)[0] == "clear" <==> r.ClearScreen?
    ensures Tokens(line)[0] == "ls" ==> r.Issue? && r.request.ListDir?
    ensures Tokens(line)[0] == "cd" && |Tokens(line)| > 1 ==> r == Issue(ChangeDir(ResolvePath(cwd, Tokens(line)[1])))
    ensures Tokens(line)[0] in {"mkdir", "cf"} && |Tokens(line)| > 1 ==> r.Issue? && r.request.CreateEntry?
    ensures Tokens(line)[0] == "pkgm" ==>
      r == if |Tokens(line)| == 1 then Usage([PkgmUsage, PkgmCommands]) else Package(cwd, Tokens(line)[1..])
    ensures r.UnknownCommand? <==> Tokens(line)[0] !in CommandWords
    ensures r.UnknownCommand? ==> r.cmd == Tokens(line)[0]
  {
    var t := Tokens(line);
    assert forall i :: 0 <= i < |t[1..]| ==> t[1..][i] == t[i + 1];
    Command(cwd, t[0], t[1..])
  }

  /** A command word, one space and an argument word tokenise into those two words. */
  lemma TokensOfPair(cmd: string, arg: string)
    requires cmd != "" && NoSpace(cmd) && arg != "" && NoSpace(arg)
    ensures Tokens(cmd + " " + arg) == [cmd, arg]
  {
    TokensOfWords([cmd, arg]);
    assert [cmd, arg][1..] == [arg];
  }

  /** `mkdir NAME` asks the server for a folder named NAME in the current directory. */
  lemma MkdirCommand(cwd: string, name: string)
    requires name != "" && NoSpace(name)
    ensures Execute(cwd, "mkdir " + name) == Issue(CreateEntry(cwd, name, "folder"))
  {
    MkdirTokens(name);
    CreateOfTokens(cwd, "mkdir " + name, "mkdir", name);
  }

  lemma MkdirTokens(name: string)
    requires name != "" && NoSpace(name)
    ensures Tokens("mkdir " + name) == ["mkdir", name]
  {
    assert NoSpace("mkdir");
    TokensOfPair("mkdir", name);
    assert "mkdir " == "mkdir" + " ";
    assert "mkdir " + name == "mkdir" + " " + name;
  }

  /** `cf NAME` asks the server for a file named NAME in the current directory. */
  lemma CfCommand(cwd: string, name: string)
    requires name != "" && NoSpace(name)
    ensures Execute(cwd, "cf " + name) == Issue(CreateEntry(cwd, name, "file"))
  {
    CfTokens(name);
    CreateOfTokens(cwd, "cf " + name, "cf", name);
  }

  /** A two-word line headed by `mkdir` or `cf` issues the matching create request. */
  lemma CreateOfTokens(cwd: string, line: string, cmd: string, name: string)
    requires cmd == "mkdir" || cmd == "cf"
    requires Tokens(line) == [cmd, name]
    ensures Execute(cwd, line) == Issue(CreateEntry(cwd, name, if cmd == "mkdir" then "folder" else "file"))
  {
  }

  lemma CfTokens(name: string)
    requires name != "" && NoSpace(name)
    ensures Tokens("cf " + name) == ["cf", name]
  {
    assert NoSpace("cf");
    TokensOfPair("cf", name);
    assert "cf " == "cf" + " ";
    assert "cf " + name == "cf" + " " + name;
  }

  /** The terminal's state: its working directory and the text in the input box. */
  datatype TermState = TermState(cwd: string, command: string)

  /**
   * `handleCommandSubmit`: a blank line runs nothing and keeps the input box;
   * anything else runs and clears it. `listingOk` is whether the listing a
   * `cd` requests succeeds, the only reply that changes the state.
   */
  function Submit(s: TermState, listingOk: bool): (r: (TermState, Option<Outcome>))
    ensures Trim(s.command) == "" <==> r.1.None?
    ensures r.1.None? ==> r.0 == s
    ensures r.1.Some? ==> r.1.value == Execute(s.cwd, s.command) && r.0.command == ""
    ensures r.0.cwd != s.cwd ==> listingOk && Tokens(s.command)[0] == "cd" && |Tokens(s.command)| > 1
    ensures IsNormal(r.0.cwd) || r.0.cwd == s.cwd
    ensures Trim(s.command) != "" && listingOk && Tokens(s.command)[0] == "cd" && |Tokens(s.command)| > 1 ==>
      r.0.cwd == ResolvePath(s.cwd, Tokens(s.command)[1])
    ensures !listingOk ==> r.0.cwd == s.cwd
  {
    if Trim(s.command) == "" then (s, None)
    else
      var outcome := Execute(s.cwd, s.command);
      var cwd := if outcome.Issue? && outcome.request.ChangeDir? && listingOk then outcome.request.path else s.cwd;
      (TermState(cwd, ""), Some(outcome))
  }

  /** The working directory starts at `/`, which is normal; `Submit` keeps it normal. */
  lemma InitialNormal()
    ensures IsNormal(TermState("/", "").cwd)
  {
    SegmentsOfAbsolute([]);
  }
}

=== FILE: text_editor.dfy ===
/**
 * The text editor's state: the content, the unsaved-changes flag and the
 * saving flag, with the Tab key's splice, typing, dropping a file and saving.
 * The save request's answer and the dropped file's contents are parameters.
 */
module TextEditor {
  import opened Common

  /** What a Tab inserts. */
  const Indent := "    "

  const NoPath := "Editor not properly initialized: No file path."
  const SavedDefault := "File saved successfully!"
  const RejectedDefault := "Failed to save file."
  const Unreachable := "Failed to connect to local server or save file."
  const Loaded := "File loaded successfully! Remember to save your changes."
  const Unreadable := "Failed to read the dropped file."

  datatype Editor = Editor(content: string, edited: bool, saving: bool, filePath: Option<string>)

  /** A notification the editor raises: its text and its kind. */
  datatype Note = Note(message: string, kind: string)

  /** The editor as mounted: `initialContent || ''`, nothing edited. */
  function Initial(filePath: Option<string>, initialContent: Option<string>): (r: Editor)
    ensures !r.edited && !r.saving && r.filePath == filePath
    ensures Truthy(initialContent) ==> r.content == initialContent.value
    ensures !Truthy(initialContent) ==> r.content == ""
  {
    Editor(if Truthy(initialContent) then initialContent.value else "", false, false, filePath)
  }

  /** The Save button is enabled exactly when there are unsaved changes and no save is running. */
  predicate SaveEnabled(e: Editor)
  {
    e.edited && !e.saving
  }

  /** `String.prototype.substring`: both ends clamped to the string, swapped when out of order. */
  function Substring(s: string, a: int, b: int): (r: string)
    ensures 0 <= a <= b <= |s| ==> r == s[a..b]
    ensures |r| <= |s|
  {
    var lo := if a < 0 then 0 else if a > |s| then |s| else a;
    var hi := if b < 0 then 0 else if b > |s| then |s| else b;
    if lo <= hi then s[lo..hi] else s[hi..lo]
  }

  /** The Tab key: the selection is replaced by four spaces, and the cursor goes after them. */
  datatype Tabbed = Tabbed(editor: Editor, cursor: int)

  function Tab(e: Editor, start: int, end: int): (r: Tabbed)
    ensures r.editor.edited && r.editor.saving == e.saving && r.editor.filePath == e.filePath
    ensures r.cursor == start + 4
  {
    var c := e.content;
    Tabbed(e.(content := Substring(c, 0, start) + Indent + Substring(c, end, |c|), edited := true), start + 4)
  }

  /** Within the content, Tab keeps what lies before and after the selection and nothing of it. */
  lemma TabSplice(e: Editor, start: int, end: int)
    requires 0 <= start <= end <= |e.content|
    ensures var r := Tab(e, start, end).editor.content;
      && |r| == |e.content| - (end - start) + 4
      && r[..start] == e.content[..start]
      && r[start..start + 4] == Indent
      && r[start + 4..] == e.content[end..]
      && Tab(e, start, end).cursor == start + |Indent|
  {
    var r := Tab(e, start, end).editor.content;
    assert r == e.content[..start] + Indent + e.content[end..];
  }

  /** Tab with an empty selection inserts the indent at the cursor. */
  lemma TabInserts(e: Editor, at: int)
    requires 0 <= at <= |e.content|
    ensures Tab(e, at, at).editor.content == e.content[..at] + Indent + e.content[at..]
  {
  }

  /** Typing: the textarea's new value becomes the content. */
  function Change(e: Editor, value: string): (r: Editor)
    ensures r.content == value && r.edited
    ensures r.saving == e.saving && r.filePath == e.filePath
  {
    e.(content := value, edited := true)
  }

  /** What is dropped onto the editor. */
  datatype Dropped = NoFile | Readable(text: string) | Broken

  /**
   * `handleDrop`: nothing without a file, nothing when unsaved changes exist and
   * the user declines, otherwise the file's text replaces the content.
   */
  function Drop(e: Editor, file: Dropped, confirmed: bool): (r: (Editor, Option<Note>))
    ensures file.NoFile? ==> r == (e, None)
    ensures file != NoFile && e.edited && !confirmed ==> r == (e, None)
    ensures file.Broken? && (!e.edited || confirmed) ==> r == (e, Some(Note(Unreadable, "error")))
    ensures file.Readable? && (!e.edited || confirmed) ==>
      r.0 == e.(content := file.text, edited := true) && r.1 == Some(Note(Loaded, "success"))
  {
    if file.NoFile? then (e, None)
    else if e.edited && !confirmed then (e, None)
    else match file
      case Readable(text) => (e.(content := text, edited := true), Some(Note(Loaded, "success")))
      case _ => (e, Some(Note(Unreadable, "error")))
  }

  /** How the save request ends; `message` is the server's optional message. */
  datatype SaveAnswer = Accepted(message: Option<string>) | Rejected(message: Option<string>) | Lost

  /** The state once a save has finished, whether a request was made, and the notification. */
  datatype Saved = Saved(editor: Editor, requested: bool, note: Note)

  /** `handleSave`: no request without a path; otherwise only an accepted save clears the flag. */
  function Save(e: Editor, answer: SaveAnswer): (r: Saved)
    ensures !Truthy(e.filePath) ==> r == Saved(e, false, Note(NoPath, "error"))
    ensures Truthy(e.filePath) ==> r.requested && !r.editor.saving
    ensures Truthy(e.filePath) ==> r.editor.content == e.content && r.editor.filePath == e.filePath
    ensures Truthy(e.filePath) ==> (r.editor.edited <==> e.edited && !answer.Accepted?)
    ensures Truthy(e.filePath) ==> (r.note.kind == "success" <==> answer.Accepted?)
    ensures Truthy(e.filePath) && answer.Lost? ==> r.note.message == Unreachable
    ensures Truthy(e.filePath) && answer.Accepted? ==>
      r.note.message == if Truthy(answer.message) then answer.message.value else SavedDefault
    ensures Truthy(e.filePath) && answer.Rejected? ==>
      r.note.message == if Truthy(answer.message) then answer.message.value else RejectedDefault
  {
    if !Truthy(e.filePath) then Saved(e, false, Note(NoPath, "error"))
    else
      var done := e.(saving := false);
      match answer
      case Accepted(m) => Saved(done.(edited := false), true, Note(if Truthy(m) then m.value else SavedDefault, "success"))
      case Rejected(m) => Saved(done, true, Note(if Truthy(m) then m.value else RejectedDefault, "error"))
      case Lost => Saved(done, true, Note(Unreachable, "error"))
  }

  /** An edit enables Save, an accepted save disables it again and keeps the edited text. */
  lemma EditThenSave(e: Editor, value: string, m: Option<string>)
    requires !e.saving && Truthy(e.filePath)
    ensures SaveEnabled(Change(e, value))
    ensures !SaveEnabled(Save(Change(e, value), Accepted(m)).editor)
    ensures Save(Change(e, value), Accepted(m)).editor.content == value
  {
  }

  /** A failed save keeps the unsaved changes and Save stays enabled. */
  lemma FailedSaveKeepsEdits(e: Editor, answer: SaveAnswer)
    requires e.edited && Truthy(e.filePath) && !answer.Accepted?
    ensures Save(e, answer).editor.edited
    ensures SaveEnabled(Save(e, answer).editor)
  {
  }
}

=== FILE: vfs.dfy ===
/**
 * The server's file endpoints (server/server.js): list, create, read, write and
 * delete, each behind the bearer-token gate and the path sandbox. The disk is
 * the whole physical tree, keyed by absolute segment lists, so that a request
 * that leaves the VFS root is visible in the model.
 */
module Vfs {
  import opened Common
  import opened Strings
  import opened PosixPath
  import opened Sandbox
  import opened Sessions

  datatype Node = Folder | File(content: string)

  /**
   * The 201 message of `create`. Its placeholders are not inside `${}`, so the
   * reply is this constant text for every item.
   */
  const CreatedMessage: string := "<span class=\"math-inline\">{type} \"</span>{name}\" created successfully."

  /** Every node of the disk by its absolute path segments; `[]` is `/`. */
  type Tree = map<seq<string>, Node>

  function Parent(key: seq<string>): seq<string>
    requires |key| > 0
  {
    key[..|key| - 1]
  }

  /** `/` is a folder and every other node sits in a folder. */
  predicate WellFormed(t: Tree)
  {
    && [] in t && t[[]] == Folder
    && forall k :: k in t && k != [] ==> Parent(k) in t && t[Parent(k)] == Folder
  }

  /** Some proper ancestor of `key` is a file. */
  predicate Blocked(t: Tree, key: seq<string>)
  {
    exists i :: 0 <= i < |key| && key[..i] in t && t[key[..i]].File?
  }

  datatype Stat = Found(node: Node) | NoEnt | NotDir

  /**
   * What `fs.stat`, `fs.access` and `fs.readdir` report for a path: ENOTDIR when
   * an ancestor is a file or a file is named with a trailing slash, ENOENT when
   * nothing is there.
   */
  function Lookup(t: Tree, key: seq<string>, trailing: bool): (s: Stat)
    ensures s.Found? ==> key in t && s.node == t[key] && !(trailing && s.node.File?)
    ensures s.NoEnt? <==> key !in t && !Blocked(t, key)
  {
    if Blocked(t, key) then NotDir
    else if key !in t then NoEnt
    else if trailing && t[key].File? then NotDir
    else Found(t[key])
  }

  lemma {:induction false} WellFormedUnblocked(t: Tree, key: seq<string>)
    requires WellFormed(t) && key in t
    ensures !Blocked(t, key)
    decreases |key|
  {
    if key != [] {
      var p := Parent(key);
      WellFormedUnblocked(t, p);
      forall i | 0 <= i < |key| && key[..i] in t
        ensures t[key[..i]].Folder?
      {
        if i == |key| - 1 {
          assert key[..i] == p;
        } else {
          assert key[..i] == p[..i];
        }
      }
    }
  }

  /** In a well-formed disk a lookup finds exactly the nodes that are there. */
  lemma LookupWellFormed(t: Tree, key: seq<string>, trailing: bool)
    requires WellFormed(t)
    ensures Lookup(t, key, trailing).Found? <==> key in t && !(trailing && t[key].File?)
  {
    if key in t {
      WellFormedUnblocked(t, key);
    }
  }

  /** The segments and trailing slash of a resolved path string. */
  datatype Target = Target(key: seq<string>, trailing: bool)

  function TargetOf(abs: string): Target
    requires abs != ""
  {
    Target(PathKey(abs), abs[|abs| - 1] == '/')
  }

  /** Where a request path lands, or `None` when the sandbox refuses it. */
  function Locate(root: string, rel: string): Option<Target>
  {
    match GetAbsolutePath(root, rel)
    case None => None
    case Some(abs) => Some(TargetOf(abs))
  }

  /** An absolute request path lands on the root's segments followed by its own. */
  lemma LocateAbsolute(root: string, rel: string)
    requires ValidRoot(root) && rel != "" && rel[0] == '/'
    ensures Locate(root, rel).Some?
    ensures Locate(root, rel).value.key == RootKey(root) + Walk([], Split(rel, {'/'}), false)
  {
    AbsoluteRequestStaysInside(root, rel);
  }

  /** One entry of a listing, `{ name, type }`. */
  datatype Item = Item(name: string, kind: string)

  function KindOf(n: Node): string
  {
    if n.Folder? then "folder" else "file"
  }

  function NodeOfKind(kind: string): Node
  {
    if kind == "folder" then Folder else File("")
  }

  /** The entries `fs.readdir` returns for the folder `key`. */
  function Children(t: Tree, key: seq<string>): set<Item>
  {
    set k | k in t && |k| == |key| + 1 && k[..|key|] == key :: Item(k[|key|], KindOf(t[k]))
  }

  lemma ChildrenMeaning(t: Tree, key: seq<string>, name: string, kind: string)
    ensures Item(name, kind) in Children(t, key) <==>
      key + [name] in t && KindOf(t[key + [name]]) == kind
  {
    var k := key + [name];
    if k in t && KindOf(t[k]) == kind {
      assert k[..|key|] == key && k[|key|] == name;
    }
    if Item(name, kind) in Children(t, key) {
      var k' :| k' in t && |k'| == |key| + 1 && k'[..|key|] == key && Item(k'[|key|], KindOf(t[k'])) == Item(name, kind);
      assert k' == k'[..|key|] + [k'[|key|]];
    }
  }

  /** No node has `key` as its parent. */
  predicate Childless(t: Tree, key: seq<string>)
  {
    forall k :: k in t && k != [] ==> Parent(k) != key
  }

  lemma ChildListed(t: Tree, key: seq<string>, k: seq<string>)
    requires k in t && k != []
    ensures Parent(k) == key ==> Item(Last(k), KindOf(t[k])) in Children(t, key)
  {
    if Parent(k) == key {
      assert k[..|key|] == key && |k| == |key| + 1;
    }
  }

  lemma EmptyListingChildless(t: Tree, key: seq<string>)
    requires Children(t, key) == {}
    ensures Childless(t, key)
  {
    forall k | k in t && k != []
      ensures Parent(k) != key
    {
      ChildListed(t, key, k);
    }
  }

  lemma RemoveKeepsWellFormed(t: Tree, key: seq<string>)
    requires WellFormed(t) && key != [] && Childless(t, key)
    ensures WellFormed(t - {key})
  {
  }

  /** Adding a node under an existing folder keeps the disk well formed and changes nothing else. */
  lemma AddKeepsWellFormed(t: Tree, key: seq<string>, n: Node)
    requires key != [] && key !in t && Parent(key) in t && t[Parent(key)] == Folder
    ensures WellFormed(t) ==> WellFormed(t[key := n])
    ensures t.Keys < t[key := n].Keys
    ensures forall k :: k in t ==> t[key := n][k] == t[k]
  {
    assert key in t[key := n].Keys;
  }

  datatype Listing = Listing(reply: Reply, items: set<Item>)

  /** `GET /api/vfs/list`; a missing path lists `/`. */
  function List(root: string, t: Tree, path: Option<string>): (r: Listing)
    ensures r.reply.status in {200, 404, 500}
    ensures r.reply.status == 200 <==>
      var target := Locate(root, if Truthy(path) then path.value else "/");
      target.Some? && Lookup(t, target.value.key, target.value.trailing) == Found(Folder)
    ensures r.reply.status == 200 ==>
      r.items == Children(t, Locate(root, if Truthy(path) then path.value else "/").value.key)
    ensures r.reply.status != 200 ==> r.items == {}
    ensures r.reply.status == 404 <==>
      var target := Locate(root, if Truthy(path) then path.value else "/");
      target.Some? && Lookup(t, target.value.key, target.value.trailing) == NoEnt
    ensures r.reply.status == 404 ==> r.reply.message == "Path not found."
  {
    var vfsPath := if Truthy(path) then path.value else "/";
    match Locate(root, vfsPath)
    case None => Listing(Reply(500, "Failed to list directory contents."), {})
    case Some(target) =>
      match Lookup(t, target.key, target.trailing)
      case NoEnt => Listing(Reply(404, "Path not found."), {})
      case NotDir => Listing(Reply(500, "Failed to list directory contents."), {})
      case Found(node) =>
        if node.Folder? then Listing(Reply(200, ""), Children(t, target.key))
        else Listing(Reply(500, "Failed to list directory contents."), {})
  }

  datatype Outcome = Outcome(reply: Reply, tree: Tree)

  /**
   * The part of `POST /api/vfs/create` after the path is resolved: `fs.access`
   * finds an existing node (409), then `mkdir` or `writeFile(path, '')` needs
   * the parent folder; any other failure is reported as 500.
   */
  function CreateAt(t: Tree, target: Target, name: string, kind: string): (r: Outcome)
    requires kind == "folder" || kind == "file"
    ensures r.reply.status in {201, 409, 500}
    ensures r.reply.status == 409 <==> Lookup(t, target.key, target.trailing).Found?
    ensures r.reply.status != 201 ==> r.tree == t
    ensures r.reply.status == 201 ==>
      target.key !in t && r.tree == t[target.key := NodeOfKind(kind)] && t.Keys < r.tree.Keys
    ensures r.reply.status == 201 <==>
      && Lookup(t, target.key, target.trailing).NoEnt?
      && target.key != [] && Parent(target.key) in t && t[Parent(target.key)] == Folder
      && !(kind == "file" && target.trailing)
    ensures WellFormed(t) ==> WellFormed(r.tree)
  {
    var key := target.key;
    match Lookup(t, key, target.trailing)
    case Found(_) => Outcome(Reply(409, "Item \"" + name + "\" already exists."), t)
    case NotDir => Outcome(Reply(500, "Failed to create " + kind + "."), t)
    case NoEnt =>
      if key == [] || Parent(key) !in t || !t[Parent(key)].Folder? then
        Outcome(Reply(500, "Failed to create " + kind + "."), t)
      else if kind == "file" && target.trailing then
        Outcome(Reply(500, "Failed to create " + kind + "."), t)
      else
        var created := t[key := NodeOfKind(kind)];
        AddKeepsWellFormed(t, key, NodeOfKind(kind));
        Outcome(Reply(201, CreatedMessage),
                created)
  }

  /**
   * `POST /api/vfs/create`. Only the parent path passes the sandbox; the name is
   * joined on afterwards without any check.
   */
  function Create(root: string, t: Tree, parentPath: Option<string>, name: Option<string>,
                  kind: Option<string>): (r: Outcome)
    ensures r.reply.status in {201, 400, 409, 500}
    ensures r.reply.status == 400 <==>
      !Truthy(parentPath) || !Truthy(name) || !Truthy(kind) || kind.value !in {"folder", "file"}
    ensures r.reply.status != 201 ==> r.tree == t
    ensures WellFormed(t) ==> WellFormed(r.tree)
  {
    if !Truthy(parentPath) || !Truthy(name) || !Truthy(kind) then
      Outcome(Reply(400, "Missing path, name, or type."), t)
    else if kind.value != "folder" && kind.value != "file" then
      Outcome(Reply(400, "Invalid item type."), t)
    else
      match GetAbsolutePath(root, parentPath.value)
      case None => Outcome(Reply(500, "Failed to create " + kind.value + "."), t)
      case Some(absParent) =>
        var target := TargetOf(JoinPaths(absParent, name.value));
        CreateAt(t, target, name.value, kind.value)
  }

  /** A well-formed create request resolves its path, then does `CreateAt` there. */
  lemma CreateResolves(root: string, t: Tree, parent: string, name: string, kind: string)
    requires parent != "" && name != "" && (kind == "folder" || kind == "file")
    requires GetAbsolutePath(root, parent).Some?
    ensures Create(root, t, Some(parent), Some(name), Some(kind))
         == CreateAt(t, TargetOf(JoinPaths(GetAbsolutePath(root, parent).value, name)), name, kind)
  {
  }

  datatype Content = Content(reply: Reply, content: Option<string>)

  /** A file is stored at the located path, no file is on the way to it, and the path has no trailing slash. */
  predicate FileAt(t: Tree, g: Target)
  {
    g.key in t && t[g.key].File? && !Blocked(t, g.key) && !g.trailing
  }

  /** A folder is stored at the located path and no file is on the way to it. */
  predicate FolderAt(t: Tree, g: Target)
  {
    g.key in t && t[g.key].Folder? && !Blocked(t, g.key)
  }

  /** Nothing is stored at the located path and no file is on the way to it. */
  predicate MissingAt(t: Tree, g: Target)
  {
    g.key !in t && !Blocked(t, g.key)
  }

  /** `GET /api/vfs/file`. */
  function ReadFile(root: string, t: Tree, path: Option<string>): (r: Content)
    ensures r.reply.status in {200, 400, 404, 500}
    ensures r.reply.status == 200 <==> r.content.Some?
    ensures r.reply.status == 400 <==>
      !Truthy(path) || var g := Locate(root, path.value); g.Some? && FolderAt(t, g.value)
    ensures r.reply.status == 404 <==>
      Truthy(path) && var g := Locate(root, path.value); g.Some? && MissingAt(t, g.value)
    ensures r.reply.status == 200 <==>
      Truthy(path) && var g := Locate(root, path.value); g.Some? && FileAt(t, g.value)
    ensures r.content.Some? ==>
      Truthy(path) && Locate(root, path.value).Some?
      && var key := Locate(root, path.value).value.key;
         key in t && t[key] == File(r.content.value)
  {
    if !Truthy(path) then Content(Reply(400, "Missing file path."), None)
    else
      match Locate(root, path.value)
      case None => Content(Reply(500, "Failed to read file content."), None)
      case Some(target) =>
        match Lookup(t, target.key, target.trailing)
        case NoEnt => Content(Reply(404, "File not found."), None)
        case NotDir => Content(Reply(500, "Failed to read file content."), None)
        case Found(node) =>
          if node.Folder? then Content(Reply(400, "Cannot get content of a directory."), None)
          else Content(Reply(200, ""), Some(node.content))
  }

  /** `PUT /api/vfs/file`; a body without `content` makes `writeFile` throw (500). */
  function WriteFile(root: string, t: Tree, path: Option<string>, content: Option<string>): (r: Outcome)
    ensures r.reply.status in {200, 400, 404, 500}
    ensures r.tree.Keys == t.Keys
    ensures r.reply.status != 200 ==> r.tree == t
    ensures r.reply.status == 400 <==>
      !Truthy(path) || var g := Locate(root, path.value); g.Some? && FolderAt(t, g.value)
    ensures r.reply.status == 404 <==>
      Truthy(path) && var g := Locate(root, path.value); g.Some? && MissingAt(t, g.value)
    ensures r.reply.status == 200 <==>
      content.Some? && Truthy(path) && var g := Locate(root, path.value); g.Some? && FileAt(t, g.value)
    ensures r.reply.status == 200 ==>
      content.Some? && Truthy(path) && Locate(root, path.value).Some?
      && var key := Locate(root, path.value).value.key;
         key in t && t[key].File? && r.tree == t[key := File(content.value)]
    ensures WellFormed(t) ==> WellFormed(r.tree)
  {
    if !Truthy(path) then Outcome(Reply(400, "Missing file path."), t)
    else
      match Locate(root, path.value)
      case None => Outcome(Reply(500, "Failed to update file content."), t)
      case Some(target) =>
        match Lookup(t, target.key, target.trailing)
        case NoEnt => Outcome(Reply(404, "File not found."), t)
        case NotDir => Outcome(Reply(500, "Failed to update file content."), t)
        case Found(node) =>
          if node.Folder? then Outcome(Reply(400, "Cannot write to a directory."), t)
          else if content.None? then Outcome(Reply(500, "Failed to update file content."), t)
          else Outcome(Reply(200, "File content updated successfully."), t[target.key := File(content.value)])
  }

  /** `DELETE /api/vfs/delete`: a file, or a folder with no entries. */
  function Delete(root: string, t: Tree, path: Option<string>): (r: Outcome)
    ensures r.reply.status in {200, 400, 404, 500}
    ensures r.reply.status != 200 ==> r.tree == t
    ensures r.reply.status == 400 <==>
      !Truthy(path) || var g := Locate(root, path.value);
        g.Some? && FolderAt(t, g.value) && Children(t, g.value.key) != {}
    ensures r.reply.status == 404 <==>
      Truthy(path) && var g := Locate(root, path.value); g.Some? && MissingAt(t, g.value)
    ensures r.reply.status == 200 <==>
      Truthy(path) && var g := Locate(root, path.value);
        g.Some? && g.value.key != [] && (FileAt(t, g.value) || (FolderAt(t, g.value) && Children(t, g.value.key) == {}))
    ensures r.reply.status == 200 ==>
      Truthy(path) && Locate(root, path.value).Some?
      && var key := Locate(root, path.value).value.key;
         key in t && r.tree == t - {key}
    ensures WellFormed(t) ==> WellFormed(r.tree)
  {
    if !Truthy(path) then Outcome(Reply(400, "Missing item path."), t)
    else
      match Locate(root, path.value)
      case None => Outcome(Reply(500, "Failed to delete item."), t)
      case Some(target) =>
        var key := target.key;
        match Lookup(t, key, target.trailing)
        case NoEnt => Outcome(Reply(404, "Item not found."), t)
        case NotDir => Outcome(Reply(500, "Failed to delete item."), t)
        case Found(node) =>
          if node.Folder? && Children(t, key) != {} then
            Outcome(Reply(400, "Cannot delete non-empty folder."), t)
          else if key == [] then
            Outcome(Reply(500, "Failed to delete item."), t)
          else
            assert WellFormed(t) ==> WellFormed(t - {key}) by {
              if WellFormed(t) {
                if node.Folder? {
                  EmptyListingChildless(t, key);
                }
                RemoveKeepsWellFormed(t, key);
              }
            }
            Outcome(Reply(200, "Item deleted successfully."), t - {key})
  }

  /**
   * The sandbox root itself is reachable as `/`, and when it is empty a delete
   * of `/` removes it, as `fs.rmdir` on the empty root directory does.
   */
  lemma EmptyRootDeletable(root: string, t: Tree)
    requires ValidRoot(root)
    requires RootKey(root) in t && t[RootKey(root)] == Folder && !Blocked(t, RootKey(root))
    requires Children(t, RootKey(root)) == {}
    ensures Delete(root, t, Some("/")) == Outcome(Reply(200, "Item deleted successfully."), t - {RootKey(root)})
  {
    LocateAbsolute(root, "/");
    assert "/" == "" + ['/'] + "";
    SplitAppend("", "", '/');
    assert Walk([], ["", ""], false) == [];
    assert RootKey(root) + [] == RootKey(root);
  }

  lemma BlockedAfterUpdate(t: Tree, key: seq<string>, n: Node)
    ensures Blocked(t[key := n], key) <==> Blocked(t, key)
  {
    forall i | 0 <= i < |key|
      ensures key[..i] != key
    {
      assert |key[..i]| != |key|;
    }
  }

  lemma BlockedSubset(t: Tree, u: Tree, key: seq<string>)
    requires u.Keys <= t.Keys && forall k :: k in u ==> u[k] == t[k]
    ensures Blocked(u, key) ==> Blocked(t, key)
  {
  }

  /** A successful write is what the next read of the same path returns. */
  lemma WriteThenRead(root: string, t: Tree, path: Option<string>, c: string)
    ensures var w := WriteFile(root, t, path, Some(c));
      w.reply.status == 200 ==> ReadFile(root, w.tree, path) == Content(Reply(200, ""), Some(c))
  {
    var w := WriteFile(root, t, path, Some(c));
    if w.reply.status == 200 {
      var target := Locate(root, path.value).value;
      BlockedAfterUpdate(t, target.key, File(c));
    }
  }

  /** A deleted path is not found afterwards. */
  lemma DeleteThenRead(root: string, t: Tree, path: Option<string>)
    requires WellFormed(t)
    ensures var d := Delete(root, t, path);
      d.reply.status == 200 ==> ReadFile(root, d.tree, path).reply.status == 404
  {
    var d := Delete(root, t, path);
    if d.reply.status == 200 {
      var key := Locate(root, path.value).value.key;
      WellFormedUnblocked(t, key);
      BlockedSubset(t, d.tree, key);
    }
  }

  /** The segments a create request names: the parent's, then the plain name. */
  lemma CreateTarget(root: string, parent: string, name: string)
    requires ValidRoot(root) && parent != "" && parent[0] == '/' && Plain(name)
    ensures var pt := Locate(root, parent);
      && pt.Some? && pt.value.key == RootKey(root) + Walk([], Split(parent, {'/'}), false)
      && var joined := JoinPaths(GetAbsolutePath(root, parent).value, name);
         TargetOf(joined) == Target(pt.value.key + [name], false)
  {
    var w := Walk([], Split(parent, {'/'}), false);
    var tr := parent[|parent| - 1] == '/' || w == [];
    var v := RootKey(root) + w;
    AbsoluteRequestShown(root, parent);
    AllPlainConcat(RootKey(root), w);
    LocateShown(root, parent, v, tr, name);
  }

  lemma LocateShown(root: string, parent: string, v: seq<string>, tr: bool, name: string)
    requires AllPlain(v) && Plain(name)
    requires GetAbsolutePath(root, parent) == Some(Shown(v, tr))
    ensures Locate(root, parent).Some? && Locate(root, parent).value.key == v
    ensures TargetOf(JoinPaths(GetAbsolutePath(root, parent).value, name)) == Target(v + [name], false)
  {
    ShownTarget(v, tr, name);
  }

  /** The target of a shown path, and of a plain name joined onto it. */
  lemma ShownTarget(v: seq<string>, tr: bool, name: string)
    requires AllPlain(v) && Plain(name)
    ensures Shown(v, tr) != "" && TargetOf(Shown(v, tr)).key == v
    ensures JoinPaths(Shown(v, tr), name) != ""
    ensures TargetOf(JoinPaths(Shown(v, tr), name)) == Target(v + [name], false)
  {
    KeyOfShown(v, tr);
    JoinShownName(v, tr, name);
    ShownEndsPlain(v + [name]);
  }

  /** A plain name created under an absolute folder path shows up in that folder's listing. */
  lemma CreateThenList(root: string, t: Tree, parent: string, name: string, kind: string)
    requires ValidRoot(root) && parent != "" && parent[0] == '/' && Plain(name)
    ensures var c := Create(root, t, Some(parent), Some(name), Some(kind));
      c.reply.status == 201 ==>
        && List(root, c.tree, Some(parent)).reply.status == 200
        && Item(name, kind) in List(root, c.tree, Some(parent)).items
  {
    var c := Create(root, t, Some(parent), Some(name), Some(kind));
    if c.reply.status == 201 {
      CreateTarget(root, parent, name);
      CreateResolves(root, t, parent, name, kind);
      var pt := Locate(root, parent).value;
      var key := pt.key + [name];
      assert c == CreateAt(t, Target(key, false), name, kind);
      assert Parent(key) == pt.key;
      assert !Blocked(t, key);
      var u := c.tree;
      assert u == t[key := NodeOfKind(kind)];
      assert !Blocked(u, pt.key) by {
        forall i | 0 <= i < |pt.key|
          ensures !(pt.key[..i] in u && u[pt.key[..i]].File?)
        {
          assert pt.key[..i] == key[..i];
        }
      }
      assert u[pt.key] == Folder;
      assert Lookup(u, pt.key, pt.trailing) == Found(Folder);
      ChildrenMeaning(u, pt.key, name, kind);
    }
  }

  lemma ExtendUnblocked(t: Tree, pk: seq<string>, name: string)
    requires WellFormed(t) && pk in t && t[pk] == Folder
    ensures !Blocked(t, pk + [name])
  {
    var key := pk + [name];
    WellFormedUnblocked(t, pk);
    forall i | 0 <= i < |key| && key[..i] in t
      ensures t[key[..i]].Folder?
    {
      if i < |pk| {
        assert key[..i] == pk[..i];
      } else {
        assert key[..i] == pk;
      }
    }
  }

  /**
   * In a well-formed disk, creating a plain name under an absolute path succeeds
   * exactly when that path is a folder and the name is not taken there.
   */
  lemma CreateSucceedsWhen(root: string, t: Tree, parent: string, name: string, kind: string)
    requires ValidRoot(root) && WellFormed(t) && parent != "" && parent[0] == '/' && Plain(name)
    requires kind == "folder" || kind == "file"
    ensures Locate(root, parent).Some?
    ensures var pk := Locate(root, parent).value.key;
      Create(root, t, Some(parent), Some(name), Some(kind)).reply.status == 201 <==>
        pk in t && t[pk] == Folder && pk + [name] !in t
  {
    CreateTarget(root, parent, name);
    CreateResolves(root, t, parent, name, kind);
    var pk := Locate(root, parent).value.key;
    var key := pk + [name];
    assert Parent(key) == pk;
    if pk in t && t[pk] == Folder {
      ExtendUnblocked(t, pk, name);
    }
  }

  /** The keys outside the root are untouched. */
  ghost predicate OutsideUnchanged(root: string, t: Tree, u: Tree)
    requires ValidRoot(root)
  {
    forall k :: !Contained(root, k) ==> (k in t <==> k in u) && (k in t ==> u[k] == t[k])
  }

  /** Writes and deletes of absolute paths never touch anything outside the root. */
  lemma AbsoluteRequestsStayInRoot(root: string, t: Tree, path: string, content: Option<string>)
    requires ValidRoot(root) && path != "" && path[0] == '/'
    ensures OutsideUnchanged(root, t, WriteFile(root, t, Some(path), content).tree)
    ensures OutsideUnchanged(root, t, Delete(root, t, Some(path)).tree)
  {
    AbsoluteRequestStaysInside(root, path);
  }

  lemma UpdateInsideRoot(root: string, t: Tree, key: seq<string>, n: Node)
    requires ValidRoot(root) && Contained(root, key)
    ensures OutsideUnchanged(root, t, t[key := n])
  {
  }

  /** A successful create puts the new node at the key its parent path and name resolve to. */
  lemma CreatedAt(root: string, t: Tree, parent: string, name: string, kind: Option<string>, key: seq<string>)
    requires parent != "" && name != "" && GetAbsolutePath(root, parent).Some?
    requires TargetOf(JoinPaths(GetAbsolutePath(root, parent).value, name)).key == key
    ensures var c := Create(root, t, Some(parent), Some(name), kind);
      c.reply.status == 201 ==> c.tree == t[key := NodeOfKind(kind.value)]
  {
    var c := Create(root, t, Some(parent), Some(name), kind);
    if c.reply.status == 201 {
      CreateResolves(root, t, parent, name, kind.value);
    }
  }

  /** Where a successful create of a plain name under an absolute path puts the new node. */
  lemma PlainCreateKey(root: string, t: Tree, parent: string, name: string, kind: Option<string>)
    requires ValidRoot(root) && parent != "" && parent[0] == '/' && Plain(name)
    ensures Locate(root, parent).Some? && Contained(root, Locate(root, parent).value.key + [name])
    ensures var c := Create(root, t, Some(parent), Some(name), kind);
      c.reply.status == 201 ==> c.tree == t[Locate(root, parent).value.key + [name] := NodeOfKind(kind.value)]
  {
    CreateTarget(root, parent, name);
    var pt := Locate(root, parent).value;
    PrefixExtended(RootKey(root), Walk([], Split(parent, {'/'}), false), name);
    CreatedAt(root, t, parent, name, kind, pt.key + [name]);
  }

  lemma PrefixExtended(r: seq<string>, w: seq<string>, name: string)
    ensures r <= (r + w) + [name]
  {
    assert ((r + w) + [name])[..|r|] == r;
  }

  /** A create of a plain name under an absolute path stays inside the root too. */
  lemma PlainCreateStaysInRoot(root: string, t: Tree, parent: string, name: string, kind: Option<string>)
    requires ValidRoot(root) && parent != "" && parent[0] == '/' && Plain(name)
    ensures OutsideUnchanged(root, t, Create(root, t, Some(parent), Some(name), kind).tree)
  {
    PlainCreateKey(root, t, parent, name, kind);
    var c := Create(root, t, Some(parent), Some(name), kind);
    if c.reply.status == 201 {
      UpdateInsideRoot(root, t, Locate(root, parent).value.key + [name], NodeOfKind(kind.value));
    }
  }

  /** The target of `../x` created under a path naming `/`: the sibling `x` of the root. */
  lemma EscapeTarget(root: string, parent: string, x: string)
    requires ValidRoot(root) && Plain(x)
    requires parent != "" && parent[0] == '/' && Walk([], Split(parent, {'/'}), false) == []
    ensures GetAbsolutePath(root, parent).Some?
    ensures var r := RootKey(root);
      TargetOf(JoinPaths(GetAbsolutePath(root, parent).value, "../" + x)) == Target(r[..|r| - 1] + [x], false)
  {
    AbsoluteRequestShown(root, parent);
    assert RootKey(root) + [] == RootKey(root);
    NameClimbsOut(root, x);
    var r := RootKey(root);
    ShownEndsPlain(r[..|r| - 1] + [x]);
  }

  lemma SiblingOutside(root: string, x: string)
    requires ValidRoot(root)
    ensures var r := RootKey(root); r[..|r| - 1] + [x] != r ==> !Contained(root, r[..|r| - 1] + [x])
  {
    var r := RootKey(root);
    var key := r[..|r| - 1] + [x];
    assert key[..|r|] == key;
  }

  /** `create` with the name `../x` under a path naming `/` targets the root's sibling `x`. */
  lemma EscapeResolves(root: string, t: Tree, parent: string, x: string)
    requires ValidRoot(root) && Plain(x)
    requires parent != "" && parent[0] == '/' && Walk([], Split(parent, {'/'}), false) == []
    ensures var r := RootKey(root);
      Create(root, t, Some(parent), Some("../" + x), Some("folder"))
        == CreateAt(t, Target(r[..|r| - 1] + [x], false), "../" + x, "folder")
  {
    EscapeTarget(root, parent, x);
    CreateResolves(root, t, parent, "../" + x, "folder");
  }

  /**
   * The name of a create request is not sandboxed: `../x` under `/` (or any
   * path naming `/`) makes a folder next to the VFS root, outside it.
   */
  lemma CreateNameEscapes(root: string, t: Tree, parent: string, x: string)
    requires ValidRoot(root) && WellFormed(t) && Plain(x)
    requires parent != "" && parent[0] == '/' && Walk([], Split(parent, {'/'}), false) == []
    requires var r := RootKey(root); r in t && r[..|r| - 1] + [x] !in t
    ensures var c := Create(root, t, Some(parent), Some("../" + x), Some("folder"));
      var r := RootKey(root);
      c.reply.status == 201 && c.tree == t[r[..|r| - 1] + [x] := Folder]
      && !Contained(root, r[..|r| - 1] + [x])
  {
    var r := RootKey(root);
    var k := |r| - 1;
    EscapeResolves(root, t, parent, x);
    var pk := if k == 0 then [] else Parent(r);
    assert pk == r[..k];
    CreateUnderFolder(t, Target(r[..k] + [x], false), pk, x, "../" + x);
    SiblingOutside(root, x);
  }

  /** A folder created under an existing folder of a well-formed disk. */
  lemma CreateUnderFolder(t: Tree, target: Target, pk: seq<string>, x: string, name: string)
    requires WellFormed(t) && pk in t && t[pk] == Folder
    requires target.key == pk + [x] && target.key !in t
    ensures CreateAt(t, target, name, "folder").reply.status == 201
    ensures CreateAt(t, target, name, "folder").tree == t[target.key := Folder]
  {
    assert Parent(target.key) == pk;
    ExtendUnblocked(t, pk, x);
  }

  /** A request to any endpoint. */
  datatype Request =
    | ListRequest(path: Option<string>)
    | CreateRequest(parentPath: Option<string>, name: Option<string>, kind: Option<string>)
    | ReadRequest(path: Option<string>)
    | WriteRequest(path: Option<string>, content: Option<string>)
    | DeleteRequest(path: Option<string>)

  datatype Response = Response(reply: Reply, items: set<Item>, content: Option<string>, tree: Tree)

  function Dispatch(root: string, t: Tree, req: Request): Response
  {
    match req
    case ListRequest(path) =>
      var l := List(root, t, path); Response(l.reply, l.items, None, t)
    case CreateRequest(parentPath, name, kind) =>
      var o := Create(root, t, parentPath, name, kind); Response(o.reply, {}, None, o.tree)
    case ReadRequest(path) =>
      var c := ReadFile(root, t, path); Response(c.reply, {}, c.content, t)
    case WriteRequest(path, content) =>
      var o := WriteFile(root, t, path, content); Response(o.reply, {}, None, o.tree)
    case DeleteRequest(path) =>
      var o := Delete(root, t, path); Response(o.reply, {}, None, o.tree)
  }

  /** Every file endpoint runs behind `authenticateToken`. */
  function Serve(root: string, sessions: SessionMap, header: Option<string>, t: Tree, req: Request): (r: Response)
    ensures Authenticate(sessions, header).Denied? ==>
      r.tree == t && r.reply.status in {401, 403} && r.content.None? && r.items == {}
    ensures WellFormed(t) ==> WellFormed(r.tree)
  {
    match Authenticate(sessions, header)
    case Denied(reply) => Response(reply, {}, None, t)
    case Authorized(_) => Dispatch(root, t, req)
  }

  /**
   * The user id is never consulted: every signed-in user sees and changes the
   * same disk, so two valid tokens get the same answer to the same request.
   */
  lemma OneDiskForAllUsers(root: string, sessions: SessionMap, h1: Option<string>, h2: Option<string>,
                           t: Tree, req: Request)
    requires Authenticate(sessions, h1).Authorized? && Authenticate(sessions, h2).Authorized?
    ensures Serve(root, sessions, h1, t, req) == Serve(root, sessions, h2, t, req)
  {
  }
}

=== FILE: vga.dfy ===
/**
 * The VGA text-mode driver: an 80x25 screen stored as 4000 bytes, a character
 * byte followed by a colour byte per cell, and a cursor that `PutChar`
 * advances. The screen is a value; each drawing routine returns the new one.
 */
module Vga {
  import opened Common

  const Width := 80
  const Height := 25
  /** Two bytes per cell. */
  const Size := 4000

  const Black: bv8 := 0
  const Blue: bv8 := 1
  const Green: bv8 := 2
  const LightGrey: bv8 := 7
  const DarkGrey: bv8 := 8
  const LightBlue: bv8 := 9
  const LightGreen: bv8 := 10
  const LightCyan: bv8 := 11
  const White: bv8 := 15

  const Space: bv8 := 32
  const Newline: bv8 := 10

  /** `vga_color`: the foreground in the low nibble, the background shifted into the high one, cut to a byte. */
  function Color(fg: bv8, bg: bv8): (r: bv8)
    ensures r & 15 == fg & 15
    ensures fg < 16 && bg < 16 ==> r & 15 == fg && r >> 4 == bg
  {
    fg | (bg << 4)
  }

  /** Two colour pairs within the sixteen colours give the same byte only when they are the same pair. */
  lemma ColorInjective(a: bv8, b: bv8, c: bv8, d: bv8)
    requires a < 16 && b < 16 && c < 16 && d < 16
    requires Color(a, b) == Color(c, d)
    ensures a == c && b == d
  {
  }

  // ---------------------------------------------------------------------------
  // Cells
  // ---------------------------------------------------------------------------

  /** The column and row of the cell a byte offset belongs to. */
  function Col(k: int): int { (k / 2) % Width }
  function Row(k: int): int { (k / 2) / Width }

  /** The byte offset of a cell's character; its colour follows it. */
  function Index(x: int, y: int): int { 2 * (y * Width + x) }

  /** Byte `k` lies in the `w` by `h` box whose top left cell is (x, y). */
  predicate InBox(k: int, x: int, y: int, w: int, h: int)
  {
    x <= Col(k) < x + w && y <= Row(k) < y + h
  }

  /** What byte `k` of a cell holding `c` in `color` is. */
  function Ink(k: int, c: bv8, color: bv8): bv8
  {
    if k % 2 == 0 then c else color
  }

  /** `after` is `before` with exactly the box's cells set to `c` in `color`; cells off the screen are dropped. */
  ghost predicate Painted(before: seq<bv8>, after: seq<bv8>, x: int, y: int, w: int, h: int, c: bv8, color: bv8)
  {
    && |after| == |before|
    && forall k :: 0 <= k < |before| ==> after[k] == if InBox(k, x, y, w, h) then Ink(k, c, color) else before[k]
  }

  /** A cell on the screen owns exactly the two bytes from its index. */
  lemma CellBytes(k: int, x: int, y: int)
    requires 0 <= k < Size && 0 <= x < Width && 0 <= y < Height
    ensures (Col(k) == x && Row(k) == y) <==> (k == Index(x, y) || k == Index(x, y) + 1)
  {
    var q := k / 2;
    assert q == Width * Row(k) + Col(k);
    if k == Index(x, y) || k == Index(x, y) + 1 {
      assert q == y * Width + x;
    }
  }

  /** `vga_put_char_at`: one cell is written when (x, y) is on the screen, nothing otherwise. */
  function PutCharAt(buf: seq<bv8>, c: bv8, color: bv8, x: int, y: int): (r: seq<bv8>)
    requires |buf| == Size
    ensures Painted(buf, r, x, y, 1, 1, c, color)
    ensures !(0 <= x < Width && 0 <= y < Height) ==> r == buf
    ensures 0 <= x < Width && 0 <= y < Height ==> r[Index(x, y)] == c && r[Index(x, y) + 1] == color
  {
    if 0 <= x < Width && 0 <= y < Height then
      var i := y * Width + x;
      var r := buf[2 * i := c][2 * i + 1 := color];
      assert forall k :: 0 <= k < Size ==> (InBox(k, x, y, 1, 1) <==> (k == 2 * i || k == 2 * i + 1)) by {
        forall k | 0 <= k < Size
          ensures InBox(k, x, y, 1, 1) <==> (k == 2 * i || k == 2 * i + 1)
        {
          CellBytes(k, x, y);
        }
      }
      r
    else
      assert forall k :: 0 <= k < Size ==> 0 <= Col(k) < Width && 0 <= Row(k) < Height;
      buf
  }

  /** The whole screen blank in one colour. */
  function Blank(color: bv8): (r: seq<bv8>)
    ensures |r| == Size
    ensures forall k :: 0 <= k < Size ==> r[k] == Ink(k, Space, color)
  {
    seq(Size, k requires 0 <= k < Size => Ink(k, Space, color))
  }

  /** Every byte of the buffer belongs to a cell on the screen. */
  lemma OnScreen(k: int)
    requires 0 <= k < Size
    ensures InBox(k, 0, 0, Width, Height)
  {
  }

  // ---------------------------------------------------------------------------
  // The cursor
  // ---------------------------------------------------------------------------

  /** The buffer and the cursor `vga_put_char` writes at. */
  datatype Screen = Screen(buf: seq<bv8>, cx: int, cy: int)

  predicate Valid(s: Screen)
  {
    |s.buf| == Size
  }

  /** `vga_clear_screen`: every cell blank in the colour, the cursor home. */
  method ClearScreen(s: Screen, color: bv8) returns (r: Screen)
    requires Valid(s)
    ensures Valid(r) && r.cx == 0 && r.cy == 0
    ensures Painted(s.buf, r.buf, 0, 0, Width, Height, Space, color)
    ensures r.buf == Blank(color)
  {
    var buf := s.buf;
    var i := 0;
    while i < Width * Height
      invariant 0 <= i <= Width * Height
      invariant |buf| == Size
      invariant forall k :: 0 <= k < Size ==> buf[k] == if k / 2 < i then Ink(k, Space, color) else s.buf[k]
    {
      buf := buf[i * 2 := Space][i * 2 + 1 := color];
      i := i + 1;
    }
    forall k | 0 <= k < Size
      ensures InBox(k, 0, 0, Width, Height)
    {
      OnScreen(k);
    }
    r := Screen(buf, 0, 0);
  }

  /** `vga_set_cursor`: the buffer is untouched. */
  function SetCursor(s: Screen, x: int, y: int): (r: Screen)
    ensures r.buf == s.buf
  {
    s.(cx := x, cy := y)
  }

  /** Whether a character at the cursor pushes it past the last row. */
  predicate Overflows(s: Screen, c: bv8)
  {
    if c == Newline then s.cy + 1 >= Height
    else if s.cx + 1 >= Width then s.cy + 1 >= Height
    else s.cy >= Height
  }

  /**
   * `vga_put_char`: a newline moves to the start of the next row; any other
   * character is written at the cursor, which advances and wraps. Passing the
   * last row clears the screen to white on blue; the clear resets the cursor
   * after row 24 is assigned, so the cursor ends at (0, 0).
   */
  function PutChar(s: Screen, c: bv8, color: bv8): (r: Screen)
    requires Valid(s)
    ensures Valid(r)
    ensures r.cx < Width && r.cy < Height
    ensures 0 <= s.cx && 0 <= s.cy ==> 0 <= r.cx && 0 <= r.cy
    ensures Overflows(s, c) ==> r == Screen(Blank(Color(White, Blue)), 0, 0)
    ensures !Overflows(s, c) && c == Newline ==> r == Screen(s.buf, 0, s.cy + 1)
    ensures !Overflows(s, c) && c != Newline ==> Painted(s.buf, r.buf, s.cx, s.cy, 1, 1, c, color)
    ensures !Overflows(s, c) && c != Newline && s.cx + 1 < Width ==> r.cx == s.cx + 1 && r.cy == s.cy
    ensures !Overflows(s, c) && c != Newline && s.cx + 1 >= Width ==> r.cx == 0 && r.cy == s.cy + 1
  {
    var moved :=
      if c == Newline then Screen(s.buf, 0, s.cy + 1)
      else
        var buf := PutCharAt(s.buf, c, color, s.cx, s.cy);
        if s.cx + 1 >= Width then Screen(buf, 0, s.cy + 1) else Screen(buf, s.cx + 1, s.cy);
    if moved.cy >= Height then Screen(Blank(Color(White, Blue)), 0, 0)
    else moved
  }

  /** A character at the end of the last row is not kept: the screen is wiped and the cursor sent home. */
  lemma LastCellWipes(s: Screen, c: bv8, color: bv8)
    requires Valid(s) && s.cx == Width - 1 && s.cy == Height - 1 && c != Newline
    ensures PutChar(s, c, color).cx == 0 && PutChar(s, c, color).cy == 0
    ensures PutChar(s, c, color).buf[Index(s.cx, s.cy)] == Space
  {
  }

  /** A newline on the last row scrolls nothing: it blanks every cell. */
  lemma NewlineOnLastRow(s: Screen, color: bv8)
    requires Valid(s) && s.cy == Height - 1
    ensures forall k :: 0 <= k < Size ==> PutChar(s, Newline, color).buf[k] == Ink(k, Space, Color(White, Blue))
  {
  }

  // ---------------------------------------------------------------------------
  // Printing
  // ---------------------------------------------------------------------------

  /** The bytes of a C string: everything before the first NUL. */
  function CString(str: seq<bv8>): (r: seq<bv8>)
    ensures |r| <= |str| && r == str[..|r|]
    ensures forall j :: 0 <= j < |r| ==> r[j] != 0
    ensures |r| < |str| ==> str[|r|] == 0
  {
    match FirstIndex(str, (b: bv8) => b == 0)
    case None => str
    case Some(n) => str[..n]
  }

  /** Writing the bytes one after another with `PutChar`. */
  function PrintAll(s: Screen, text: seq<bv8>, color: bv8): (r: Screen)
    requires Valid(s)
    ensures Valid(r)
    decreases |text|
  {
    if text == [] then s else PrintAll(PutChar(s, text[0], color), text[1..], color)
  }

  /** `vga_print`: the string up to its NUL, character by character. */
  method Print(s: Screen, str: seq<bv8>, color: bv8) returns (r: Screen)
    requires Valid(s)
    ensures r == PrintAll(s, CString(str), color)
    ensures Valid(r)
  {
    r := s;
    var i := 0;
    while i < |str| && str[i] != 0
      invariant 0 <= i <= |str|
      invariant forall j :: 0 <= j < i ==> str[j] != 0
      invariant Valid(r)
      invariant PrintAll(s, CString(str), color) == PrintAll(r, CString(str)[i..], color)
    {
      assert i < |CString(str)|;
      assert CString(str)[i..][1..] == CString(str)[i + 1..];
      r := PutChar(r, str[i], color);
      i := i + 1;
    }
    assert i == |CString(str)|;
  }

  /** `after` is `before` with `text` written from (x, y) along one row in `color`, and nothing else changed. */
  ghost predicate Written(before: seq<bv8>, after: seq<bv8>, x: int, y: int, text: seq<bv8>, color: bv8)
  {
    && |after| == |before|
    && forall k :: 0 <= k < |before| ==>
         after[k] == if InBox(k, x, y, |text|, 1) then Ink(k, text[Col(k) - x], color) else before[k]
  }

  /** Text without newlines that fits in the rest of its row is written cell by cell, and the cursor ends after it. */
  lemma {:induction false} PrintRow(s: Screen, text: seq<bv8>, color: bv8)
    requires Valid(s) && 0 <= s.cx && s.cx + |text| < Width && 0 <= s.cy < Height
    requires forall j :: 0 <= j < |text| ==> text[j] != Newline
    ensures Written(s.buf, PrintAll(s, text, color).buf, s.cx, s.cy, text, color)
    ensures PrintAll(s, text, color).cx == s.cx + |text| && PrintAll(s, text, color).cy == s.cy
    decreases |text|
  {
    if text != [] {
      var next := PutChar(s, text[0], color);
      assert !Overflows(s, text[0]);
      assert next.cx == s.cx + 1 && next.cy == s.cy;
      var rest := text[1..];
      assert forall j :: 0 <= j < |rest| ==> rest[j] != Newline by {
        forall j | 0 <= j < |rest| ensures rest[j] != Newline { assert rest[j] == text[j + 1]; }
      }
      PrintRow(next, rest, color);
      assert PrintAll(s, text, color) == PrintAll(next, rest, color);
      WrittenCons(s.buf, next.buf, PrintAll(next, rest, color).buf, s.cx, s.cy, text, color);
    } else {
      WrittenNothing(s.buf, s.cx, s.cy, color);
    }
  }

  lemma WrittenNothing(a: seq<bv8>, x: int, y: int, color: bv8)
    ensures Written(a, a, x, y, [], color)
  {
  }

  /** One character at (x, y) followed by the rest of the text from (x + 1, y) writes the whole text from (x, y). */
  lemma WrittenCons(a: seq<bv8>, b: seq<bv8>, d: seq<bv8>, x: int, y: int, text: seq<bv8>, color: bv8)
    requires text != []
    requires Painted(a, b, x, y, 1, 1, text[0], color) && Written(b, d, x + 1, y, text[1..], color)
    ensures Written(a, d, x, y, text, color)
  {
    forall k | 0 <= k < |a|
      ensures d[k] == if InBox(k, x, y, |text|, 1) then Ink(k, text[Col(k) - x], color) else a[k]
    {
      if InBox(k, x + 1, y, |text| - 1, 1) {
        assert text[1..][Col(k) - (x + 1)] == text[Col(k) - x];
      }
    }
  }

  // ---------------------------------------------------------------------------
  // Lines and rectangles
  // ---------------------------------------------------------------------------

  /** Two boxes without cells paint the same nothing. */
  lemma EmptyBoxes(a: seq<bv8>, b: seq<bv8>, x: int, y: int, w: int, h: int, w2: int, h2: int, c: bv8, color: bv8)
    requires (w <= 0 || h <= 0) && (w2 <= 0 || h2 <= 0)
    requires Painted(a, b, x, y, w, h, c, color)
    ensures Painted(a, b, x, y, w2, h2, c, color)
  {
  }

  /** Painting a box and then the cell to its right paints the box one column wider. */
  lemma WidenBox(a: seq<bv8>, b: seq<bv8>, d: seq<bv8>, x: int, y: int, i: int, c: bv8, color: bv8)
    requires 0 <= i
    requires Painted(a, b, x, y, i, 1, c, color) && Painted(b, d, x + i, y, 1, 1, c, color)
    ensures Painted(a, d, x, y, i + 1, 1, c, color)
  {
  }

  /** `vga_draw_hline`: the row segment of `width` cells, clipped to the screen. */
  method DrawHLine(buf: seq<bv8>, x: int, y: int, width: int, c: bv8, color: bv8) returns (r: seq<bv8>)
    requires |buf| == Size
    ensures Painted(buf, r, x, y, width, 1, c, color)
  {
    r := buf;
    var i := 0;
    while i < width
      invariant 0 <= i && (i <= width || i == 0)
      invariant Painted(buf, r, x, y, i, 1, c, color)
    {
      var next := PutCharAt(r, c, color, x + i, y);
      WidenBox(buf, r, next, x, y, i, c, color);
      r := next;
      i := i + 1;
    }
    if width <= 0 {
      EmptyBoxes(buf, r, x, y, i, 1, width, 1, c, color);
    }
  }

  /** Painting a box and then the cell below it paints the box one row taller. */
  lemma DeepenColumn(a: seq<bv8>, b: seq<bv8>, d: seq<bv8>, x: int, y: int, i: int, c: bv8, color: bv8)
    requires 0 <= i
    requires Painted(a, b, x, y, 1, i, c, color) && Painted(b, d, x, y + i, 1, 1, c, color)
    ensures Painted(a, d, x, y, 1, i + 1, c, color)
  {
  }

  /** `vga_draw_vline`: the column segment of `height` cells, clipped to the screen. */
  method DrawVLine(buf: seq<bv8>, x: int, y: int, height: int, c: bv8, color: bv8) returns (r: seq<bv8>)
    requires |buf| == Size
    ensures Painted(buf, r, x, y, 1, height, c, color)
  {
    r := buf;
    var i := 0;
    while i < height
      invariant 0 <= i && (i <= height || i == 0)
      invariant Painted(buf, r, x, y, 1, i, c, color)
    {
      var next := PutCharAt(r, c, color, x, y + i);
      DeepenColumn(buf, r, next, x, y, i, c, color);
      r := next;
      i := i + 1;
    }
    if height <= 0 {
      EmptyBoxes(buf, r, x, y, 1, i, 1, height, c, color);
    }
  }

  /** Painting a box and then the row below it paints the box one row taller. */
  lemma DeepenBox(a: seq<bv8>, b: seq<bv8>, d: seq<bv8>, x: int, y: int, w: int, row: int, c: bv8, color: bv8)
    requires 0 <= row
    requires Painted(a, b, x, y, w, row, c, color) && Painted(b, d, x, y + row, w, 1, c, color)
    ensures Painted(a, d, x, y, w, row + 1, c, color)
  {
  }

  /** `vga_draw_rect`: exactly the rectangle's cells that are on the screen. */
  method DrawRect(buf: seq<bv8>, x: int, y: int, width: int, height: int, c: bv8, color: bv8) returns (r: seq<bv8>)
    requires |buf| == Size
    ensures Painted(buf, r, x, y, width, height, c, color)
  {
    r := buf;
    var row := 0;
    while row < height
      invariant 0 <= row && (row <= height || row == 0)
      invariant |r| == Size
      invariant Painted(buf, r, x, y, width, row, c, color)
    {
      var next := DrawHLine(r, x, y + row, width, c, color);
      DeepenBox(buf, r, next, x, y, width, row, c, color);
      r := next;
      row := row + 1;
    }
    if height <= 0 {
      EmptyBoxes(buf, r, x, y, width, row, width, height, c, color);
    }
  }
}

=== FILE: windows.dfy ===
/**
 * The desktop's window list: launching an application, opening a file in an
 * editor window, and closing, minimising, maximising and focusing windows, each
 * as a function from the old list to the new one.
 */
module Windows {
  import opened Common

  /** A width or height: a pixel count, or `'100%'` once maximised. */
  datatype Extent = Px(n: int) | FullScreen

  /** One open window; `filePath` is set for editor windows opened on a file. */
  datatype Win = Win(
    id: string, appId: string, title: string,
    x: int, y: int, width: Extent, height: Extent,
    focused: bool, minimized: bool, maximized: bool,
    filePath: Option<string>)

  /** At most one window has the focus. */
  predicate AtMostOneFocused(ws: seq<Win>)
  {
    forall i, j :: 0 <= i < j < |ws| && ws[i].focused ==> !ws[j].focused
  }

  /** No two windows share an id. */
  ghost predicate UniqueIds(ws: seq<Win>)
  {
    DistinctBy(ws, (w: Win) => w.id)
  }

  /** The ids of the open windows. */
  function Ids(ws: seq<Win>): (r: set<string>)
    ensures forall w :: w in ws ==> w.id in r
    ensures forall id :: id in r ==> exists i :: 0 <= i < |ws| && ws[i].id == id
  {
    set i | 0 <= i < |ws| :: ws[i].id
  }

  /** The filter that keeps every window except those with this id. */
  function OtherThan(id: string): Win -> bool
  {
    (w: Win) => w.id != id
  }

  /** `prev.map(win => ({ ...win, focused: false }))`. */
  function Unfocus(ws: seq<Win>): (r: seq<Win>)
    ensures |r| == |ws|
    ensures forall k :: 0 <= k < |ws| ==> r[k] == ws[k].(focused := false)
  {
    seq(|ws|, k requires 0 <= k < |ws| => ws[k].(focused := false))
  }

  /** `focusWindow`: the window moves to the end, focused and restored; all others lose the focus. */
  function Focus(ws: seq<Win>, id: string): (r: seq<Win>)
    ensures (forall k :: 0 <= k < |ws| ==> ws[k].id != id) ==> r == ws
    ensures (exists k :: 0 <= k < |ws| && ws[k].id == id) ==>
      && |r| > 0
      && r[|r| - 1].id == id && r[|r| - 1].focused && !r[|r| - 1].minimized
      && r[..|r| - 1] == Unfocus(Filter(ws, OtherThan(id)))
      && Ids(r) == Ids(ws)
    ensures forall i :: 0 <= i < |ws| && ws[i].id == id && (forall k :: 0 <= k < i ==> ws[k].id != id) ==>
      r[|r| - 1] == ws[i].(focused := true, minimized := false)
  {
    match FirstIndex(ws, (w: Win) => w.id == id)
    case None => ws
    case Some(i) =>
      var rest := Unfocus(Filter(ws, OtherThan(id)));
      var r := rest + [ws[i].(focused := true, minimized := false)];
      FocusIds(ws, id, i);
      FirstMatchUnique(ws, id, i);
      assert r[..|r| - 1] == rest;
      r
  }

  /** The first window with an id is the one `FirstIndex` finds. */
  lemma FirstMatchUnique(ws: seq<Win>, id: string, i: nat)
    requires FirstIndex(ws, (w: Win) => w.id == id) == Some(i)
    ensures forall j :: 0 <= j < |ws| && ws[j].id == id && (forall k :: 0 <= k < j ==> ws[k].id != id) ==> j == i
  {
    assert i < |ws| && ws[i].id == id;
    assert forall k :: 0 <= k < i ==> ws[k].id != id;
  }

  /** Taking the windows with one id out and putting one with that id back leaves the id set alone. */
  lemma FocusIds(ws: seq<Win>, id: string, i: nat)
    requires i < |ws| && ws[i].id == id
    ensures Ids(Unfocus(Filter(ws, OtherThan(id))) + [ws[i].(focused := true, minimized := false)]) == Ids(ws)
  {
    FocusKeepsIds(ws, id, i);
    FocusAddsNoId(ws, id, i);
  }

  lemma FocusKeepsIds(ws: seq<Win>, id: string, i: nat)
    requires i < |ws| && ws[i].id == id
    ensures Ids(ws) <= Ids(Unfocus(Filter(ws, OtherThan(id))) + [ws[i].(focused := true, minimized := false)])
  {
    var kept := Filter(ws, OtherThan(id));
    var u := Unfocus(kept);
    var last := ws[i].(focused := true, minimized := false);
    IdsAppend(u, last);
    forall x | x in Ids(ws)
      ensures x in Ids(u) + {id}
    {
      var k :| 0 <= k < |ws| && ws[k].id == x;
      if x != id {
        assert OtherThan(id)(ws[k]);
        UnfocusedIdIn(kept, ws[k]);
      }
    }
  }

  lemma IdsAppend(ws: seq<Win>, w: Win)
    ensures Ids(ws + [w]) == Ids(ws) + {w.id}
  {
    var r := ws + [w];
    forall x | x in Ids(ws)
      ensures x in Ids(r)
    {
      var k :| 0 <= k < |ws| && ws[k].id == x;
      assert r[k] == ws[k];
    }
    assert r[|ws|] == w;
  }

  lemma UnfocusedIdIn(ws: seq<Win>, w: Win)
    requires w in ws
    ensures w.id in Ids(Unfocus(ws))
  {
    var k :| 0 <= k < |ws| && ws[k] == w;
    assert Unfocus(ws)[k].id == w.id;
  }

  lemma FocusAddsNoId(ws: seq<Win>, id: string, i: nat)
    requires i < |ws| && ws[i].id == id
    ensures Ids(Unfocus(Filter(ws, OtherThan(id))) + [ws[i].(focused := true, minimized := false)]) <= Ids(ws)
  {
    var kept := Filter(ws, OtherThan(id));
    var r := Unfocus(kept) + [ws[i].(focused := true, minimized := false)];
    forall x | x in Ids(r)
      ensures x in Ids(ws)
    {
      var k :| 0 <= k < |r| && r[k].id == x;
      if k < |kept| {
        assert kept[k] in ws;
      }
    }
  }

  /** Focusing keeps at most one window focused. */
  lemma FocusOneFocused(ws: seq<Win>, id: string)
    requires AtMostOneFocused(ws)
    ensures AtMostOneFocused(Focus(ws, id))
  {
    var r := Focus(ws, id);
    if exists k :: 0 <= k < |ws| && ws[k].id == id {
      forall i | 0 <= i < |r| - 1
        ensures !r[i].focused
      {
        assert r[i] == r[..|r| - 1][i];
      }
    }
  }

  /** `closeWindow`: exactly the windows with that id go; the rest keep their order. */
  function Close(ws: seq<Win>, id: string): (r: seq<Win>)
    ensures forall k :: 0 <= k < |r| ==> r[k].id != id && r[k] in ws
    ensures forall k :: 0 <= k < |ws| && ws[k].id != id ==> ws[k] in r
    ensures Ids(r) == Ids(ws) - {id}
    ensures Subsequence(r, ws)
  {
    var r := Filter(ws, OtherThan(id));
    assert forall k :: 0 <= k < |r| ==> OtherThan(id)(r[k]);
    FilterSubsequence(ws, OtherThan(id));
    CloseIds(ws, id);
    r
  }

  lemma CloseIds(ws: seq<Win>, id: string)
    ensures Ids(Filter(ws, OtherThan(id))) == Ids(ws) - {id}
  {
    var r := Filter(ws, OtherThan(id));
    forall x | x in Ids(ws) - {id}
      ensures x in Ids(r)
    {
      var k :| 0 <= k < |ws| && ws[k].id == x;
      assert OtherThan(id)(ws[k]);
      assert ws[k] in r;
    }
    forall x | x in Ids(r)
      ensures x in Ids(ws) - {id}
    {
      var k :| 0 <= k < |r| && r[k].id == x;
      assert OtherThan(id)(r[k]);
      assert r[k] in ws;
    }
  }

  /** Closing keeps at most one window focused. */
  lemma CloseOneFocused(ws: seq<Win>, id: string)
    requires AtMostOneFocused(ws)
    ensures AtMostOneFocused(Close(ws, id))
  {
    FilterKeepsOneFocused(ws, OtherThan(id));
  }

  /** Dropping windows never adds a focused one. */
  lemma {:induction false} FilterKeepsOneFocused(ws: seq<Win>, keep: Win -> bool)
    requires AtMostOneFocused(ws)
    ensures AtMostOneFocused(Filter(ws, keep))
    decreases |ws|
  {
    if ws != [] {
      TailOneFocused(ws);
      FilterKeepsOneFocused(ws[1..], keep);
      var rest := Filter(ws[1..], keep);
      if keep(ws[0]) {
        if ws[0].focused {
          NoneFocusedKept(ws[1..], rest);
        }
        assert Filter(ws, keep) == [ws[0]] + rest;
        ConsOneFocused(ws[0], rest);
      } else {
        assert Filter(ws, keep) == rest;
      }
    }
  }

  /** Behind a focused first window nothing is focused, and the rest has at most one focused window. */
  lemma TailOneFocused(ws: seq<Win>)
    requires ws != [] && AtMostOneFocused(ws)
    ensures AtMostOneFocused(ws[1..])
    ensures ws[0].focused ==> forall k :: 0 <= k < |ws[1..]| ==> !ws[1..][k].focused
  {
    forall i, j | 0 <= i < j < |ws[1..]| && ws[1..][i].focused
      ensures !ws[1..][j].focused
    {
      assert ws[i + 1].focused;
    }
    if ws[0].focused {
      forall k | 0 <= k < |ws[1..]|
        ensures !ws[1..][k].focused
      {
        assert ws[1..][k] == ws[k + 1];
      }
    }
  }

  /** Windows drawn from an unfocused list are unfocused. */
  lemma NoneFocusedKept(ws: seq<Win>, sub: seq<Win>)
    requires forall k :: 0 <= k < |ws| ==> !ws[k].focused
    requires forall j :: 0 <= j < |sub| ==> sub[j] in ws
    ensures forall j :: 0 <= j < |sub| ==> !sub[j].focused
  {
  }

  /** One window put before a list keeps at most one focused when it is unfocused or the list has none. */
  lemma ConsOneFocused(w: Win, rest: seq<Win>)
    requires AtMostOneFocused(rest)
    requires w.focused ==> forall j :: 0 <= j < |rest| ==> !rest[j].focused
    ensures AtMostOneFocused([w] + rest)
  {
    var r := [w] + rest;
    forall i, j | 0 <= i < j < |r| && r[i].focused
      ensures !r[j].focused
    {
      assert r[j] == rest[j - 1];
      if i > 0 {
        assert r[i] == rest[i - 1];
      }
    }
  }

  /** `minimizeWindow`: the target's `minimized` flips and it loses the focus; nothing else changes. */
  function Minimize(ws: seq<Win>, id: string): (r: seq<Win>)
    ensures |r| == |ws|
    ensures forall k :: 0 <= k < |ws| ==>
      r[k] == if ws[k].id == id then ws[k].(minimized := !ws[k].minimized, focused := false) else ws[k]
    ensures AtMostOneFocused(ws) ==> AtMostOneFocused(r)
    ensures Ids(r) == Ids(ws)
  {
    var r := seq(|ws|, k requires 0 <= k < |ws| =>
      if ws[k].id == id then ws[k].(minimized := !ws[k].minimized, focused := false) else ws[k]);
    assert forall k :: 0 <= k < |ws| ==> r[k].id == ws[k].id;
    r
  }

  /** `maximizeWindow`: the target's `maximized` flips and it is placed at the origin, full size. */
  function Maximize(ws: seq<Win>, id: string): (r: seq<Win>)
    ensures |r| == |ws|
    ensures forall k :: 0 <= k < |ws| ==>
      r[k] == if ws[k].id == id
        then ws[k].(maximized := !ws[k].maximized, x := 0, y := 0, width := FullScreen, height := FullScreen)
        else ws[k]
    ensures AtMostOneFocused(ws) ==> AtMostOneFocused(r)
    ensures Ids(r) == Ids(ws)
  {
    var r := seq(|ws|, k requires 0 <= k < |ws| =>
      if ws[k].id == id
      then ws[k].(maximized := !ws[k].maximized, x := 0, y := 0, width := FullScreen, height := FullScreen)
      else ws[k]);
    assert forall k :: 0 <= k < |ws| ==> r[k].id == ws[k].id;
    r
  }

  /** The size and title a freshly launched window gets. */
  datatype Profile = Profile(width: int, height: int, title: string)

  /** The `switch (appId)`: four known applications; anything else is an error window. */
  function ProfileOf(appId: string, title: string): (r: Profile)
    ensures appId !in {"hello-world-app", "file-explorer-app", "text-editor-app", "terminal-app"} ==>
      r == Profile(400, 200, "Error")
    ensures appId in {"hello-world-app", "file-explorer-app", "text-editor-app", "terminal-app"} ==>
      r.title == title
    ensures 400 <= r.width <= 900 && 200 <= r.height <= 600
    ensures appId == "text-editor-app" ==> r.width == 700 && r.height == 500
  {
    match appId
    case "hello-world-app" => Profile(400, 300, title)
    case "file-explorer-app" => Profile(800, 600, title)
    case "text-editor-app" => Profile(700, 500, title)
    case "terminal-app" => Profile(900, 600, title)
    case _ => Profile(400, 200, "Error")
  }

  /** The offset of the n-th window: `(n * 20) % 200`. */
  function Stagger(n: nat): (r: int)
    ensures 0 <= r < 200 && r % 20 == 0
  {
    (n * 20) % 200
  }

  /** The first window of this application that is not minimised. */
  function Existing(ws: seq<Win>, appId: string): (r: Option<nat>)
    ensures r.Some? ==> r.value < |ws| && ws[r.value].appId == appId && !ws[r.value].minimized
    ensures r.Some? ==> forall k :: 0 <= k < r.value ==> ws[k].appId != appId || ws[k].minimized
    ensures r.None? ==> forall k :: 0 <= k < |ws| ==> ws[k].appId != appId || ws[k].minimized
  {
    FirstIndex(ws, (w: Win) => w.appId == appId && !w.minimized)
  }

  /**
   * `launchApp`: a visible window of the same application is focused instead;
   * otherwise one new focused window is appended and every other window loses
   * the focus. `freshId` is the UUID the browser generates.
   */
  function Launch(ws: seq<Win>, appId: string, title: string, filePath: Option<string>, freshId: string): (r: seq<Win>)
    ensures Existing(ws, appId).Some? ==> r == Focus(ws, ws[Existing(ws, appId).value].id)
    ensures Existing(ws, appId).None? ==>
      && |r| == |ws| + 1
      && r[..|ws|] == Unfocus(ws)
      && var w := r[|ws|];
      && w.id == freshId && w.appId == appId && w.focused && !w.minimized && !w.maximized
      && w.x == w.y == 150 + Stagger(|ws|) && 150 <= w.x < 350
      && w.width == Px(ProfileOf(appId, title).width) && w.height == Px(ProfileOf(appId, title).height)
      && w.title == ProfileOf(appId, title).title
      && (w.filePath.Some? <==> Truthy(filePath))
      && (Truthy(filePath) ==> w.filePath == filePath)
  {
    match Existing(ws, appId)
    case Some(i) => Focus(ws, ws[i].id)
    case None =>
      var p := ProfileOf(appId, title);
      var offset := Stagger(|ws|);
      var w := Win(freshId, appId, p.title, 150 + offset, 150 + offset, Px(p.width), Px(p.height),
        true, false, false, if Truthy(filePath) then filePath else None);
      var r := Unfocus(ws) + [w];
      assert r[..|ws|] == Unfocus(ws);
      r
  }

  /** Launching keeps at most one window focused. */
  lemma LaunchOneFocused(ws: seq<Win>, appId: string, title: string, filePath: Option<string>, freshId: string)
    requires AtMostOneFocused(ws)
    ensures AtMostOneFocused(Launch(ws, appId, title, filePath, freshId))
  {
    var r := Launch(ws, appId, title, filePath, freshId);
    if Existing(ws, appId).Some? {
      FocusOneFocused(ws, ws[Existing(ws, appId).value].id);
    } else {
      forall i | 0 <= i < |ws|
        ensures !r[i].focused
      {
        assert r[i] == r[..|ws|][i];
      }
    }
  }

  /** A new window with an unused id keeps the ids distinct. */
  lemma LaunchUniqueIds(ws: seq<Win>, appId: string, title: string, filePath: Option<string>, freshId: string)
    requires UniqueIds(ws) && freshId !in Ids(ws) && Existing(ws, appId).None?
    ensures UniqueIds(Launch(ws, appId, title, filePath, freshId))
  {
    var r := Launch(ws, appId, title, filePath, freshId);
    forall i, j | 0 <= i < j < |r|
      ensures r[i].id != r[j].id
    {
      assert r[i] == r[..|ws|][i];
      if j < |ws| {
        assert r[j] == r[..|ws|][j];
      } else {
        assert ws[i].id in Ids(ws);
      }
    }
  }

  /** How the file fetch of `openFileInEditor` ends. */
  datatype Fetch = Loaded(content: string) | FetchError(message: string)

  /** `/name` at the root, `dir/name` elsewhere. */
  function EditorPath(dir: string, fileName: string): string
  {
    if dir == "/" then "/" + fileName else dir + "/" + fileName
  }

  /** What opening a file shows: the new window list, and the alert text when the fetch failed. */
  datatype Opened = Opened(windows: seq<Win>, alert: Option<string>, fetched: bool)

  /**
   * `openFileInEditor`: an editor already showing the path is focused without
   * a fetch; otherwise the file is fetched and an editor launched through
   * `launchApp`.
   */
  const CannotOpen := "Could not open file: "

  function OpenFileInEditor(ws: seq<Win>, fileName: string, dir: string, fetch: Fetch, freshId: string): (r: Opened)
    ensures var path := EditorPath(dir, fileName);
      var hit := FirstIndex(ws, (w: Win) => w.appId == EditorApp && w.filePath == Some(path));
      && (hit.Some? ==> !r.fetched && r.alert.None? && r.windows == Focus(ws, ws[hit.value].id))
      && (hit.None? ==> r.fetched)
      && (hit.None? && fetch.FetchError? ==> r.windows == ws && r.alert == Some(CannotOpen + fetch.message))
      && (hit.None? && fetch.Loaded? ==>
            r.alert.None? && r.windows == Launch(ws, EditorApp, "Editing: " + fileName, Some(path), freshId))
  {
    var path := EditorPath(dir, fileName);
    match FirstIndex(ws, (w: Win) => w.appId == EditorApp && w.filePath == Some(path))
    case Some(i) => Opened(Focus(ws, ws[i].id), None, false)
    case None =>
      match fetch
      case FetchError(m) => Opened(ws, Some(CannotOpen + m), true)
      case Loaded(_) =>
        Opened(Launch(ws, EditorApp, "Editing: " + fileName, Some(path), freshId), None, true)
  }

  /** No window shows this file. */
  predicate NoneShows(ws: seq<Win>, path: string)
  {
    forall j :: 0 <= j < |ws| ==> ws[j].filePath != Some(path)
  }

  /** Focusing only reorders and refocuses windows: it never shows a new file or adds a window. */
  lemma FocusShowsNothingNew(ws: seq<Win>, id: string, path: string)
    requires NoneShows(ws, path)
    ensures |Focus(ws, id)| <= |ws|
    ensures NoneShows(Focus(ws, id), path)
  {
    var r := Focus(ws, id);
    if exists k :: 0 <= k < |ws| && ws[k].id == id {
      var kept := Filter(ws, OtherThan(id));
      var i :| 0 <= i < |ws| && ws[i].id == id;
      assert !OtherThan(id)(ws[i]);
      forall j | 0 <= j < |r|
        ensures r[j].filePath != Some(path)
      {
        if j < |r| - 1 {
          assert r[j] == r[..|r| - 1][j] == kept[j].(focused := false);
          assert kept[j] in ws;
        } else {
          var m := FirstIndex(ws, (w: Win) => w.id == id).value;
          assert r[j] == ws[m].(focused := true, minimized := false);
        }
      }
    }
  }

  const EditorApp := "text-editor-app"

  /**
   * Because `launchApp` looks for any visible editor window, opening a second
   * file while another file's editor is visible focuses that editor and opens
   * no window for the new file.
   */
  lemma SecondFileFocusesFirstEditor(ws: seq<Win>, fileName: string, dir: string, content: string, freshId: string, k: nat)
    requires k < |ws| && ws[k].appId == EditorApp && !ws[k].minimized
    requires NoneShows(ws, EditorPath(dir, fileName))
    ensures |OpenFileInEditor(ws, fileName, dir, Loaded(content), freshId).windows| <= |ws|
    ensures NoneShows(OpenFileInEditor(ws, fileName, dir, Loaded(content), freshId).windows, EditorPath(dir, fileName))
  {
    var e := Existing(ws, EditorApp);
    assert e.Some?;
    FocusShowsNothingNew(ws, ws[e.value].id, EditorPath(dir, fileName));
  }
}
